=== FILE: README.md ===
# APRG group projects: five puzzle engines, modelled and proved in Dafny

This project models the integer core of five small C++ programs from the
APRG group projects repository. Each is stated as pure functions, or as methods
over sequences, with its properties proved:

- **Game of Life** (`game-of-life`). The reference engine is a `rows × columns`
  grid of `'x'`/`'.'` on a torus, one B3/S23 generation and the checked
  constructor (`LifeReference`). The packed engine (`LifeCell`, `LifePacked`)
  keeps one byte per cell: bit 0 is the alive flag and bits 1–4 are the cached
  live-neighbour count. It is proved to be a refinement of the reference
  engine: `setCell`, `clearCell` and seeding keep every count correct, and
  `next` and `update` agree with the reference step. The text format
  `<columns>,<rows>` followed by the rows is in `LifeFormat`, with a
  parse-after-print round trip. The logic tests of the repository are in
  `LifeExamples`.
- **Peg solitaire** (`peg-solitaire`): the 33-hole English board, move
  generation, apply and undo, peg counting and the backtracking `solve`
  (`PegSolitaire`).
- **Sudoku** (`quiz5`): the 20-peer neighbour relation (`SudokuPeers`),
  bitset domains with forward checking, the minimum-remaining-values choice
  and backtracking with exact restoration of domains (`SudokuSolver`). The
  input reading and the two board layouts of the two programs are in
  `SudokuText`. The two programs share one solver; they differ only in the
  printed layout, chosen by the `padded` flag.
- **Maze** (`quiz4`): best-first search on a 41 × 41 character maze with the
  Chebyshev heuristic and the node order of the priority queue, and marking of
  the path found (`MazeSolver`). The search is proved sound and complete: a
  path is found exactly when a route from start to end exists.
- **Alpha-beta minimax** (`quiz6`): `min_max` over a tree stored implicitly in
  an array, with branching factor `height - 1` (`MinMax`). Its fail-soft bounds
  against plain minimax are proved, as is equality with minimax under the full
  window. The program's and the tests' concrete cases are in `MinMaxExamples`.

`Results` holds the `Result` and `Option` types used for error paths.

## Model

| member | source | states |
|---|---|---|
| LifeCell.GetCount | game-of-life/include/game_of_life.h:19 | the count field `(b >> 1) & 0x0F` is at most 15 |
| LifeCell.Activate | game-of-life/include/game_of_life.h:21 | sets the alive bit, leaves the count and all bits but bit 0 unchanged |
| LifeCell.Deactivate | game-of-life/include/game_of_life.h:22 | clears the alive bit, leaves the count and all bits but bit 0 unchanged |
| LifeCell.Increment | game-of-life/include/game_of_life.h:15-17 | adding 0x02 raises the count by exactly one below 15 and never touches the alive bit |
| LifeCell.Decrement | game-of-life/include/game_of_life.h:15-17 | subtracting 0x02 lowers a positive count by one and never touches the alive bit |
| LifeCell.Pack | game-of-life/include/game_of_life.h:44 | any alive flag combines with any count up to 15 in one byte: the fields are independent |
| LifeCell.ZeroByteIsDeadAlone | game-of-life/include/game_of_life.h:18 | byte 0x00 is a dead cell with no live neighbours |
| LifeCell.PackUnique | game-of-life/include/game_of_life.h:44 | a byte with the unused bits 5–7 clear is determined by its flag and its count |
| LifeReference.Wrap | game-of-life/src/game_of_life.cpp:113-114 | an index at most one step off the grid folds back into range, shifted by a multiple of the size |
| LifeReference.WrapIsSourceModulo | game-of-life/src/game_of_life.cpp:113-114 | the wrap equals the source's `(x + n) % n` |
| LifeReference.NeighborSymmetric | game-of-life/src/game_of_life.cpp:105-109 | `(i, j)` is the `k`-neighbour of `(r, c)` exactly when `(r, c)` is the opposite neighbour of `(i, j)` |
| LifeReference.LiveNeighbors | game-of-life/src/game_of_life.cpp:104-118 | the number of `'x'` among the eight toroidal neighbours is at most 8 |
| LifeReference.NeighborWindow | game-of-life/src/game_of_life.cpp:104-118 | the count is the sum over the 3 × 3 window around the cell without its centre |
| LifeReference.NextCell | game-of-life/src/game_of_life.cpp:24-33 | the next state is `'x'` or `'.'`, and `'x'` exactly when a live cell has 2 or 3 live neighbours or a dead one exactly 3; any other character counts as dead |
| LifeReference.Step | game-of-life/src/game_of_life.cpp:21-36 | one generation keeps the shape and decides every cell from the old grid only |
| LifeReference.Update | game-of-life/src/game_of_life.cpp:19-38 | keeps the dimensions; after at least one generation every cell is `'x'` or `'.'` |
| LifeReference.UpdateAdditive | game-of-life/src/game_of_life.cpp:20 | `a + b` generations are `a` generations followed by `b` more |
| LifeReference.StillLifeForever | game-of-life/src/game_of_life.cpp:20-36 | a grid the step leaves unchanged stays unchanged for any number of generations |
| LifeReference.ExtinctForever | game-of-life/src/game_of_life.cpp:20-36 | a grid that dies out in one generation is the dead grid after any positive number of them |
| LifeReference.DeadGridStill | game-of-life/src/game_of_life.cpp:30-31 | nothing is born on the dead grid |
| LifeReference.DirectionsDistinct | game-of-life/src/game_of_life.cpp:105-114 | on a torus of at least 3 × 3 the eight directions reach eight different cells |
| LifeReference.LoneCellDiesOut | game-of-life/src/game_of_life.cpp:24-33 | a single live cell on a torus of at least 3 × 3 dies and nothing is born |
| LifeReference.ConstructAsWritten | game-of-life/src/game_of_life.cpp:12-13 | the constructor accepts exactly when the row count matches and, for a non-empty seed, the first row's length does |
| LifeReference.RaggedSeedAccepted | game-of-life/src/game_of_life.cpp:12-13 | a seed whose second row is short passes that check |
| LifeReference.Construct | game-of-life/src/game_of_life.cpp:12-13 | the corrected constructor accepts exactly the rectangular seeds, and only seeds the written check accepts |
| LifeReference.UpdateGame | game-of-life/src/game_of_life.cpp:19-38 | `update` on a game keeps its dimensions and its shape |
| LifePacked.CellState | game-of-life/include/game_of_life.h:13-14 | `cellState` is `'x'` exactly when bit 0 is set, else `'.'` |
| LifePacked.Snapshot | game-of-life/include/game_of_life.hpp:40-42 | `getGrid` is a `rows × columns` grid whose entry `(r, c)` is `cellState(r, c)` |
| LifePacked.BirthRaisesCounts | game-of-life/include/game_of_life.h:32-44 | a cell becoming alive raises every cell's true count by the number of directions leading to it |
| LifePacked.DeathLowersCounts | game-of-life/include/game_of_life.h:33-44 | a cell dying lowers every cell's true count by the same amount |
| LifePacked.IncrementNeighbors | game-of-life/include/game_of_life.h:17-32 | adding 0x02 to each of the eight neighbours keeps every alive bit and raises each count by the number of directions reaching that cell |
| LifePacked.DecrementNeighbors | game-of-life/include/game_of_life.h:17-33 | the opposite: each count drops by the number of directions reaching the cell |
| LifePacked.SetCellConsistent | game-of-life/include/game_of_life.h:32-44 | activating a dead cell and incrementing its neighbours re-establishes the layout invariant |
| LifePacked.ClearCellConsistent | game-of-life/include/game_of_life.h:33-44 | deactivating a live cell and decrementing its neighbours re-establishes the layout invariant |
| LifePacked.SetCell | game-of-life/include/game_of_life.h:32-44 | `setCell` keeps the layout invariant, and among the alive bits changes only the target's, to alive |
| LifePacked.ClearCell | game-of-life/include/game_of_life.h:33-44 | `clearCell` keeps the layout invariant, and among the alive bits changes only the target's, to dead |
| LifePacked.RuleOnByteIsNextCell | game-of-life/include/game_of_life.h:10-44 | under the layout invariant, the rule read off one byte's flag and count is the reference rule for that cell |
| LifePacked.AllDecidedIsStep | game-of-life/include/game_of_life.h:29-46 | once every cell holds the rule applied to the untouched previous grid, the grid stands for the reference step |
| LifePacked.Next | game-of-life/include/game_of_life.h:29 | the packed `next` keeps the layout invariant, and its `getGrid` is the reference step of the old `getGrid` |
| LifePacked.Update | game-of-life/include/game_of_life.h:30 | `update(g)` is `g` packed steps, and its `getGrid` is the reference `update` |
| LifePacked.Empty | game-of-life/include/game_of_life.h:18-44 | the all-zero grid is all dead and satisfies the layout invariant |
| LifePacked.PlantedCharGrid | game-of-life/include/game_of_life.hpp:59 | a seed drawn with `'x'` and `'.'` only is its own planted grid |
| LifePacked.FromSeed | game-of-life/include/game_of_life.hpp:31-59 | seeding from the all-zero grid keeps the invariant and yields a grid alive exactly where the seed has `'x'` |
| LifePacked.GetGrid | game-of-life/include/game_of_life.hpp:42-48 | the engine's grid has the construction dimensions, cell by cell `cellState` |
| LifePacked.NewEngine | game-of-life/include/game_of_life.hpp:31 | the declared seed constructor accepts exactly the seeds whose every row has `columns` cells (the corrected check, not the reference one), keeps the dimensions and plants the seed |
| LifePacked.NewEngineGridIsSeed | game-of-life/include/game_of_life.hpp:31-59 | constructing from a `'x'`/`'.'` seed and reading `getGrid` gives the seed back |
| LifePacked.EngineNext | game-of-life/include/game_of_life.hpp:34 | `next` keeps the dimensions and takes the grid one reference step |
| LifePacked.EngineUpdate | game-of-life/include/game_of_life.hpp:36 | `update` keeps the dimensions and is the reference `update` |
| LifeFormat.Stoi | game-of-life/src/game_of_life.cpp:59-62 | a decimal number after leading whitespace, within `int` range; anything else is the dimensions-format error |
| LifeFormat.NatToString | game-of-life/src/game_of_life.cpp:96 | decimal digits without leading zeros whose value is the number |
| LifeFormat.StoiOfIntToString | game-of-life/src/game_of_life.cpp:59-96 | `stoi` reads back what `operator<<` wrote, whatever non-digit text follows |
| LifeFormat.Find | game-of-life/src/game_of_life.cpp:52 | the first position of the character, or none when it does not occur |
| LifeFormat.StripLineEnd | game-of-life/src/game_of_life.cpp:73-78 | drops at most two characters from the end of the line; a line not ending in `\r`/`\n` is unchanged |
| LifeFormat.ParseHeader | game-of-life/src/game_of_life.cpp:50-63 | a header without a comma is the missing-dimensions error; otherwise it splits at the first comma and succeeds exactly when `stoi` reads both sides, giving (columns, rows) as read; every other failure is the invalid-dimensions error |
| LifeFormat.FindIsFirstAt | game-of-life/src/game_of_life.cpp:52 | `find(',')` returns exactly the first comma's position |
| LifeFormat.ExtraCommaIgnored | game-of-life/src/game_of_life.cpp:52-60 | `2,3,4` reads as 2 columns and 3 rows: only the first comma splits, and `stoi` stops at the second |
| LifeFormat.ReadRows | game-of-life/src/game_of_life.cpp:69-84 | succeeds exactly when every row string has `columns` characters, and the seed is then exactly those strings; otherwise a row of the wrong size is reported with its size |
| LifeFormat.ReadRowsFirstBad | game-of-life/src/game_of_life.cpp:69-81 | the row reported is the first of the wrong size: every earlier row fits |
| LifeFormat.Getline | game-of-life/src/game_of_life.cpp:68-70 | a read within the file returns that line; a read past the end returns either the empty line or what the string held before |
| LifeFormat.HeaderLine | game-of-life/src/game_of_life.cpp:50-51 | the header is the first line, or empty for an empty file |
| LifeFormat.RowText | game-of-life/src/game_of_life.cpp:68-78 | row `k` is line `k + 1` stripped of its line ending; past the end of a file that ends in a line break it is empty |
| LifeFormat.RowTextFollowsGetline | game-of-life/src/game_of_life.cpp:68-78 | each row is what one more `getline` into the same string leaves there, stripped, so a file without a final line break repeats its last row |
| LifeFormat.Parse | game-of-life/src/game_of_life.cpp:44-88 | a successful parse is a valid game whose header and rows are those of the text; a header that does not read gives exactly the header's error (no comma, or a number `stoi` rejects), a negative row count fails in `reserve`, and otherwise the first row of the wrong size is the error; the seed check never fails after the rows are read |
| LifeFormat.ParseOfRows | game-of-life/src/game_of_life.cpp:65-87 | when the header reads and every row string has `columns` characters, `fromFile` returns the game made of exactly those rows |
| LifeFormat.MissingRowRepeatsLast | game-of-life/src/game_of_life.cpp:68-84 | `2,3` followed by two rows and no final line break reads a third row equal to the second; with a final line break the third row is empty and rejected |
| LifeFormat.UnreadableColumnsFail | game-of-life/src/game_of_life.cpp:57-63 | the header `a,3` has a comma but no number before it, so parsing fails with the invalid-dimensions error |
| LifeFormat.NegativeRowsFailReserve | game-of-life/src/game_of_life.cpp:65-66 | a header with a negative row count fails in `reserve` |
| LifeFormat.Print | game-of-life/src/game_of_life.cpp:96-100 | one header line and then the rows, one per line |
| LifeFormat.HeaderRoundTrip | game-of-life/src/game_of_life.cpp:52-96 | the printed header reads back as the dimensions |
| LifeFormat.RowsRoundTrip | game-of-life/src/game_of_life.cpp:68-100 | the printed rows read back as the grid |
| LifeFormat.ParsePrintRoundTrip | game-of-life/src/game_of_life.cpp:44-100 | parsing what `toFile` writes gives back the same game when no cell is a line break and the dimensions fit in an `int` |
| LifeExamples.LoneCellTest | game-of-life/test/test_game_of_life_logic.cpp:91-95 | a lone cell on a 3 × 3 torus is dead after one and after two generations |
| LifeExamples.BlockStill | game-of-life/test/test_game_of_life_logic.cpp:96-100 | the 2 × 2 block on a 4 × 4 torus is a still life |
| LifeExamples.BlockTest | game-of-life/test/test_game_of_life_logic.cpp:115-120 | the block is unchanged after one and after two generations |
| PegSolitaire.Set | peg-solitaire/src/peg-solitaire.cpp:93-95 | writing one cell changes that cell and no other |
| PegSolitaire.InitialLayout | peg-solitaire/src/peg-solitaire.cpp:21-37 | every hole of the cross holds a peg except the centre, which is empty; the cells off the cross are invalid |
| PegSolitaire.TransposeHarmless | peg-solitaire/src/peg-solitaire.cpp:33-37 | copying the table with rows and columns swapped gives the table itself |
| PegSolitaire.InitialCounts | peg-solitaire/src/peg-solitaire.cpp:21-37 | the initial board has 33 holes and 32 pegs, and only the centre is empty |
| PegSolitaire.CountRowIsMultiplicity | peg-solitaire/src/peg-solitaire.cpp:108-111 | counting one row's matching cells gives how often the value occurs in the row |
| PegSolitaire.CountIsMultiplicity | peg-solitaire/src/peg-solitaire.cpp:106-113 | counting row by row gives how often the value occurs among all the board's cells |
| PegSolitaire.CountPegs | peg-solitaire/src/peg-solitaire.cpp:106-113 | `countPegs` is the number of peg cells on the board, at most 49 |
| PegSolitaire.IsValidPosition | peg-solitaire/src/peg-solitaire.cpp:40-42 | a valid position is on the 7 × 7 square, so reading it is in bounds, and holds a peg or an empty hole |
| PegSolitaire.InitialValidPositions | peg-solitaire/src/peg-solitaire.cpp:15-42 | on the initial board the valid positions are exactly the cross |
| PegSolitaire.CountSet | peg-solitaire/src/peg-solitaire.cpp:106-113 | replacing one cell changes the count by what left and what came |
| PegSolitaire.JumpsAt | peg-solitaire/src/peg-solitaire.cpp:60-83 | the moves generated from a cell are exactly the legal jumps starting there |
| PegSolitaire.PossibleMoves | peg-solitaire/src/peg-solitaire.cpp:44-89 | `getPossibleMoves` lists exactly the legal jumps: peg, peg over it, empty valid hole two steps away |
| PegSolitaire.StepIsDirection | peg-solitaire/src/peg-solitaire.cpp:49-54 | every orthogonal two-step jump is one of the four directions |
| PegSolitaire.Apply | peg-solitaire/src/peg-solitaire.cpp:91-97 | after `applyMove`, `to` holds a peg, `from` and `removed` are empty unless one of them is `to`, and every other cell is unchanged |
| PegSolitaire.Undo | peg-solitaire/src/peg-solitaire.cpp:99-104 | after `undoMove`, `to` is empty, `from` and `removed` hold pegs unless one of them is `to`, and every other cell is unchanged |
| PegSolitaire.ApplyKeepsValidPositions | peg-solitaire/src/peg-solitaire.cpp:40-42 | a legal jump keeps the set of valid positions as it was |
| PegSolitaire.LegalPositions | peg-solitaire/src/peg-solitaire.cpp:64-76 | the three cells of a legal jump are on the board and different |
| PegSolitaire.ApplyChangesThree | peg-solitaire/src/peg-solitaire.cpp:91-97 | a legal jump empties `from` and `removed`, fills `to`, and changes no other cell |
| PegSolitaire.UndoApply | peg-solitaire/src/peg-solitaire.cpp:91-104 | undoing a legal jump right after applying it restores the board |
| PegSolitaire.ApplyRemovesOnePeg | peg-solitaire/src/peg-solitaire.cpp:91-113 | a legal jump lowers the peg count by exactly one |
| PegSolitaire.PlayRemovesPegs | peg-solitaire/src/peg-solitaire.cpp:162-167 | a valid play of `n` jumps removes `n` pegs |
| PegSolitaire.WinningPlayLength | peg-solitaire/src/peg-solitaire.cpp:146-150 | a winning play from the initial board is 31 jumps long |
| PegSolitaire.Solve | peg-solitaire/src/peg-solitaire.cpp:146-174 | on success the solution extends the old one with moves legal in turn that lead to one peg at the centre; on failure board and solution are as on entry |
| SudokuPeers.Peers | quiz5/src/sudoku_solver.cpp:13-47 | cell `i`'s list holds exactly the other cells of its row, column and box |
| SudokuPeers.PeersAscending | quiz5/src/sudoku_solver.cpp:45 | the list is strictly ascending, as copied out of a `set<int>` |
| SudokuPeers.PeersSymmetric | quiz5/src/full_quiz5_solution.cpp:17-51 | the relation is symmetric and no cell is its own neighbour |
| SudokuPeers.TwentyPeers | quiz5/src/sudoku_solver.cpp:13-47 | every cell has exactly 20 neighbours |
| SudokuSolver.Size | quiz5/src/sudoku_solver.cpp:82 | `count()` is zero exactly when `none()` holds |
| SudokuSolver.InitializeDomains | quiz5/src/sudoku_solver.cpp:49-74 | an empty cell's domain is 1..9 minus its given neighbours' values; a given cell's domain is its value unless a neighbour gives the same one |
| SudokuSolver.Select | quiz5/src/sudoku_solver.cpp:76-94 | −1 exactly when no cell is empty; otherwise an empty cell strictly smaller in domain than every earlier empty cell, and no larger than any later one unless its size is 1 |
| SudokuSolver.ForwardCheck | quiz5/src/sudoku_solver.cpp:118-133 | clears exactly the logged flags, each a still-set flag of the value in a neighbour; without failure no neighbour keeps the value, on failure a logged neighbour's domain is empty |
| SudokuSolver.Restore | quiz5/src/sudoku_solver.cpp:142-145 | sets every logged flag again and nothing else |
| SudokuSolver.RestoreUndoesForwardCheck | quiz5/src/sudoku_solver.cpp:118-145 | restoring the log of a forward check gives back the domains it started from |
| SudokuSolver.AssignKeepsSound | quiz5/src/sudoku_solver.cpp:112-133 | placing a value from a sound domain and clearing it from every neighbour keeps the board consistent and the domains sound |
| SudokuSolver.Backtrack | quiz5/src/sudoku_solver.cpp:96-154 | true: the board is complete, keeps the givens and every placed value was in its domain, and consistent givens give a consistent board; false: board and domains are as on entry |
| SudokuSolver.TryValue | quiz5/src/sudoku_solver.cpp:113-149 | one value tried on the selected cell: on success the board is complete, extends the old one and every placed value was in its domain; on failure board and domains are as before the try |
| SudokuSolver.SupportLifts | quiz5/src/sudoku_solver.cpp:115-139 | a solution supported by the pruned domains after placing a value from the cell's domain is supported by the domains before the placement |
| SudokuSolver.SolveBoard | quiz5/src/sudoku_solver.cpp:5-11 | building the puzzle's domains and backtracking: on success the board is complete, keeps the givens and never repeats a given neighbour, and consistent givens give a consistent board; on failure the board is unchanged |
| SudokuSolver.InitialSound | quiz5/src/sudoku_solver.cpp:62-73 | the initial domains are up to date with the givens |
| SudokuSolver.SupportedRespectsGivens | quiz5/src/sudoku_solver.cpp:62-73 | values drawn from the initial domains never repeat a given neighbour |
| SudokuText.Parse | quiz5/src/sudoku_solver.cpp:5-8 | the first 81 characters read as digits `c - '0'`; the first cell that is not a digit, or lies past the end of the input, is reported |
| SudokuText.ParseDigits | quiz5/src/full_quiz5_solution.cpp:176-182 | writing the parsed digits back gives the input's first 81 characters |
| SudokuText.DigitsParse | quiz5/src/full_quiz5_solution.cpp:176-182 | writing a board of digits and reading it back gives the board |
| SudokuText.Layout | quiz5/src/sudoku_solver.cpp:156-169 | the printed text starts with `done!` and a line break, and its length is fixed: the nine rows, their separators and the two rule lines |
| SudokuText.LayoutDigit | quiz5/src/sudoku_solver.cpp:156-169 | in the printed board, the digit of every cell stands at its place in the rows and separators |
| SudokuText.LayoutRoundTrip | quiz5/src/sudoku_solver.cpp:156-169 | the printed board can be read back to the 81 digits |
| SudokuText.LayoutEnding | quiz5/src/full_quiz5_solution.cpp:160-173 | the layout of `sudoku_solver.cpp` ends right after the last digit; the other ends with a space and a newline |
| SudokuText.Print | quiz5/src/sudoku_solver.cpp:156-169 | `print_board` starts with `done!` and a line break, has a fixed length, and the 81 cell positions of the layout hold the board's digits in order |
| SudokuText.PrintRoundTrip | quiz5/src/sudoku_solver.cpp:156-169 | printing a board and reading it back gives the board |
| SudokuText.Solve | quiz5/src/sudoku_solver.cpp:171-177 | an unreadable input is an error; a solved board is complete, keeps and respects the givens and is printed; a failure prints the failure message |
| MazeSolver.Heuristic | quiz4/src/maze_solver.cpp:12-15 | the Chebyshev distance to the end is non-negative and zero exactly at the end |
| MazeSolver.HeuristicAdmissible | quiz4/src/maze_solver.cpp:12-15 | no 8-connected walk to the end is shorter than the heuristic |
| MazeSolver.IsValid | quiz4/src/maze_solver.cpp:17-20 | a valid cell lies strictly inside the border frame, so the maze is read only inside it, and is not yet visited |
| MazeSolver.IsValidAfterVisit | quiz4/src/maze_solver.cpp:17-20 | marking one cell visited makes exactly that cell invalid and leaves every other cell's validity as it was |
| MazeSolver.Less | quiz4/include/maze_solver.h:26-29 | a node is less urgent only if its `f` is at least the other's, and any node with a larger `f` is less urgent |
| MazeSolver.LessIsLexicographic | quiz4/include/maze_solver.h:26-29 | `a < b` is the lexicographic order on (−f, cardinal) |
| MazeSolver.LessIsStrictWeakOrder | quiz4/include/maze_solver.h:26-29 | `<` is irreflexive and transitive, and incomparability is transitive |
| MazeSolver.TopIsMostUrgent | quiz4/include/maze_solver.h:26-29 | the queue's top has the least f and, among equal f, prefers a cardinal move |
| MazeSolver.Top | quiz4/src/maze_solver.cpp:44-46 | the node popped is a maximum of the open list under `<` |
| MazeSolver.NeighbourIsAdjacent | quiz4/src/maze_solver.cpp:40-42 | the eight directions reach exactly the 8-connected neighbours |
| MazeSolver.Expand | quiz4/src/maze_solver.cpp:54-67 | each child pushed is a valid, unvisited neighbour with g one more for a cardinal and two more for a diagonal step; it is marked visited when pushed |
| MazeSolver.ExpandClosesCell | quiz4/src/maze_solver.cpp:54-67 | after an expansion every open neighbour of the node is visited |
| MazeSolver.ChainIsWalk | quiz4/src/maze_solver.cpp:25-28 | the parent chain of an expanded node is an 8-connected walk of open cells back to the start |
| MazeSolver.PrintSolution | quiz4/src/maze_solver.cpp:22-29 | only `'.'` cells on the path become `'o'`; every other cell is unchanged |
| MazeSolver.InsideBound | quiz4/include/maze_solver.h:11-12 | at most 41 × 41 distinct cells can be visited |
| MazeSolver.Round | quiz4/src/maze_solver.cpp:44-67 | one iteration of the search loop pops a most urgent node of the queue, closes its cell and appends it to the expanded nodes, keeping the search invariant |
| MazeSolver.Advance | quiz4/src/maze_solver.cpp:44-67 | one pop and expansion keeps the search invariant: each cell queued once, closed cells have all open neighbours visited |
| MazeSolver.SearchExhausted | quiz4/src/maze_solver.cpp:44-68 | once the queue is empty, no route reaches the end |
| MazeSolver.SolveMaze | quiz4/src/maze_solver.cpp:31-69 | found exactly when a route from start to end exists; then the marked path is such a route; otherwise the maze is unchanged; at most 41 × 41 pops |
| MinMax.Leaf | quiz6/src/full-quiz-solution.cpp:19-22 | a leaf is `values[node]` when the index is in range, else undefined |
| MinMax.Max | quiz6/src/full-quiz-solution.cpp:31-32 | the larger of two values |
| MinMax.Min | quiz6/src/full-quiz-solution.cpp:43-44 | the smaller of two values |
| MinMax.AlphaBeta | quiz6/src/full-quiz-solution.cpp:17-49 | the search returns a leaf value or the `INT_MIN`/`INT_MAX` a childless node starts from, never a window bound, so it fits in an `int` when the leaves do |
| MinMax.MaxLoop | quiz6/src/full-quiz-solution.cpp:24-35 | the max loop's result is at least the best value it started from, and is either that value or a value of the tree |
| MinMax.MinLoop | quiz6/src/full-quiz-solution.cpp:36-48 | the min loop's result is at most the best value it started from, and is either that value or a value of the tree |
| MinMax.AlphaBetaBounds | quiz6/src/full-quiz-solution.cpp:17-49 | fail-soft alpha-beta: the exact minimax value inside the window, a bound on the right side of it outside |
| MinMax.MaxLoopBounds | quiz6/src/full-quiz-solution.cpp:24-35 | the max loop, stopping after the first child with `beta <= alpha`, keeps the fail-soft bounds |
| MinMax.MinLoopBounds | quiz6/src/full-quiz-solution.cpp:36-48 | the min loop keeps the fail-soft bounds |
| MinMax.MinimaxIsInt | quiz6/src/full-quiz-solution.cpp:24-48 | plain minimax stays within `int` range when the leaves do |
| MinMax.FullWindow | quiz6/src/full-quiz-solution.cpp:67-68 | with the window (INT_MIN, INT_MAX) the search returns plain minimax |
| MinMax.LastLeafMonotone | quiz6/src/full-quiz-solution.cpp:27-40 | the last leaf read grows with the node index |
| MinMax.MinimaxDefined | quiz6/src/full-quiz-solution.cpp:19-48 | the unpruned search reads only inside the array exactly when its last leaf is inside |
| MinMax.FloorLog2 | quiz6/src/full-quiz-solution.cpp:12-15 | `getHeight`: the `h` with `2^h <= n < 2^(h+1)` |
| MinMax.FloorLog2Unique | quiz6/src/full-quiz-solution.cpp:12-15 | that `h` is unique |
| MinMax.Solve | quiz6/src/full-quiz-solution.cpp:67-68 | one case of `main` returns a value of the tree, within `int` range when the leaves are |
| MinMax.SolveIsMinimax | quiz6/src/full-quiz-solution.cpp:67-68 | the program's call returns plain minimax when the tree's last leaf lies inside the input |
| MinMaxExamples.FirstCase | quiz6/test/test_min_max.cpp:30 | {3,12,2,4,14,2,1,2} gives 4 |
| MinMaxExamples.SecondCase | quiz6/test/test_min_max.cpp:31 | {13,8,24,−5,23,15,−14,−20} gives 13 |
| MinMaxExamples.ThirdCase | quiz6/test/test_min_max.cpp:32 | {3,8,2,6,5,2,1,2} gives 6 |
| MinMaxExamples.FourthCase | quiz6/test/test_min_max.cpp:33 | the 30-value input gives 5 |
| MinMaxExamples.FourthCaseOverrunsUnpruned | quiz6/test/test_min_max.cpp:33 | on that input the unpruned tree would read past the array; only pruning keeps the reads inside |
| MinMaxExamples.SixthCase | quiz6/test/test_min_max.cpp:35 | {10,8,24,−5,23,15,−14,−20} gives 10 |
| MinMaxExamples.SeventhCase | quiz6/test/test_min_max.cpp:36 | the first 12-value input gives 11 |
| MinMaxExamples.EighthCase | quiz6/test/test_min_max.cpp:37 | the second 12-value input gives 18 |

## Left out

- Game of Life: the parallel `nextP` and its threads are concurrency whose implementation is not shown.
- Game of Life: opening, reading and closing files are I/O. `fromFile`/`toFile` are modelled over the lines of the file and whether its last line ends in a line break. A `getline` past the end yields an empty line once, right after a final line break or in an empty file. Otherwise it leaves the string as it was, which `fromFile` then strips again.
- LifePacked.NewEngine: the packed seed constructor is only declared, at `game_of_life.hpp:31`. The model gives it the corrected rectangular check that checks every row. The reference constructor checks only the first row.
- Game of Life: the packed grid is a flat `unsigned char*` buffer of `rows * columns` bytes. It is modelled as a sequence of rows; ownership and freeing of the buffer are left out.
- LifePacked.Next: the packed `next` is only declared in the headers. Its body is modelled from the byte-layout comment and the reference rule: copy the grid, then decide each cell from its byte in the copy, with `setCell`/`clearCell` on the live grid.
- LifePacked.SetCell: it requires the cell to be dead, and `ClearCell` requires it to be alive. The headers do not say what a second `setCell` on a live cell does, and double counting would break the layout invariant.
- LifeFormat.Parse: `fromFile` does not check that row characters are `'x'` or `'.'`, and neither does the model. Any other character counts as dead.
- LifeFormat.Stoi: models `std::stoi`'s leading whitespace, sign, digit run and `int` range. The exception types are merged into one error.
- LifeFormat.ParsePrintRoundTrip: assumes no grid character is `'\r'` or `'\n'` and that the dimensions fit in an `int`. Without that, the printed text does not read back.
- Game of Life: the constructor and `fromFile` signatures in `game_of_life.cpp` match neither header. The `.cpp` is taken as the behaviour.
- The test harness timing, the SFML GUI, the command-line `main` and the Python runner are tooling, not engine logic.
- Peg solitaire: `printBoard` is console output, and `main` is left out.
- Sudoku: the `var == -1` branch of `backtrack` cannot be reached after the completeness check. `Select`'s contract shows this, so the model has no such branch.
- SudokuText.Parse: reading past the end of a short input is undefined behaviour in C++. A non-digit makes `bitset::set` throw `out_of_range`. Both become an error naming the first bad cell.
- Sudoku: `quiz5/include/sudoku_solver.h` declares a private interface that differs from what the `.cpp` defines. The member types of `full_quiz5_solution.cpp` are used.
- Sudoku: `main` in both programs, and the `std::endl` flush after the failure message, are I/O.
- MazeSolver.SolveMaze: `std::priority_queue` does not fix the order among equivalent nodes. The model pops the earliest-pushed one, and every contract holds whatever the tie order.
- MazeSolver.SolveMaze: the maze must be 41 × 41 (`Shaped`), the size the program's constants fix. The start cell is not checked for a wall, just as in the source.
- Maze: the heap-allocated parent `Node`s, which are never freed, are modelled as indices into the list of expanded nodes.
- Maze: `main`'s reading and writing of the maze file is I/O.
- MinMax.FloorLog2: `getHeight` uses floating-point `log2`. The model is the exact integer floor of the base-2 logarithm. `n = 0`, where `log2` gives minus infinity, is excluded.
- MinMax.AlphaBeta: a leaf index past the end of `values` is undefined behaviour in the source. It is modelled as `None`.
- MinMax.AlphaBeta: `node_Index * 2 + i` is not wrapped to 32 bits. Indices that large lie far past any array.
- Alpha-beta: the stub `quiz6/src/min_max.cpp` returns an undeclared variable and is not part of this model. `main`'s argument handling is I/O.

## Findings

| source | as written | input that shows it | evidently intended | confidence | as-written member | corrected member |
|---|---|---|---|---|---|---|
| game-of-life/src/game_of_life.cpp:12-13 | the constructor compares only the first row's length with `columns` | `rows = 2`, `columns = 2`, seed `{{'.','.'},{'.'}}` is accepted, and `update` then reads past the short row | every row must have `columns` characters, as the error message says | high (not executed) | LifeReference.ConstructAsWritten, LifeReference.RaggedSeedAccepted | LifeReference.Construct |

=== FILE: life_cell.dfy ===
/** One packed Game of Life cell: a byte whose bit 0 is the alive flag and whose
    bits 1-4 hold the number of live neighbours; bits 5-7 are unused. */
module LifeCell {

  /** Adding 0x02 moves the counter in bits 1-4 and leaves bit 0 alone. */
  const CounterIncrement: bv8 := 0x02
  /** The byte of a dead cell without live neighbours. */
  const DeadNoNeighbors: bv8 := 0x00
  const MaxCount: nat := 15

  /** `CELL_GET_COUNT`: bits 1-4. */
  function GetCount(b: bv8): (n: nat)
    ensures n <= MaxCount
  {
    ((b >> 1) & 0x0F) as nat
  }

  /** `CELL_IS_ALIVE`: bit 0. */
  predicate IsAlive(b: bv8) {
    b & 0x01 != 0
  }

  /** `CELL_ACTIVATE`: set the alive bit. */
  function Activate(b: bv8): (b': bv8)
    ensures IsAlive(b') && GetCount(b') == GetCount(b)
    ensures b' & 0xFE == b & 0xFE
  {
    b | 0x01
  }

  /** `CELL_DEACTIVATE`: clear the alive bit. */
  function Deactivate(b: bv8): (b': bv8)
    ensures !IsAlive(b') && GetCount(b') == GetCount(b)
    ensures b' & 0xFE == b & 0xFE
  {
    b & 0xFE
  }

  /** One neighbour became alive: add `CELL_COUNTER_INCREMENT`. */
  function Increment(b: bv8): (b': bv8)
    ensures IsAlive(b') == IsAlive(b)
    ensures GetCount(b) < MaxCount ==> GetCount(b') == GetCount(b) + 1
  {
    b + CounterIncrement
  }

  /** One neighbour died: subtract `CELL_COUNTER_INCREMENT`. */
  function Decrement(b: bv8): (b': bv8)
    ensures IsAlive(b') == IsAlive(b)
    ensures GetCount(b) > 0 ==> GetCount(b') == GetCount(b) - 1
  {
    b - CounterIncrement
  }

  /** The byte holding the given alive flag and count, unused bits clear. */
  function Pack(alive: bool, count: nat): (b: bv8)
    requires count <= MaxCount
    ensures IsAlive(b) == alive && GetCount(b) == count
    ensures b < 0x20
  {
    ((count as bv8) << 1) | (if alive then 0x01 else 0x00)
  }

  /** The two fields are independent: any flag combines with any count, and
      the all-zero byte is the dead cell without live neighbours. */
  lemma ZeroByteIsDeadAlone()
    ensures DeadNoNeighbors == Pack(false, 0)
    ensures !IsAlive(DeadNoNeighbors) && GetCount(DeadNoNeighbors) == 0
  {
  }

  /** A byte with unused bits clear is determined by its two fields. */
  lemma PackUnique(b: bv8)
    requires b < 0x20
    ensures b == Pack(IsAlive(b), GetCount(b))
  {
  }
}

=== FILE: life_examples.dfy ===
/** The logic tests of the Game of Life engine, stated as lemmas about the
    reference rule (and so, through `LifePacked.Update`, about the packed engine). */
module LifeExamples {
  import opened LifeReference

  /** A lone live cell in the middle of a 3 × 3 torus. */
  function LoneSeed(): Grid {
    seq(3, i => seq(3, j => if i == 1 && j == 1 then LiveCell else DeadCell))
  }

  /** A 2 × 2 block in the middle of a 4 × 4 torus. */
  function BlockSeed(): Grid {
    seq(4, i => seq(4, j => if (i == 1 || i == 2) && (j == 1 || j == 2) then LiveCell else DeadCell))
  }

  /** The seeds are the grids the tests write out. */
  lemma SeedsAsWritten()
    ensures LoneSeed() == [['.', '.', '.'], ['.', 'x', '.'], ['.', '.', '.']]
    ensures BlockSeed() == [['.', '.', '.', '.'], ['.', 'x', 'x', '.'], ['.', 'x', 'x', '.'], ['.', '.', '.', '.']]
  {
    var l := LoneSeed();
    assert l[0] == ['.', '.', '.'] && l[1] == ['.', 'x', '.'] && l[2] == ['.', '.', '.'];
    var b := BlockSeed();
    assert b[0] == ['.', '.', '.', '.'] && b[1] == ['.', 'x', 'x', '.'];
    assert b[2] == ['.', 'x', 'x', '.'] && b[3] == ['.', '.', '.', '.'];
  }

  /** The all-dead 3 × 3 grid as the tests write it out. */
  lemma DeadAsWritten()
    ensures Dead(3, 3) == [['.', '.', '.'], ['.', '.', '.'], ['.', '.', '.']]
  {
    var d := Dead(3, 3);
    assert d[0] == ['.', '.', '.'] && d[1] == ['.', '.', '.'] && d[2] == ['.', '.', '.'];
  }

  /** The lone cell dies after one generation and the grid stays dead after two. */
  lemma LoneCellTest()
    ensures Update(LoneSeed(), 3, 3, 1) == [['.', '.', '.'], ['.', '.', '.'], ['.', '.', '.']]
    ensures Update(LoneSeed(), 3, 3, 2) == [['.', '.', '.'], ['.', '.', '.'], ['.', '.', '.']]
  {
    assert Lone(LoneSeed(), 3, 3, 1, 1);
    LoneCellDiesOut(LoneSeed(), 3, 3, 1, 1);
    ExtinctForever(LoneSeed(), 3, 3, 1);
    ExtinctForever(LoneSeed(), 3, 3, 2);
    DeadAsWritten();
  }

  /** Cells in the top half of the block's torus keep their state: the live cells
      have three live neighbours, the dead ones one or two. */
  lemma BlockTopCell(r: int, c: int)
    requires 0 <= r < 2 && 0 <= c < 4
    ensures NextCell(BlockSeed(), 4, 4, r, c) == BlockSeed()[r][c]
  {
    if r == 0 {
      NeighborWindow(BlockSeed(), 4, 4, r, c, 3, 1, Wrap(c - 1, 4), Wrap(c + 1, 4));
    } else {
      NeighborWindow(BlockSeed(), 4, 4, r, c, 0, 2, Wrap(c - 1, 4), Wrap(c + 1, 4));
    }
  }

  /** The same for the bottom half. */
  lemma BlockBottomCell(r: int, c: int)
    requires 2 <= r < 4 && 0 <= c < 4
    ensures NextCell(BlockSeed(), 4, 4, r, c) == BlockSeed()[r][c]
  {
    if r == 2 {
      NeighborWindow(BlockSeed(), 4, 4, r, c, 1, 3, Wrap(c - 1, 4), Wrap(c + 1, 4));
    } else {
      NeighborWindow(BlockSeed(), 4, 4, r, c, 2, 0, Wrap(c - 1, 4), Wrap(c + 1, 4));
    }
  }

  /** The block is a still life on the 4 × 4 torus. */
  lemma BlockStill()
    ensures Step(BlockSeed(), 4, 4) == BlockSeed()
  {
    var g := BlockSeed();
    forall r, c | 0 <= r < 4 && 0 <= c < 4
      ensures Step(g, 4, 4)[r][c] == g[r][c]
    {
      if r < 2 {
        BlockTopCell(r, c);
      } else {
        BlockBottomCell(r, c);
      }
    }
    GridExtensional(Step(g, 4, 4), g, 4, 4);
  }

  /** The block is unchanged after one and after two generations. */
  lemma BlockTest()
    ensures Update(BlockSeed(), 4, 4, 1) == BlockSeed()
    ensures Update(BlockSeed(), 4, 4, 2) == BlockSeed()
  {
    BlockStill();
    StillLifeForever(BlockSeed(), 4, 4, 1);
    StillLifeForever(BlockSeed(), 4, 4, 2);
  }
}

=== FILE: life_format.dfy ===
/** The text format of a Game of Life grid: a header line `<columns>,<rows>` and
    then one line per row. A file is modelled as the lines `std::getline` splits
    it into and whether the last of them ends with a line break; what a read past
    the last line leaves in its string follows `getline`'s end-of-file rules. */
module LifeFormat {
  import opened Results
  import opened LifeReference

  /** Range of the C++ `int` that `std::stoi` produces. */
  const IntMin: int := -0x8000_0000
  const IntMax: int := 0x7FFF_FFFF

  datatype FormatError =
    | MissingDimensions                                   // header without a comma
    | InvalidDimensions                                   // `stoi` threw
    | RowSizeMismatch(row: nat, size: nat, expected: int) // a row of the wrong length
    | ReserveFailed                                       // `seed.reserve(rows)` threw `std::length_error`
    | BadSeed(cause: GameError)                           // the constructor threw

  predicate IsDigit(ch: char) {
    '0' <= ch <= '9'
  }

  /** The characters C's `isspace` accepts: space, `\t`, `\n`, `\v`, `\f`, `\r`. */
  predicate IsSpace(ch: char) {
    ch == ' ' || '\t' <= ch <= '\r'
  }

  predicate AllDigits(s: string) {
    forall i :: 0 <= i < |s| ==> IsDigit(s[i])
  }

  /** Length of the run of whitespace that starts `s`. */
  function LeadingSpaces(s: string): (n: nat)
    ensures n <= |s|
    ensures forall i :: 0 <= i < n ==> IsSpace(s[i])
    ensures n < |s| ==> !IsSpace(s[n])
  {
    if |s| == 0 || !IsSpace(s[0]) then 0 else 1 + LeadingSpaces(s[1..])
  }

  /** Length of the run of decimal digits that starts `s`. */
  function DigitRun(s: string): (n: nat)
    ensures n <= |s| && AllDigits(s[..n])
    ensures n < |s| ==> !IsDigit(s[n])
  {
    if |s| == 0 || !IsDigit(s[0]) then 0
    else
      var n := 1 + DigitRun(s[1..]);
      assert s[..n] == [s[0]] + s[1..][..n - 1];
      n
  }

  /** The value of a string of decimal digits, most significant first. */
  function DigitsValue(s: string): nat
    requires AllDigits(s)
  {
    if |s| == 0 then 0
    else DigitsValue(s[..|s| - 1]) * 10 + (s[|s| - 1] as int - '0' as int)
  }

  /** `std::stoi` in base 10: leading whitespace, an optional sign and at least one
      digit; whatever follows the digits is ignored. No digits, or a value outside
      `int`, throws. */
  function Stoi(s: string): (r: Result<int, FormatError>)
    ensures r.Ok? ==> IntMin <= r.value <= IntMax
    ensures r.Err? ==> r.error == InvalidDimensions
  {
    var t := s[LeadingSpaces(s)..];
    var signed := |t| > 0 && (t[0] == '-' || t[0] == '+');
    var u := if signed then t[1..] else t;
    var n := DigitRun(u);
    if n == 0 then Err(InvalidDimensions)
    else
      var magnitude := DigitsValue(u[..n]);
      var v: int := if signed && t[0] == '-' then -(magnitude as int) else magnitude;
      if v < IntMin || v > IntMax then Err(InvalidDimensions) else Ok(v)
  }

  function Digit(d: nat): (ch: char)
    requires d < 10
    ensures IsDigit(ch) && ch as int - '0' as int == d
  {
    ('0' as int + d) as char
  }

  /** Decimal digits of `n`, without leading zeros. */
  function NatToString(n: nat): (s: string)
    ensures |s| > 0 && AllDigits(s)
    ensures DigitsValue(s) == n
    decreases n
  {
    if n < 10 then [Digit(n)]
    else
      var s := NatToString(n / 10) + [Digit(n % 10)];
      assert s[..|s| - 1] == NatToString(n / 10);
      s
  }

  /** How `operator<<` writes an `int`. */
  function IntToString(n: int): (s: string)
    ensures |s| > 0 && (IsDigit(s[0]) || s[0] == '-')
    ensures forall i :: 0 <= i < |s| ==> s[i] != ','
  {
    if n < 0 then "-" + NatToString(-n) else NatToString(n)
  }

  /** A run of digits followed by something that is not a digit is read to its end. */
  lemma {:induction false} DigitRunStopsAtEnd(s: string, rest: string)
    requires AllDigits(s)
    requires |rest| == 0 || !IsDigit(rest[0])
    ensures DigitRun(s + rest) == |s|
    ensures (s + rest)[..|s|] == s
    decreases |s|
  {
    if |s| > 0 {
      assert (s + rest)[1..] == s[1..] + rest;
      DigitRunStopsAtEnd(s[1..], rest);
    }
  }

  /** `stoi` reads back what `operator<<` wrote, whatever non-digit text follows. */
  lemma StoiOfIntToString(n: int, rest: string)
    requires IntMin <= n <= IntMax
    requires |rest| == 0 || !IsDigit(rest[0])
    ensures Stoi(IntToString(n) + rest) == Ok(n)
  {
    var s := IntToString(n) + rest;
    assert LeadingSpaces(s) == 0;
    assert s[0..] == s;
    if n < 0 {
      assert s[1..] == NatToString(-n) + rest;
      DigitRunStopsAtEnd(NatToString(-n), rest);
    } else {
      DigitRunStopsAtEnd(NatToString(n), rest);
    }
  }

  /** `std::string::find` for one character: the first position holding it. */
  function Find(s: string, ch: char): (r: Option<nat>)
    ensures r.Some? ==> r.value < |s| && s[r.value] == ch && forall i :: 0 <= i < r.value ==> s[i] != ch
    ensures r.None? ==> forall i :: 0 <= i < |s| ==> s[i] != ch
  {
    if |s| == 0 then None
    else if s[0] == ch then Some(0)
    else match Find(s[1..], ch)
      case None => None
      case Some(k) => Some(k + 1)
  }

  /** A text file as `std::getline` splits it: its lines without their `\n`, and
      whether the last line is followed by a `\n`. */
  datatype TextFile = TextFile(lines: seq<string>, finalNewline: bool)

  /** The string held after `getline` reads line `i` of `file` into a string that
      held `prev`. A line the file has is delivered. The read that meets the end
      of the file right after a `\n`, or in an empty file, extracts nothing and
      leaves the string empty. Once a read has stopped at the end of the file,
      every later `getline` fails before touching the string, so it keeps `prev`. */
  function Getline(file: TextFile, i: nat, prev: string): (line: string)
    ensures i < |file.lines| ==> line == file.lines[i]
    ensures i >= |file.lines| ==> line == "" || line == prev
  {
    if i < |file.lines| then file.lines[i]
    else if i == |file.lines| && (file.finalNewline || |file.lines| == 0) then ""
    else prev
  }

  /** Drop one trailing `\r` or `\n`, and then one more trailing `\r`. */
  function StripLineEnd(line: string): (s: string)
    ensures |line| - 2 <= |s| <= |line| && s == line[..|s|]
    ensures (|line| == 0 || (line[|line| - 1] != '\r' && line[|line| - 1] != '\n')) ==> s == line
  {
    var once := if |line| > 0 && (line[|line| - 1] == '\r' || line[|line| - 1] == '\n')
      then line[..|line| - 1] else line;
    if |once| > 0 && once[|once| - 1] == '\r' then once[..|once| - 1] else once
  }

  /** `k` is the first position of `s` holding `ch`. */
  predicate FirstAt(s: string, ch: char, k: int) {
    0 <= k < |s| && s[k] == ch && forall i :: 0 <= i < k ==> s[i] != ch
  }

  /** The header: columns before the first comma, rows after it. Both `stoi`
      calls must succeed, and what follows a number is ignored. */
  function ParseHeader(header: string): (r: Result<(int, int), FormatError>)
    ensures (forall i :: 0 <= i < |header| ==> header[i] != ',') <==> r == Err(MissingDimensions)
    ensures forall k :: FirstAt(header, ',', k) ==>
      (r.Ok? <==> Stoi(header[..k]).Ok? && Stoi(header[k + 1..]).Ok?) &&
      (r.Ok? ==> r.value == (Stoi(header[..k]).value, Stoi(header[k + 1..]).value))
    ensures r.Err? && r.error != MissingDimensions ==> r.error == InvalidDimensions
    ensures r.Ok? ==>
      exists k :: FirstAt(header, ',', k) &&
        Stoi(header[..k]) == Ok(r.value.0) && Stoi(header[k + 1..]) == Ok(r.value.1)
  {
    FindIsFirstAt(header, ',');
    match Find(header, ',')
    case None => Err(MissingDimensions)
    case Some(k) => SplitHeader(header, k)
  }

  /** The two `stoi` calls on either side of the comma at `k`. */
  function SplitHeader(header: string, k: nat): (r: Result<(int, int), FormatError>)
    requires k < |header|
    ensures r.Ok? <==> Stoi(header[..k]).Ok? && Stoi(header[k + 1..]).Ok?
    ensures r.Ok? ==> r.value == (Stoi(header[..k]).value, Stoi(header[k + 1..]).value)
    ensures r.Err? ==> r.error == InvalidDimensions
  {
    var columns :- Stoi(header[..k]);
    var rows :- Stoi(header[k + 1..]);
    Ok((columns, rows))
  }

  /** `Find` returns the first position of the character, and that position is unique. */
  lemma FindIsFirstAt(s: string, ch: char)
    ensures forall k :: FirstAt(s, ch, k) <==> Find(s, ch) == Some(k)
  {
    forall k | FirstAt(s, ch, k)
      ensures Find(s, ch) == Some(k)
    {
      FindFirst(s, ch, k);
    }
  }

  /** The header as `fromFile` reads it into a fresh string: line 0. */
  function HeaderLine(file: TextFile): (h: string)
    ensures 0 < |file.lines| ==> h == file.lines[0]
    ensures |file.lines| == 0 ==> h == ""
  {
    Getline(file, 0, "")
  }

  /** `line` after `n` rounds of the in-place strip of `fromFile`. */
  function StripTimes(line: string, n: nat): string
    decreases n
  {
    if n == 0 then line else StripLineEnd(StripTimes(line, n - 1))
  }

  /** Row `k` of the grid as `fromFile` reads it. Inside the file it is line
      `k + 1` with its line end stripped. Past the end it is empty when the file
      ends with a line break or has no row line at all; otherwise `line` still
      holds the stripped last line, which each further round strips again. */
  function RowText(file: TextFile, k: nat): (row: string)
    ensures k + 1 < |file.lines| ==> row == StripLineEnd(file.lines[k + 1])
    ensures k + 1 >= |file.lines| && file.finalNewline ==> row == ""
  {
    var n := |file.lines|;
    if k + 1 < n then StripLineEnd(file.lines[k + 1])
    else if file.finalNewline || n < 2 then ""
    else StripTimes(file.lines[n - 1], k + 3 - n)
  }

  /** The loop of `fromFile`, one round at a time: row `k` is line `k + 1` read
      by `getline` into `line`, which holds row `k - 1` (nothing before the
      first row), and then stripped in place. */
  lemma RowTextFollowsGetline(file: TextFile, k: nat)
    ensures RowText(file, k) == StripLineEnd(Getline(file, k + 1, if k == 0 then "" else RowText(file, k - 1)))
  {
    var n := |file.lines|;
    if k + 1 >= n && !file.finalNewline && n >= 2 {
      assert k >= 1;
      if k + 1 == n {
        assert StripTimes(file.lines[n - 1], 2) == StripLineEnd(StripTimes(file.lines[n - 1], 1));
      }
    }
  }

  /** The strings the loop of `fromFile` holds after stripping, for rows
      `0 .. rows - 1`. */
  function RowTexts(file: TextFile, rows: nat): (texts: seq<string>)
    ensures |texts| == rows
    ensures forall k :: 0 <= k < rows ==> texts[k] == RowText(file, k)
  {
    seq(rows, k requires 0 <= k < rows => RowText(file, k))
  }

  /** Rows `i`, `i + 1`, ... of the row strings, each checked to be `columns` long. */
  function ReadRows(texts: seq<string>, columns: int, i: nat): (r: Result<Grid, FormatError>)
    ensures r.Ok? <==> forall k :: i <= k < |texts| ==> |texts[k]| == columns
    ensures r.Ok? ==> r.value == if i <= |texts| then texts[i..] else []
    ensures r.Err? ==> r.error.RowSizeMismatch? && i <= r.error.row < |texts| && r.error.expected == columns
    ensures r.Err? ==> r.error.size == |texts[r.error.row]| != columns
    decreases |texts| - i
  {
    if i >= |texts| then Ok([])
    else
      var line := texts[i];
      if |line| != columns then
        Err(RowSizeMismatch(i, |line|, columns))
      else
        var rest :- ReadRows(texts, columns, i + 1);
        assert texts[i..] == [line] + texts[i + 1..];
        Ok([line] + rest)
  }

  /** The row reported is the first of the wrong size: every row before it fits. */
  lemma {:induction false} ReadRowsFirstBad(texts: seq<string>, columns: int, i: nat)
    ensures ReadRows(texts, columns, i).Err? ==>
      forall k :: i <= k < ReadRows(texts, columns, i).error.row ==> |texts[k]| == columns
    decreases |texts| - i
  {
    if i < |texts| && |texts[i]| == columns {
      ReadRowsFirstBad(texts, columns, i + 1);
    }
  }

  /** `fromFile` after the file is open: header, `reserve`, rows, then the
      constructor, whose check the rows read always pass. */
  function Parse(file: TextFile): (r: Result<Game, FormatError>)
    ensures (forall i :: 0 <= i < |HeaderLine(file)| ==> HeaderLine(file)[i] != ',') ==>
      r == Err(MissingDimensions)
    ensures ParseHeader(HeaderLine(file)).Err? ==> r == Err(ParseHeader(HeaderLine(file)).error)
    ensures r.Ok? ==> ValidGame(r.value) && ParseHeader(HeaderLine(file)) == Ok((r.value.columns, r.value.rows))
    ensures r.Ok? ==> forall i :: 0 <= i < r.value.rows ==> r.value.grid[i] == RowText(file, i)
    ensures ParseHeader(HeaderLine(file)).Ok? ==>
      (r == Err(ReserveFailed) <==> ParseHeader(HeaderLine(file)).value.1 < 0)
    ensures r.Err? && ParseHeader(HeaderLine(file)).Ok? && ParseHeader(HeaderLine(file)).value.1 >= 0 ==>
      var (columns, rows) := ParseHeader(HeaderLine(file)).value;
      r.error.RowSizeMismatch? && r.error.row < rows && |RowText(file, r.error.row)| != columns &&
      forall k: nat :: k < r.error.row ==> |RowText(file, k)| == columns
    ensures r.Err? ==> !r.error.BadSeed?
  {
    var (columns, rows) :- ParseHeader(HeaderLine(file));
    if rows < 0 then Err(ReserveFailed)
    else
      var texts := RowTexts(file, rows);
      ReadRowsFirstBad(texts, columns, 0);
      var seed :- ReadRows(texts, columns, 0);
      match ConstructAsWritten(rows, columns, seed)
      case Ok(game) => Ok(game)
      case Err(e) => Err(BadSeed(e))
  }

  /** `toFile` after the file is open: the header `columns,rows` and then the rows,
      one line each. */
  function Print(game: Game): (file: TextFile)
    ensures |file.lines| == |game.grid| + 1 && file.lines[1..] == game.grid
    ensures file.finalNewline
  {
    TextFile([IntToString(game.columns) + "," + IntToString(game.rows)] + game.grid, true)
  }

  /** No character of the grid ends a line. */
  predicate NoLineBreaks(g: Grid) {
    forall r, c :: 0 <= r < |g| && 0 <= c < |g[r]| ==> g[r][c] != '\r' && g[r][c] != '\n'
  }

  /** The printed header reads back as the dimensions. */
  lemma {:induction false} HeaderRoundTrip(columns: int, rows: int)
    requires IntMin <= columns <= IntMax && IntMin <= rows <= IntMax
    ensures ParseHeader(IntToString(columns) + "," + IntToString(rows)) == Ok((columns, rows))
  {
    var c := IntToString(columns);
    var h := c + "," + IntToString(rows);
    assert Find(h, ',') == Some(|c|) by {
      FindFirst(h, ',', |c|);
    }
    assert h[..|c|] == c + "";
    assert h[|c| + 1..] == IntToString(rows) + "";
    StoiOfIntToString(columns, "");
    StoiOfIntToString(rows, "");
  }

  /** `Find` returns the first position holding the character. */
  lemma FindFirst(s: string, ch: char, k: nat)
    requires k < |s| && s[k] == ch && forall i :: 0 <= i < k ==> s[i] != ch
    ensures Find(s, ch) == Some(k)
  {
  }

  /** The printed rows read back as the grid. */
  lemma RowsRoundTrip(game: Game, i: nat)
    requires ValidGame(game) && NoLineBreaks(game.grid) && i <= game.rows
    ensures ReadRows(RowTexts(Print(game), game.rows), game.columns, i) == Ok(game.grid[i..])
  {
    PrintedRowTexts(game);
  }

  /** The rows read from a printed game are its grid. */
  lemma PrintedRowTexts(game: Game)
    requires ValidGame(game) && NoLineBreaks(game.grid)
    ensures RowTexts(Print(game), game.rows) == game.grid
  {
    var texts := RowTexts(Print(game), game.rows);
    forall k | 0 <= k < game.rows
      ensures texts[k] == game.grid[k]
    {
      RowTextOfPrint(game, k);
    }
  }

  /** Each printed row reads back unchanged: it has no line break to strip. */
  lemma RowTextOfPrint(game: Game, i: nat)
    requires ValidGame(game) && NoLineBreaks(game.grid) && i < game.rows
    ensures RowText(Print(game), i) == game.grid[i]
  {
    var row := game.grid[i];
    assert Print(game).lines[i + 1] == row;
    assert |row| == 0 || (row[|row| - 1] != '\r' && row[|row| - 1] != '\n');
  }

  /** Parsing what `toFile` writes gives back the game, provided the dimensions fit
      in an `int` and no cell is a line break. */
  lemma ParsePrintRoundTrip(game: Game)
    requires ValidGame(game) && NoLineBreaks(game.grid)
    requires IntMin <= game.columns <= IntMax && game.rows <= IntMax
    ensures Parse(Print(game)) == Ok(game)
  {
    HeaderRoundTrip(game.columns, game.rows);
    assert HeaderLine(Print(game)) == IntToString(game.columns) + "," + IntToString(game.rows);
    PrintedRowTexts(game);
    ParseOfRows(Print(game), game.columns, game.rows);
  }

  /** The header `2,3` asks for three rows of two columns. */
  lemma TwoByThreeHeader(file: TextFile)
    requires 0 < |file.lines| && file.lines[0] == "2,3"
    ensures ParseHeader(HeaderLine(file)) == Ok((2, 3))
  {
    assert IntToString(2) == "2" && IntToString(3) == "3";
    assert "2" + "," + "3" == "2,3";
    HeaderRoundTrip(2, 3);
  }

  /** A file that lists fewer rows than its header and has no final line break:
      the last row line is read again for each missing row, so the game is
      accepted. */
  lemma MissingRowRepeatsLast()
    ensures Parse(TextFile(["2,3", "..", ".."], false)) == Ok(Game(3, 2, ["..", "..", ".."]))
  {
    var file := TextFile(["2,3", "..", ".."], false);
    TwoByThreeHeader(file);
    RepeatedRows(file);
    ParseOfRows(file, 2, 3);
  }

  /** When the header reads and every row fits, the game is the rows read. */
  lemma ParseOfRows(file: TextFile, columns: int, rows: nat)
    requires ParseHeader(HeaderLine(file)) == Ok((columns, rows))
    requires forall k :: 0 <= k < rows ==> |RowText(file, k)| == columns
    ensures Parse(file) == Ok(Game(rows, columns, RowTexts(file, rows)))
  {
    assert RowTexts(file, rows)[0..] == RowTexts(file, rows);
  }

  /** Without a final line break, the third row of `["2,3", "..", ".."]` is the second again. */
  lemma RepeatedRows(file: TextFile)
    requires file == TextFile(["2,3", "..", ".."], false)
    ensures RowTexts(file, 3) == ["..", "..", ".."]
    ensures forall k :: 0 <= k < 3 ==> |RowText(file, k)| == 2
  {
    assert StripLineEnd("..") == "..";
    assert StripTimes("..", 2) == StripLineEnd(StripTimes("..", 1));
    assert RowText(file, 0) == ".." && RowText(file, 1) == ".." && RowText(file, 2) == "..";
  }

  /** The same file with a final line break: the missing row reads as empty and
      is reported. */
  lemma MissingRowAfterLineBreak()
    ensures Parse(TextFile(["2,3", "..", ".."], true)) == Err(RowSizeMismatch(2, 0, 2))
  {
    var file := TextFile(["2,3", "..", ".."], true);
    TwoByThreeHeader(file);
    EmptiedRows(file);
    var e := ReadRows(RowTexts(file, 3), 2, 0);
    assert e.Err? && e.error.row == 2;
  }

  /** With a final line break, the third row of `["2,3", "..", ".."]` is empty. */
  lemma EmptiedRows(file: TextFile)
    requires file == TextFile(["2,3", "..", ".."], true)
    ensures RowTexts(file, 3) == ["..", "..", ""]
  {
    assert StripLineEnd("..") == "..";
    assert RowText(file, 0) == ".." && RowText(file, 1) == ".." && RowText(file, 2) == "";
  }

  /** Only the first comma splits the header; `stoi` stops at the second. */
  lemma ExtraCommaIgnored()
    ensures ParseHeader("2,3,4") == Ok((2, 3))
  {
    var header := "2,3,4";
    assert FirstAt(header, ',', 1);
    assert header[..1] == IntToString(2) + "";
    assert header[2..] == IntToString(3) + ",4";
    StoiOfIntToString(2, "");
    StoiOfIntToString(3, ",4");
  }

  /** A negative row count fails in `reserve`, before any row is read. */
  lemma NegativeRowsFailReserve()
    ensures Parse(TextFile(["2,-1"], true)) == Err(ReserveFailed)
  {
    NegativeHeader(TextFile(["2,-1"], true));
  }

  /** A header with a comma but no number before it is rejected as an invalid
      format, not as a missing comma. */
  lemma UnreadableColumnsFail()
    ensures Parse(TextFile(["a,3"], true)) == Err(InvalidDimensions)
  {
    UnreadableHeader(TextFile(["a,3"], true));
  }

  /** `stoi("a")` finds no digit, so the header `a,3` does not read. */
  lemma UnreadableHeader(file: TextFile)
    requires 0 < |file.lines| && file.lines[0] == "a,3"
    ensures ParseHeader(HeaderLine(file)) == Err(InvalidDimensions)
  {
    var header := HeaderLine(file);
    assert header == "a,3";
    assert FirstAt(header, ',', 1);
    assert header[..1] == "a";
    assert DigitRun("a") == 0;
  }

  /** The header `2,-1` asks for minus one row of two columns. */
  lemma NegativeHeader(file: TextFile)
    requires 0 < |file.lines| && file.lines[0] == "2,-1"
    ensures ParseHeader(HeaderLine(file)) == Ok((2, -1))
  {
    assert IntToString(2) == "2" && IntToString(-1) == "-1";
    assert "2" + "," + "-1" == "2,-1";
    HeaderRoundTrip(2, -1);
  }
}

=== FILE: life_packed.dfy ===
/** The packed Game of Life engine: one byte per cell holding the alive flag
    and a cached live-neighbour count, kept consistent by every mutation.
    The row-major byte buffer of the source is modelled as a sequence of rows. */
module LifePacked {
  import opened LifeCell
  import opened Results
  import LifeReference

  type Grid = LifeReference.Grid
  type Packed = seq<seq<bv8>>

  /** `p` has `rows` rows of `columns` bytes. */
  predicate Shaped(p: Packed, rows: nat, columns: nat) {
    |p| == rows && forall r :: 0 <= r < |p| ==> |p[r]| == columns
  }

  /** `cellState`: the character a packed byte stands for. */
  function CellState(b: bv8): (s: char)
    ensures s == LifeReference.LiveCell <==> IsAlive(b)
    ensures s == LifeReference.LiveCell || s == LifeReference.DeadCell
  {
    if IsAlive(b) then LifeReference.LiveCell else LifeReference.DeadCell
  }

  function SnapshotRow(row: seq<bv8>): (s: seq<char>)
    ensures |s| == |row|
    ensures forall c :: 0 <= c < |row| ==> s[c] == CellState(row[c])
  {
    seq(|row|, c requires 0 <= c < |row| => CellState(row[c]))
  }

  /** `getGrid`: the character grid whose entry `(r, c)` is `cellState(r, c)`. */
  function Snapshot(p: Packed, rows: nat, columns: nat): (g: Grid)
    requires Shaped(p, rows, columns)
    ensures LifeReference.Rectangular(g, rows, columns)
    ensures forall r, c :: 0 <= r < rows && 0 <= c < columns ==>
      (g[r][c] == LifeReference.LiveCell <==> IsAlive(p[r][c]))
    ensures forall r, c :: 0 <= r < rows && 0 <= c < columns ==>
      (g[r][c] == LifeReference.LiveCell || g[r][c] == LifeReference.DeadCell)
  {
    seq(rows, r requires 0 <= r < rows => SnapshotRow(p[r]))
  }

  /** The count field of cell `(r, c)` equals its number of live toroidal
      neighbours in the grid the alive bits describe. */
  predicate CountCorrect(p: Packed, rows: nat, columns: nat, r: nat, c: nat)
    requires Shaped(p, rows, columns) && r < rows && c < columns
  {
    GetCount(p[r][c]) == LifeReference.LiveNeighbors(Snapshot(p, rows, columns), rows, columns, r, c)
  }

  /** The layout invariant: every cell's count field is correct. */
  predicate CountsConsistent(p: Packed, rows: nat, columns: nat)
    requires Shaped(p, rows, columns)
  {
    forall r, c {:trigger CountCorrect(p, rows, columns, r, c)} :: 0 <= r < rows && 0 <= c < columns ==> CountCorrect(p, rows, columns, r, c)
  }

  predicate Valid(p: Packed, rows: nat, columns: nat) {
    Shaped(p, rows, columns) && CountsConsistent(p, rows, columns)
  }

  /** 1 when `(i, j)` is the neighbour of `(r, c)` in direction `k`. */
  function HitAt(rows: nat, columns: nat, r: nat, c: nat, k: nat, i: nat, j: nat): (n: nat)
    requires r < rows && c < columns && k < 8
    ensures n <= 1
  {
    if LifeReference.IsNeighborAt(rows, columns, r, c, k, i, j) then 1 else 0
  }

  /** How many of the directions `k..7` lead from `(r, c)` to `(i, j)`. */
  function HitsFrom(rows: nat, columns: nat, r: nat, c: nat, k: nat, i: nat, j: nat): (n: nat)
    requires r < rows && c < columns && k <= 8
    ensures n <= 8 - k
    decreases 8 - k
  {
    if k == 8 then 0 else HitAt(rows, columns, r, c, k, i, j) + HitsFrom(rows, columns, r, c, k + 1, i, j)
  }

  /** How many of the eight directions lead from `(r, c)` to `(i, j)`. */
  function Hits(rows: nat, columns: nat, r: nat, c: nat, i: nat, j: nat): (n: nat)
    requires r < rows && c < columns
    ensures n <= 8
    ensures n == HitAt(rows, columns, r, c, 0, i, j) + HitAt(rows, columns, r, c, 1, i, j) +
                 HitAt(rows, columns, r, c, 2, i, j) + HitAt(rows, columns, r, c, 3, i, j) +
                 HitAt(rows, columns, r, c, 4, i, j) + HitAt(rows, columns, r, c, 5, i, j) +
                 HitAt(rows, columns, r, c, 6, i, j) + HitAt(rows, columns, r, c, 7, i, j)
  {
    HitsFrom(rows, columns, r, c, 0, i, j)
  }

  /** Toggling `(r, c)` from dead to alive raises the live-neighbour count of
      every cell `(i, j)` by the number of directions leading from `(r, c)` to it. */
  lemma {:induction false} BirthRaisesCounts(g: Grid, rows: nat, columns: nat, r: nat, c: nat, i: nat, j: nat)
    requires LifeReference.Rectangular(g, rows, columns)
    requires r < rows && c < columns && i < rows && j < columns
    requires g[r][c] != LifeReference.LiveCell
    ensures LifeReference.Rectangular(g[r := g[r][c := LifeReference.LiveCell]], rows, columns)
    ensures LifeReference.LiveNeighbors(g[r := g[r][c := LifeReference.LiveCell]], rows, columns, i, j)
         == LifeReference.LiveNeighbors(g, rows, columns, i, j) + Hits(rows, columns, r, c, i, j)
  {
    var g' := g[r := g[r][c := LifeReference.LiveCell]];
    forall k | 0 <= k < 8
      ensures LifeReference.LiveAt(g', rows, columns, i, j, k)
           == LifeReference.LiveAt(g, rows, columns, i, j, k) + HitAt(rows, columns, r, c, 7 - k, i, j)
    {
      LifeReference.NeighborSymmetric(rows, columns, r, c, 7 - k, i, j);
    }
  }

  /** Toggling `(r, c)` from alive to dead lowers the counts by the same amount. */
  lemma {:induction false} DeathLowersCounts(g: Grid, rows: nat, columns: nat, r: nat, c: nat, i: nat, j: nat)
    requires LifeReference.Rectangular(g, rows, columns)
    requires r < rows && c < columns && i < rows && j < columns
    requires g[r][c] == LifeReference.LiveCell
    ensures LifeReference.Rectangular(g[r := g[r][c := LifeReference.DeadCell]], rows, columns)
    ensures LifeReference.LiveNeighbors(g[r := g[r][c := LifeReference.DeadCell]], rows, columns, i, j) + Hits(rows, columns, r, c, i, j)
         == LifeReference.LiveNeighbors(g, rows, columns, i, j)
  {
    var g' := g[r := g[r][c := LifeReference.DeadCell]];
    forall k | 0 <= k < 8
      ensures LifeReference.LiveAt(g', rows, columns, i, j, k) + HitAt(rows, columns, r, c, 7 - k, i, j)
           == LifeReference.LiveAt(g, rows, columns, i, j, k)
    {
      LifeReference.NeighborSymmetric(rows, columns, r, c, 7 - k, i, j);
    }
  }

  /** Add one count unit to the byte of cell `(i, j)`; nothing else changes. */
  function IncrementAt(p: Packed, rows: nat, columns: nat, i: nat, j: nat): (q: Packed)
    requires Shaped(p, rows, columns) && i < rows && j < columns
    ensures Shaped(q, rows, columns)
    ensures IsAlive(q[i][j]) == IsAlive(p[i][j])
    ensures GetCount(p[i][j]) < MaxCount ==> GetCount(q[i][j]) == GetCount(p[i][j]) + 1
    ensures forall a, b :: 0 <= a < rows && 0 <= b < columns && (a != i || b != j) ==> q[a][b] == p[a][b]
  {
    p[i := p[i][j := Increment(p[i][j])]]
  }

  /** Remove one count unit from the byte of cell `(i, j)`; nothing else changes. */
  function DecrementAt(p: Packed, rows: nat, columns: nat, i: nat, j: nat): (q: Packed)
    requires Shaped(p, rows, columns) && i < rows && j < columns
    ensures Shaped(q, rows, columns)
    ensures IsAlive(q[i][j]) == IsAlive(p[i][j])
    ensures GetCount(p[i][j]) > 0 ==> GetCount(q[i][j]) == GetCount(p[i][j]) - 1
    ensures forall a, b :: 0 <= a < rows && 0 <= b < columns && (a != i || b != j) ==> q[a][b] == p[a][b]
  {
    p[i := p[i][j := Decrement(p[i][j])]]
  }

  /** One step of `IncrementNeighbors`: only the cell in direction `k` from `(r, c)` changes count. */
  lemma IncrementStep(p: Packed, rows: nat, columns: nat, r: nat, c: nat, k: nat)
    requires Shaped(p, rows, columns) && r < rows && c < columns && k < 8
    ensures var p1 := IncrementAt(p, rows, columns, LifeReference.NbRow(rows, r, k), LifeReference.NbCol(columns, c, k));
      forall a, b :: 0 <= a < rows && 0 <= b < columns ==>
        GetCount(p1[a][b]) == GetCount(p[a][b]) + HitAt(rows, columns, r, c, k, a, b) ||
          GetCount(p[a][b]) == MaxCount
  {
  }

  /** Increment the counts of the neighbours of `(r, c)` in directions `k..7`, one
      direction after the other, as `setCell` does with its eight neighbour offsets. */
  function IncrementNeighbors(p: Packed, rows: nat, columns: nat, r: nat, c: nat, k: nat): (q: Packed)
    requires Shaped(p, rows, columns) && r < rows && c < columns && k <= 8
    ensures Shaped(q, rows, columns)
    ensures forall i, j :: 0 <= i < rows && 0 <= j < columns ==> IsAlive(q[i][j]) == IsAlive(p[i][j])
    ensures forall i, j | 0 <= i < rows && 0 <= j < columns &&
      GetCount(p[i][j]) + HitsFrom(rows, columns, r, c, k, i, j) <= MaxCount ::
      GetCount(q[i][j]) == GetCount(p[i][j]) + HitsFrom(rows, columns, r, c, k, i, j)
    decreases 8 - k
  {
    if k == 8 then p
    else
      var i := LifeReference.NbRow(rows, r, k);
      var j := LifeReference.NbCol(columns, c, k);
      var p1 := IncrementAt(p, rows, columns, i, j);
      var q := IncrementNeighbors(p1, rows, columns, r, c, k + 1);
      IncrementStep(p, rows, columns, r, c, k);
      q
  }

  /** One step of `DecrementNeighbors`: only the cell in direction `k` from `(r, c)` changes count. */
  lemma DecrementStep(p: Packed, rows: nat, columns: nat, r: nat, c: nat, k: nat)
    requires Shaped(p, rows, columns) && r < rows && c < columns && k < 8
    ensures var p1 := DecrementAt(p, rows, columns, LifeReference.NbRow(rows, r, k), LifeReference.NbCol(columns, c, k));
      forall a, b :: 0 <= a < rows && 0 <= b < columns ==>
        GetCount(p1[a][b]) + HitAt(rows, columns, r, c, k, a, b) == GetCount(p[a][b]) ||
          GetCount(p[a][b]) == 0
  {
  }

  /** Decrement the counts of the neighbours of `(r, c)` in directions `k..7`. */
  function DecrementNeighbors(p: Packed, rows: nat, columns: nat, r: nat, c: nat, k: nat): (q: Packed)
    requires Shaped(p, rows, columns) && r < rows && c < columns && k <= 8
    ensures Shaped(q, rows, columns)
    ensures forall i, j :: 0 <= i < rows && 0 <= j < columns ==> IsAlive(q[i][j]) == IsAlive(p[i][j])
    ensures forall i, j | 0 <= i < rows && 0 <= j < columns &&
      HitsFrom(rows, columns, r, c, k, i, j) <= GetCount(p[i][j]) ::
      GetCount(q[i][j]) + HitsFrom(rows, columns, r, c, k, i, j) == GetCount(p[i][j])
    decreases 8 - k
  {
    if k == 8 then p
    else
      var i := LifeReference.NbRow(rows, r, k);
      var j := LifeReference.NbCol(columns, c, k);
      var p1 := DecrementAt(p, rows, columns, i, j);
      var q := DecrementNeighbors(p1, rows, columns, r, c, k + 1);
      DecrementStep(p, rows, columns, r, c, k);
      q
  }

  /** The alive bits of `q` are those of `p` except at `(r, c)`, which is `alive`:
      the snapshot of `q` is that of `p` with one character replaced. */
  lemma SnapshotOfToggle(p: Packed, q: Packed, rows: nat, columns: nat, r: nat, c: nat, alive: bool)
    requires Shaped(p, rows, columns) && Shaped(q, rows, columns) && r < rows && c < columns
    requires forall i, j :: 0 <= i < rows && 0 <= j < columns ==>
      IsAlive(q[i][j]) == (if i == r && j == c then alive else IsAlive(p[i][j]))
    ensures var g := Snapshot(p, rows, columns);
      Snapshot(q, rows, columns) ==
        g[r := g[r][c := if alive then LifeReference.LiveCell else LifeReference.DeadCell]]
  {
    var g := Snapshot(p, rows, columns);
    var g' := g[r := g[r][c := if alive then LifeReference.LiveCell else LifeReference.DeadCell]];
    assert LifeReference.Rectangular(g', rows, columns);
    LifeReference.GridExtensional(Snapshot(q, rows, columns), g', rows, columns);
  }

  /** Activate the byte of `(r, c)`. */
  function ActivateAt(p: Packed, rows: nat, columns: nat, r: nat, c: nat): (q: Packed)
    requires Shaped(p, rows, columns) && r < rows && c < columns
    ensures Shaped(q, rows, columns)
    ensures forall i, j :: 0 <= i < rows && 0 <= j < columns ==>
      IsAlive(q[i][j]) == (if i == r && j == c then true else IsAlive(p[i][j]))
    ensures forall i, j :: 0 <= i < rows && 0 <= j < columns ==> GetCount(q[i][j]) == GetCount(p[i][j])
  {
    p[r := p[r][c := Activate(p[r][c])]]
  }

  /** Deactivate the byte of `(r, c)`. */
  function DeactivateAt(p: Packed, rows: nat, columns: nat, r: nat, c: nat): (q: Packed)
    requires Shaped(p, rows, columns) && r < rows && c < columns
    ensures Shaped(q, rows, columns)
    ensures forall i, j :: 0 <= i < rows && 0 <= j < columns ==>
      IsAlive(q[i][j]) == (if i == r && j == c then false else IsAlive(p[i][j]))
    ensures forall i, j :: 0 <= i < rows && 0 <= j < columns ==> GetCount(q[i][j]) == GetCount(p[i][j])
  {
    p[r := p[r][c := Deactivate(p[r][c])]]
  }

  /** One cell's count after the body of `setCell`: its count field has grown by
      the number of directions leading to it from `(r, c)`. */
  lemma SetCellCountAt(p: Packed, q: Packed, rows: nat, columns: nat, r: nat, c: nat, i: nat, j: nat)
    requires Shaped(p, rows, columns) && Shaped(q, rows, columns)
    requires r < rows && c < columns && i < rows && j < columns
    requires !IsAlive(p[r][c]) && CountCorrect(p, rows, columns, i, j)
    requires GetCount(p[i][j]) + Hits(rows, columns, r, c, i, j) <= MaxCount ==>
      GetCount(q[i][j]) == GetCount(p[i][j]) + Hits(rows, columns, r, c, i, j)
    requires Snapshot(q, rows, columns) ==
      Snapshot(p, rows, columns)[r := Snapshot(p, rows, columns)[r][c := LifeReference.LiveCell]]
    ensures CountCorrect(q, rows, columns, i, j)
  {
    BirthRaisesCounts(Snapshot(p, rows, columns), rows, columns, r, c, i, j);
  }

  /** The alive bits after the body of `setCell`. */
  lemma SetCellSnapshot(p: Packed, rows: nat, columns: nat, r: nat, c: nat)
    requires Shaped(p, rows, columns) && r < rows && c < columns
    ensures var q := IncrementNeighbors(ActivateAt(p, rows, columns, r, c), rows, columns, r, c, 0);
      Snapshot(q, rows, columns) ==
        Snapshot(p, rows, columns)[r := Snapshot(p, rows, columns)[r][c := LifeReference.LiveCell]]
  {
    var q := IncrementNeighbors(ActivateAt(p, rows, columns, r, c), rows, columns, r, c, 0);
    SnapshotOfToggle(p, q, rows, columns, r, c, true);
  }

  /** The count fields after the body of `setCell`. */
  lemma SetCellCounts(p: Packed, rows: nat, columns: nat, r: nat, c: nat, i: nat, j: nat)
    requires Shaped(p, rows, columns) && r < rows && c < columns && i < rows && j < columns
    ensures var q := IncrementNeighbors(ActivateAt(p, rows, columns, r, c), rows, columns, r, c, 0);
      GetCount(p[i][j]) + Hits(rows, columns, r, c, i, j) <= MaxCount ==>
      GetCount(q[i][j]) == GetCount(p[i][j]) + Hits(rows, columns, r, c, i, j)
  {
  }

  /** The body of `setCell` keeps the layout invariant. */
  lemma {:induction false} SetCellConsistent(p: Packed, rows: nat, columns: nat, r: nat, c: nat)
    requires Valid(p, rows, columns) && r < rows && c < columns
    requires !IsAlive(p[r][c])
    ensures var q := IncrementNeighbors(ActivateAt(p, rows, columns, r, c), rows, columns, r, c, 0);
      Valid(q, rows, columns) &&
      Snapshot(q, rows, columns) ==
        Snapshot(p, rows, columns)[r := Snapshot(p, rows, columns)[r][c := LifeReference.LiveCell]]
  {
    var p1 := ActivateAt(p, rows, columns, r, c);
    var q := IncrementNeighbors(p1, rows, columns, r, c, 0);
    forall i, j | 0 <= i < rows && 0 <= j < columns
      ensures CountCorrect(q, rows, columns, i, j)
    {
      assert CountCorrect(p, rows, columns, i, j);
      SetCellSnapshot(p, rows, columns, r, c);
      SetCellCounts(p, rows, columns, r, c, i, j);
      SetCellCountAt(p, q, rows, columns, r, c, i, j);
    }
    SetCellSnapshot(p, rows, columns, r, c);
  }

  /** One cell's count after the body of `clearCell`: its count field has dropped by
      the number of directions leading to it from `(r, c)`. */
  lemma ClearCellCountAt(p: Packed, q: Packed, rows: nat, columns: nat, r: nat, c: nat, i: nat, j: nat)
    requires Shaped(p, rows, columns) && Shaped(q, rows, columns)
    requires r < rows && c < columns && i < rows && j < columns
    requires IsAlive(p[r][c]) && CountCorrect(p, rows, columns, i, j)
    requires Hits(rows, columns, r, c, i, j) <= GetCount(p[i][j]) ==>
      GetCount(q[i][j]) + Hits(rows, columns, r, c, i, j) == GetCount(p[i][j])
    requires Snapshot(q, rows, columns) ==
      Snapshot(p, rows, columns)[r := Snapshot(p, rows, columns)[r][c := LifeReference.DeadCell]]
    ensures CountCorrect(q, rows, columns, i, j)
  {
    DeathLowersCounts(Snapshot(p, rows, columns), rows, columns, r, c, i, j);
  }

  /** The alive bits after the body of `clearCell`. */
  lemma ClearCellSnapshot(p: Packed, rows: nat, columns: nat, r: nat, c: nat)
    requires Shaped(p, rows, columns) && r < rows && c < columns
    ensures var q := DecrementNeighbors(DeactivateAt(p, rows, columns, r, c), rows, columns, r, c, 0);
      Snapshot(q, rows, columns) ==
        Snapshot(p, rows, columns)[r := Snapshot(p, rows, columns)[r][c := LifeReference.DeadCell]]
  {
    var q := DecrementNeighbors(DeactivateAt(p, rows, columns, r, c), rows, columns, r, c, 0);
    SnapshotOfToggle(p, q, rows, columns, r, c, false);
  }

  /** The count fields after the body of `clearCell`. */
  lemma ClearCellCounts(p: Packed, rows: nat, columns: nat, r: nat, c: nat, i: nat, j: nat)
    requires Shaped(p, rows, columns) && r < rows && c < columns && i < rows && j < columns
    ensures var q := DecrementNeighbors(DeactivateAt(p, rows, columns, r, c), rows, columns, r, c, 0);
      Hits(rows, columns, r, c, i, j) <= GetCount(p[i][j]) ==>
      GetCount(q[i][j]) + Hits(rows, columns, r, c, i, j) == GetCount(p[i][j])
  {
  }

  /** The body of `clearCell` keeps the layout invariant. */
  lemma {:induction false} ClearCellConsistent(p: Packed, rows: nat, columns: nat, r: nat, c: nat)
    requires Valid(p, rows, columns) && r < rows && c < columns
    requires IsAlive(p[r][c])
    ensures var q := DecrementNeighbors(DeactivateAt(p, rows, columns, r, c), rows, columns, r, c, 0);
      Valid(q, rows, columns) &&
      Snapshot(q, rows, columns) ==
        Snapshot(p, rows, columns)[r := Snapshot(p, rows, columns)[r][c := LifeReference.DeadCell]]
  {
    var p1 := DeactivateAt(p, rows, columns, r, c);
    var q := DecrementNeighbors(p1, rows, columns, r, c, 0);
    forall i, j | 0 <= i < rows && 0 <= j < columns
      ensures CountCorrect(q, rows, columns, i, j)
    {
      assert CountCorrect(p, rows, columns, i, j);
      ClearCellSnapshot(p, rows, columns, r, c);
      ClearCellCounts(p, rows, columns, r, c, i, j);
      ClearCellCountAt(p, q, rows, columns, r, c, i, j);
    }
    ClearCellSnapshot(p, rows, columns, r, c);
  }

  /** `setCell`: make the dead cell `(r, c)` alive and add one to the count of each of
      its eight neighbours. The layout invariant holds again afterwards, and the
      alive bits are those of before with `(r, c)` now alive. */
  function SetCell(p: Packed, rows: nat, columns: nat, r: nat, c: nat): (q: Packed)
    requires Valid(p, rows, columns) && r < rows && c < columns
    requires !IsAlive(p[r][c])
    ensures Valid(q, rows, columns)
    ensures forall i, j :: 0 <= i < rows && 0 <= j < columns ==>
      IsAlive(q[i][j]) == (if i == r && j == c then true else IsAlive(p[i][j]))
  {
    SetCellConsistent(p, rows, columns, r, c);
    IncrementNeighbors(ActivateAt(p, rows, columns, r, c), rows, columns, r, c, 0)
  }

  /** `clearCell`: make the live cell `(r, c)` dead and subtract one from the count of
      each of its eight neighbours, keeping the layout invariant. */
  function ClearCell(p: Packed, rows: nat, columns: nat, r: nat, c: nat): (q: Packed)
    requires Valid(p, rows, columns) && r < rows && c < columns
    requires IsAlive(p[r][c])
    ensures Valid(q, rows, columns)
    ensures forall i, j :: 0 <= i < rows && 0 <= j < columns ==>
      IsAlive(q[i][j]) == (if i == r && j == c then false else IsAlive(p[i][j]))
  {
    ClearCellConsistent(p, rows, columns, r, c);
    DecrementNeighbors(DeactivateAt(p, rows, columns, r, c), rows, columns, r, c, 0)
  }

  /** The state the B3/S23 rule gives a cell from the two fields of its own byte. */
  predicate RuleOnByte(b: bv8) {
    if IsAlive(b) then LifeReference.StayAliveMin <= GetCount(b) <= LifeReference.StayAliveMax
    else GetCount(b) == LifeReference.BecomeAliveNeighbors
  }

  /** Under the layout invariant, the rule read off one byte is the reference rule
      applied to the grid the bytes stand for. */
  lemma RuleOnByteIsNextCell(p: Packed, rows: nat, columns: nat, i: nat, j: nat)
    requires Valid(p, rows, columns) && i < rows && j < columns
    ensures RuleOnByte(p[i][j]) <==>
      LifeReference.NextCell(Snapshot(p, rows, columns), rows, columns, i, j) == LifeReference.LiveCell
  {
    assert CountCorrect(p, rows, columns, i, j);
  }

  /** Cell `(i, j)` of `q` already holds its next-generation state, read from `prev`. */
  predicate Decided(prev: Packed, q: Packed, rows: nat, columns: nat, i: nat, j: nat)
    requires Shaped(prev, rows, columns) && Shaped(q, rows, columns) && i < rows && j < columns
  {
    IsAlive(q[i][j]) == RuleOnByte(prev[i][j])
  }

  /** Cell `(i, j)` of `q` still holds the state it had in `prev`. */
  predicate Pending(prev: Packed, q: Packed, rows: nat, columns: nat, i: nat, j: nat)
    requires Shaped(prev, rows, columns) && Shaped(q, rows, columns) && i < rows && j < columns
  {
    IsAlive(q[i][j]) == IsAlive(prev[i][j])
  }

  /** Once every cell is decided, `q` stands for the reference step of `prev`. */
  lemma AllDecidedIsStep(prev: Packed, q: Packed, rows: nat, columns: nat)
    requires Valid(prev, rows, columns) && Shaped(q, rows, columns)
    requires forall i, j | 0 <= i < rows && 0 <= j < columns :: Decided(prev, q, rows, columns, i, j)
    ensures Snapshot(q, rows, columns) == LifeReference.Step(Snapshot(prev, rows, columns), rows, columns)
  {
    var g := Snapshot(q, rows, columns);
    var h := LifeReference.Step(Snapshot(prev, rows, columns), rows, columns);
    forall i, j | 0 <= i < rows && 0 <= j < columns
      ensures g[i][j] == h[i][j]
    {
      assert Decided(prev, q, rows, columns, i, j);
      RuleOnByteIsNextCell(prev, rows, columns, i, j);
    }
    LifeReference.GridExtensional(g, h, rows, columns);
  }

  /** The work `next` does for one cell: the decision is read from the byte of the
      previous generation, which holds the cell's neighbour count, and applied to the
      current grid with `setCell`/`clearCell`. A zero byte (dead, no live neighbours)
      is skipped. */
  function Visit(prev: Packed, p: Packed, rows: nat, columns: nat, r: nat, c: nat): (q: Packed)
    requires Shaped(prev, rows, columns) && Valid(p, rows, columns) && r < rows && c < columns
    requires Pending(prev, p, rows, columns, r, c)
    ensures Valid(q, rows, columns)
    ensures Decided(prev, q, rows, columns, r, c)
    ensures forall i, j :: 0 <= i < rows && 0 <= j < columns && (i != r || j != c) ==>
      IsAlive(q[i][j]) == IsAlive(p[i][j])
  {
    var b := prev[r][c];
    if b == DeadNoNeighbors then p
    else if IsAlive(b) && (GetCount(b) < LifeReference.StayAliveMin || GetCount(b) > LifeReference.StayAliveMax) then
      ClearCell(p, rows, columns, r, c)
    else if !IsAlive(b) && GetCount(b) == LifeReference.BecomeAliveNeighbors then
      SetCell(p, rows, columns, r, c)
    else p
  }

  /** The sweep of `next` has visited the cells before `(r, c)` in row-major order:
      those are decided, the rest still hold their previous state. */
  predicate Progress(prev: Packed, q: Packed, rows: nat, columns: nat, r: nat, c: nat)
    requires Shaped(prev, rows, columns) && Shaped(q, rows, columns)
  {
    forall i, j | 0 <= i < rows && 0 <= j < columns ::
      if i < r || (i == r && j < c) then Decided(prev, q, rows, columns, i, j)
      else Pending(prev, q, rows, columns, i, j)
  }

  /** Visiting `(r, c)` advances the sweep by one cell. */
  lemma VisitAdvances(prev: Packed, q: Packed, rows: nat, columns: nat, r: nat, c: nat)
    requires Shaped(prev, rows, columns) && Valid(q, rows, columns) && r < rows && c < columns
    requires Progress(prev, q, rows, columns, r, c)
    ensures Progress(prev, Visit(prev, q, rows, columns, r, c), rows, columns, r, c + 1)
  {
    assert Pending(prev, q, rows, columns, r, c);
    var q1 := Visit(prev, q, rows, columns, r, c);
    forall i, j | 0 <= i < rows && 0 <= j < columns
      ensures if i < r || (i == r && j < c + 1) then Decided(prev, q1, rows, columns, i, j)
              else Pending(prev, q1, rows, columns, i, j)
    {
      if i != r || j != c {
        if i < r || (i == r && j < c) {
          assert Decided(prev, q, rows, columns, i, j);
        } else {
          assert Pending(prev, q, rows, columns, i, j);
        }
      }
    }
  }

  /** A finished row: the sweep continues at the start of the next one. */
  lemma RowDone(prev: Packed, q: Packed, rows: nat, columns: nat, r: nat)
    requires Shaped(prev, rows, columns) && Shaped(q, rows, columns) && r < rows
    requires Progress(prev, q, rows, columns, r, columns)
    ensures Progress(prev, q, rows, columns, r + 1, 0)
  {
    forall i, j | 0 <= i < rows && 0 <= j < columns
      ensures if i < r + 1 then Decided(prev, q, rows, columns, i, j)
              else Pending(prev, q, rows, columns, i, j)
    {
      if i < r + 1 {
        assert Decided(prev, q, rows, columns, i, j);
      } else {
        assert Pending(prev, q, rows, columns, i, j);
      }
    }
  }

  /** `next`: one generation of the packed engine. Every decision reads the untouched
      copy `prev`, so the result is the reference step of the grid it stands for. */
  method Next(prev: Packed, rows: nat, columns: nat) returns (q: Packed)
    requires Valid(prev, rows, columns)
    ensures Valid(q, rows, columns)
    ensures Snapshot(q, rows, columns) == LifeReference.Step(Snapshot(prev, rows, columns), rows, columns)
  {
    q := prev;
    var r := 0;
    while r < rows
      invariant r <= rows && Valid(q, rows, columns)
      invariant Progress(prev, q, rows, columns, r, 0)
    {
      var c := 0;
      while c < columns
        invariant c <= columns && Valid(q, rows, columns)
        invariant Progress(prev, q, rows, columns, r, c)
      {
        VisitAdvances(prev, q, rows, columns, r, c);
        q := Visit(prev, q, rows, columns, r, c);
        c := c + 1;
      }
      RowDone(prev, q, rows, columns, r);
      r := r + 1;
    }
    forall i, j | 0 <= i < rows && 0 <= j < columns
      ensures Decided(prev, q, rows, columns, i, j)
    {
    }
    AllDecidedIsStep(prev, q, rows, columns);
  }

  /** `update`: `generations` successive calls of `next`; zero or fewer does nothing. */
  method Update(p: Packed, rows: nat, columns: nat, generations: int) returns (q: Packed)
    requires Valid(p, rows, columns)
    ensures Valid(q, rows, columns)
    ensures Snapshot(q, rows, columns) ==
      LifeReference.Update(Snapshot(p, rows, columns), rows, columns, generations)
  {
    q := p;
    var k := 0;
    while k < generations
      invariant Valid(q, rows, columns) && (if generations <= 0 then k == 0 else k <= generations)
      invariant Snapshot(q, rows, columns) ==
        LifeReference.Update(Snapshot(p, rows, columns), rows, columns, k)
    {
      LifeReference.UpdateAdditive(Snapshot(p, rows, columns), rows, columns, k, 1);
      q := Next(q, rows, columns);
      k := k + 1;
    }
    assert generations <= 0 ==>
      LifeReference.Update(Snapshot(p, rows, columns), rows, columns, generations) == Snapshot(p, rows, columns);
  }

  /** A grid of zero bytes: every cell dead with no live neighbours. */
  function Empty(rows: nat, columns: nat): (p: Packed)
    ensures Valid(p, rows, columns)
    ensures forall i, j :: 0 <= i < rows && 0 <= j < columns ==> !IsAlive(p[i][j])
  {
    var p := seq(rows, _ => seq(columns, _ => DeadNoNeighbors));
    forall i, j | 0 <= i < rows && 0 <= j < columns
      ensures CountCorrect(p, rows, columns, i, j)
    {
      var g := Snapshot(p, rows, columns);
      forall k | 0 <= k < 8
        ensures LifeReference.LiveAt(g, rows, columns, i, j, k) == 0
      {
        assert g[LifeReference.NbRow(rows, i, k)][LifeReference.NbCol(columns, j, k)] == LifeReference.DeadCell;
      }
    }
    p
  }

  /** The grid a seed stands for: `'x'` is alive, every other character dead. */
  function Planted(seed: Grid, rows: nat, columns: nat): (g: Grid)
    requires LifeReference.Rectangular(seed, rows, columns)
    ensures LifeReference.Rectangular(g, rows, columns)
    ensures forall i, j :: 0 <= i < rows && 0 <= j < columns ==>
      (g[i][j] == LifeReference.LiveCell <==> seed[i][j] == LifeReference.LiveCell)
    ensures forall i, j :: 0 <= i < rows && 0 <= j < columns ==>
      (g[i][j] == LifeReference.LiveCell || g[i][j] == LifeReference.DeadCell)
  {
    seq(rows, i requires 0 <= i < rows =>
      seq(columns, j requires 0 <= j < columns =>
        if seed[i][j] == LifeReference.LiveCell then LifeReference.LiveCell else LifeReference.DeadCell))
  }

  /** A seed drawn only with `'x'` and `'.'` is its own planted grid. */
  lemma PlantedCharGrid(seed: Grid, rows: nat, columns: nat)
    requires LifeReference.Rectangular(seed, rows, columns)
    requires forall i, j :: 0 <= i < rows && 0 <= j < columns ==>
      (seed[i][j] == LifeReference.LiveCell || seed[i][j] == LifeReference.DeadCell)
    ensures Planted(seed, rows, columns) == seed
  {
    LifeReference.GridExtensional(Planted(seed, rows, columns), seed, rows, columns);
  }

  /** Cell `(i, j)` of `p` is alive exactly when the seed says so. */
  predicate Sown(seed: Grid, p: Packed, rows: nat, columns: nat, i: nat, j: nat)
    requires LifeReference.Rectangular(seed, rows, columns) && Shaped(p, rows, columns)
    requires i < rows && j < columns
  {
    IsAlive(p[i][j]) == (seed[i][j] == LifeReference.LiveCell)
  }

  /** Cell `(i, j)` of `p` is still dead. */
  predicate Fallow(p: Packed, rows: nat, columns: nat, i: nat, j: nat)
    requires Shaped(p, rows, columns) && i < rows && j < columns
  {
    !IsAlive(p[i][j])
  }

  /** The seeding sweep has visited the cells before `(r, c)` in row-major order. */
  predicate Sowing(seed: Grid, p: Packed, rows: nat, columns: nat, r: nat, c: nat)
    requires LifeReference.Rectangular(seed, rows, columns) && Shaped(p, rows, columns)
  {
    forall i, j | 0 <= i < rows && 0 <= j < columns ::
      if i < r || (i == r && j < c) then Sown(seed, p, rows, columns, i, j)
      else Fallow(p, rows, columns, i, j)
  }

  /** The seeding step for one cell: `setCell` where the seed has `'x'`. */
  function Sow(seed: Grid, p: Packed, rows: nat, columns: nat, r: nat, c: nat): (q: Packed)
    requires LifeReference.Rectangular(seed, rows, columns) && Valid(p, rows, columns)
    requires r < rows && c < columns && Fallow(p, rows, columns, r, c)
    ensures Valid(q, rows, columns) && Sown(seed, q, rows, columns, r, c)
    ensures forall i, j :: 0 <= i < rows && 0 <= j < columns && (i != r || j != c) ==>
      IsAlive(q[i][j]) == IsAlive(p[i][j])
  {
    if seed[r][c] == LifeReference.LiveCell then SetCell(p, rows, columns, r, c) else p
  }

  /** Sowing `(r, c)` advances the seeding sweep by one cell. */
  lemma SowAdvances(seed: Grid, p: Packed, rows: nat, columns: nat, r: nat, c: nat)
    requires LifeReference.Rectangular(seed, rows, columns) && Valid(p, rows, columns)
    requires r < rows && c < columns && Sowing(seed, p, rows, columns, r, c)
    ensures Fallow(p, rows, columns, r, c)
    ensures Sowing(seed, Sow(seed, p, rows, columns, r, c), rows, columns, r, c + 1)
  {
    assert Fallow(p, rows, columns, r, c);
    var q := Sow(seed, p, rows, columns, r, c);
    forall i, j | 0 <= i < rows && 0 <= j < columns
      ensures if i < r || (i == r && j < c + 1) then Sown(seed, q, rows, columns, i, j)
              else Fallow(q, rows, columns, i, j)
    {
      if i != r || j != c {
        if i < r || (i == r && j < c) {
          assert Sown(seed, p, rows, columns, i, j);
        } else {
          assert Fallow(p, rows, columns, i, j);
        }
      }
    }
  }

  /** A finished row of the seeding sweep. */
  lemma SowRowDone(seed: Grid, p: Packed, rows: nat, columns: nat, r: nat)
    requires LifeReference.Rectangular(seed, rows, columns) && Shaped(p, rows, columns) && r < rows
    requires Sowing(seed, p, rows, columns, r, columns)
    ensures Sowing(seed, p, rows, columns, r + 1, 0)
  {
    forall i, j | 0 <= i < rows && 0 <= j < columns
      ensures if i < r + 1 then Sown(seed, p, rows, columns, i, j) else Fallow(p, rows, columns, i, j)
    {
      if i < r + 1 {
        assert Sown(seed, p, rows, columns, i, j);
      } else {
        assert Fallow(p, rows, columns, i, j);
      }
    }
  }

  /** `initialize_from_seed`: start from the all-dead grid and `setCell` every `'x'`
      of the seed, row by row. The result stands for the seed. */
  method FromSeed(seed: Grid, rows: nat, columns: nat) returns (p: Packed)
    requires LifeReference.Rectangular(seed, rows, columns)
    ensures Valid(p, rows, columns)
    ensures Snapshot(p, rows, columns) == Planted(seed, rows, columns)
  {
    p := Empty(rows, columns);
    var r := 0;
    while r < rows
      invariant r <= rows && Valid(p, rows, columns)
      invariant Sowing(seed, p, rows, columns, r, 0)
    {
      var c := 0;
      while c < columns
        invariant c <= columns && Valid(p, rows, columns)
        invariant Sowing(seed, p, rows, columns, r, c)
      {
        SowAdvances(seed, p, rows, columns, r, c);
        p := Sow(seed, p, rows, columns, r, c);
        c := c + 1;
      }
      SowRowDone(seed, p, rows, columns, r);
      r := r + 1;
    }
    var g := Snapshot(p, rows, columns);
    var h := Planted(seed, rows, columns);
    forall i, j | 0 <= i < rows && 0 <= j < columns
      ensures g[i][j] == h[i][j]
    {
      assert Sown(seed, p, rows, columns, i, j);
    }
    LifeReference.GridExtensional(g, h, rows, columns);
  }

  /** The sequential engine: its dimensions and its packed grid. */
  datatype Engine = Engine(rows: nat, columns: nat, cells: Packed)

  predicate EngineValid(e: Engine) {
    Valid(e.cells, e.rows, e.columns)
  }

  /** `getGrid`: the character grid the engine stands for. */
  function GetGrid(e: Engine): (g: Grid)
    requires EngineValid(e)
    ensures LifeReference.Rectangular(g, e.rows, e.columns)
    ensures forall r, c :: 0 <= r < e.rows && 0 <= c < e.columns ==>
      g[r][c] == CellState(e.cells[r][c])
  {
    Snapshot(e.cells, e.rows, e.columns)
  }

  /** The constructor from a seed. The packed engine only declares it, so the
      dimensions are checked with the corrected rectangular check of
      `LifeReference.Construct` (every row, not only the first), then the grid
      is seeded. */
  method NewEngine(rows: nat, columns: nat, seed: Grid) returns (r: Result<Engine, LifeReference.GameError>)
    ensures r.Ok? <==> LifeReference.Rectangular(seed, rows, columns)
    ensures r.Ok? ==> EngineValid(r.value) && r.value.rows == rows && r.value.columns == columns
    ensures r.Ok? ==> GetGrid(r.value) == Planted(seed, rows, columns)
  {
    var checked := LifeReference.Construct(rows, columns, seed);
    if checked.Err? {
      return Err(checked.error);
    }
    var cells := FromSeed(seed, rows, columns);
    return Ok(Engine(rows, columns, cells));
  }

  /** Constructing from a seed of `'x'` and `'.'` and reading `getGrid` gives the seed back. */
  lemma NewEngineGridIsSeed(rows: nat, columns: nat, seed: Grid, e: Engine)
    requires LifeReference.Rectangular(seed, rows, columns)
    requires forall i, j :: 0 <= i < rows && 0 <= j < columns ==>
      (seed[i][j] == LifeReference.LiveCell || seed[i][j] == LifeReference.DeadCell)
    requires EngineValid(e) && e.rows == rows && e.columns == columns
    requires GetGrid(e) == Planted(seed, rows, columns)
    ensures GetGrid(e) == seed
  {
    PlantedCharGrid(seed, rows, columns);
  }

  /** `next` on the engine: the dimensions stay, the grid takes one reference step. */
  method EngineNext(e: Engine) returns (e': Engine)
    requires EngineValid(e)
    ensures EngineValid(e') && e'.rows == e.rows && e'.columns == e.columns
    ensures GetGrid(e') == LifeReference.Step(GetGrid(e), e.rows, e.columns)
  {
    var cells := Next(e.cells, e.rows, e.columns);
    e' := Engine(e.rows, e.columns, cells);
  }

  /** `update` on the engine: the dimensions stay, the grid is the reference `update`. */
  method EngineUpdate(e: Engine, generations: int) returns (e': Engine)
    requires EngineValid(e)
    ensures EngineValid(e') && e'.rows == e.rows && e'.columns == e.columns
    ensures GetGrid(e') == LifeReference.Update(GetGrid(e), e.rows, e.columns, generations)
  {
    var cells := Update(e.cells, e.rows, e.columns, generations);
    e' := Engine(e.rows, e.columns, cells);
  }
}

=== FILE: life_reference.dfy ===
/** The reference Game of Life engine: a `rows x columns` grid of characters on a
    torus, one generation of the B3/S23 rule, and the checked constructor. */
module LifeReference {
  import opened Results

  const LiveCell: char := 'x'
  const DeadCell: char := '.'

  /** Rule constants: a live cell survives with 2..3 live neighbours,
      a dead cell is born with exactly 3. */
  const StayAliveMin: nat := 2
  const StayAliveMax: nat := 3
  const BecomeAliveNeighbors: nat := 3

  type Grid = seq<seq<char>>

  /** `g` has `rows` rows of exactly `columns` characters each. */
  predicate Rectangular(g: Grid, rows: int, columns: int) {
    |g| == rows && forall r :: 0 <= r < |g| ==> |g[r]| == columns
  }

  /** Two grids of the same shape that agree on every cell are equal. */
  lemma GridExtensional(g: Grid, h: Grid, rows: int, columns: int)
    requires Rectangular(g, rows, columns) && Rectangular(h, rows, columns)
    requires forall r, c :: 0 <= r < rows && 0 <= c < columns ==> g[r][c] == h[r][c]
    ensures g == h
  {
    forall r | 0 <= r < rows
      ensures g[r] == h[r]
    {
    }
  }

  /** Row and column offsets of the eight neighbours, in the order of the
      source's direction table. Direction `7 - k` is the opposite of `k`. */
  function DRow(k: int): int
    requires 0 <= k < 8
  {
    if k < 3 then -1 else if k < 5 then 0 else 1
  }

  function DCol(k: int): int
    requires 0 <= k < 8
  {
    if k == 0 || k == 3 || k == 5 then -1
    else if k == 1 || k == 6 then 0
    else 1
  }

  /** Index `x` that is at most one step outside `0..n-1`, folded back onto the torus. */
  function Wrap(x: int, n: int): (w: int)
    requires n > 0 && -1 <= x <= n
    ensures 0 <= w < n
    ensures w == x || w == x + n || w == x - n
  {
    if x < 0 then x + n else if x >= n then x - n else x
  }

  /** `Wrap` is the source's `(x + n) % n` for every index it is applied to. */
  lemma WrapIsSourceModulo(x: int, n: int)
    requires n > 0 && -1 <= x <= n
    ensures Wrap(x, n) == (x + n) % n
  {
    var w := Wrap(x, n);
    assert x + n == (if x < 0 then 0 else if x >= n then 2 else 1) * n + w;
  }

  /** Stepping `d` and then `-d` on a torus of size `n` returns to the start. */
  lemma WrapInverse(i: int, j: int, d: int, n: int)
    requires n > 0 && 0 <= i < n && 0 <= j < n && -1 <= d <= 1
    ensures Wrap(i + d, n) == j <==> Wrap(j - d, n) == i
  {
  }

  /** Row of the neighbour of row `r` in direction `k`. */
  function NbRow(rows: int, r: int, k: int): (w: int)
    requires 0 <= r < rows && 0 <= k < 8
    ensures 0 <= w < rows
  {
    Wrap(r + DRow(k), rows)
  }

  function NbCol(columns: int, c: int, k: int): (w: int)
    requires 0 <= c < columns && 0 <= k < 8
    ensures 0 <= w < columns
  {
    Wrap(c + DCol(k), columns)
  }

  /** The cell `(i, j)` is the neighbour of `(r, c)` in direction `k`. */
  predicate IsNeighborAt(rows: int, columns: int, r: int, c: int, k: int, i: int, j: int)
    requires 0 <= r < rows && 0 <= c < columns && 0 <= k < 8
  {
    NbRow(rows, r, k) == i && NbCol(columns, c, k) == j
  }

  /** Directions are symmetric: `(i, j)` is the `k`-neighbour of `(r, c)` exactly
      when `(r, c)` is the opposite neighbour of `(i, j)`. */
  lemma NeighborSymmetric(rows: int, columns: int, r: int, c: int, k: int, i: int, j: int)
    requires 0 <= r < rows && 0 <= c < columns && 0 <= i < rows && 0 <= j < columns && 0 <= k < 8
    ensures IsNeighborAt(rows, columns, r, c, k, i, j) <==> IsNeighborAt(rows, columns, i, j, 7 - k, r, c)
  {
    WrapInverse(r, i, DRow(k), rows);
    WrapInverse(c, j, DCol(k), columns);
  }

  /** 1 when the cell holds `'x'`; any other character counts as dead. */
  function Live(g: Grid, r: int, c: int): (n: nat)
    requires 0 <= r < |g| && 0 <= c < |g[r]|
    ensures n <= 1
  {
    if g[r][c] == LiveCell then 1 else 0
  }

  /** Liveness of the neighbour of `(r, c)` in direction `k`. */
  function LiveAt(g: Grid, rows: int, columns: int, r: int, c: int, k: int): nat
    requires Rectangular(g, rows, columns) && 0 <= r < rows && 0 <= c < columns && 0 <= k < 8
  {
    Live(g, NbRow(rows, r, k), NbCol(columns, c, k))
  }

  /** The number of live cells among the eight toroidal neighbours of `(r, c)`,
      counted once per direction (on a torus narrower than three cells the same
      cell is reached from several directions and is counted each time). */
  function LiveNeighbors(g: Grid, rows: int, columns: int, r: int, c: int): (n: nat)
    requires Rectangular(g, rows, columns) && 0 <= r < rows && 0 <= c < columns
    ensures n <= 8
  {
    LiveAt(g, rows, columns, r, c, 0) + LiveAt(g, rows, columns, r, c, 1) +
    LiveAt(g, rows, columns, r, c, 2) + LiveAt(g, rows, columns, r, c, 3) +
    LiveAt(g, rows, columns, r, c, 4) + LiveAt(g, rows, columns, r, c, 5) +
    LiveAt(g, rows, columns, r, c, 6) + LiveAt(g, rows, columns, r, c, 7)
  }

  /** The count read as a 3 × 3 window: the three rows and three columns around
      `(r, c)`, without the centre. */
  lemma NeighborWindow(g: Grid, rows: int, columns: int, r: int, c: int, up: int, down: int, left: int, right: int)
    requires Rectangular(g, rows, columns) && 0 <= r < rows && 0 <= c < columns
    requires up == Wrap(r - 1, rows) && down == Wrap(r + 1, rows)
    requires left == Wrap(c - 1, columns) && right == Wrap(c + 1, columns)
    ensures LiveNeighbors(g, rows, columns, r, c) ==
      Live(g, up, left) + Live(g, up, c) + Live(g, up, right) + Live(g, r, left) +
      Live(g, r, right) + Live(g, down, left) + Live(g, down, c) + Live(g, down, right)
  {
  }

  /** The state of a cell in the next generation, given its state and its count. */
  function NextState(cell: char, neighbors: nat): char {
    if cell == LiveCell then
      if StayAliveMin <= neighbors <= StayAliveMax then LiveCell else DeadCell
    else
      if neighbors == BecomeAliveNeighbors then LiveCell else DeadCell
  }

  /** The next state of cell `(r, c)`: B3/S23, where any character other than
      `'x'` is a dead cell. */
  function NextCell(g: Grid, rows: int, columns: int, r: int, c: int): (s: char)
    requires Rectangular(g, rows, columns) && 0 <= r < rows && 0 <= c < columns
    ensures s == LiveCell || s == DeadCell
    ensures s == LiveCell <==>
      if g[r][c] == LiveCell then 2 <= LiveNeighbors(g, rows, columns, r, c) <= 3
      else LiveNeighbors(g, rows, columns, r, c) == 3
  {
    NextState(g[r][c], LiveNeighbors(g, rows, columns, r, c))
  }

  /** Row `r` of the next generation. */
  function StepRow(g: Grid, rows: int, columns: int, r: int): (row: seq<char>)
    requires Rectangular(g, rows, columns) && 0 <= r < rows
    ensures |row| == columns
    ensures forall c :: 0 <= c < columns ==> row[c] == NextCell(g, rows, columns, r, c)
  {
    assert |g[r]| == columns;
    seq(columns, c requires 0 <= c < columns => NextCell(g, rows, columns, r, c))
  }

  /** One generation. Every decision reads only the old grid `g`. */
  function Step(g: Grid, rows: int, columns: int): (g': Grid)
    requires Rectangular(g, rows, columns)
    ensures Rectangular(g', rows, columns)
    ensures forall r, c :: 0 <= r < rows && 0 <= c < columns ==> g'[r][c] == NextCell(g, rows, columns, r, c)
  {
    seq(rows, r requires 0 <= r < rows => StepRow(g, rows, columns, r))
  }

  /** `generations` successive steps; a count of zero or less changes nothing. */
  function Update(g: Grid, rows: int, columns: int, generations: int): (g': Grid)
    requires Rectangular(g, rows, columns)
    ensures Rectangular(g', rows, columns)
    ensures generations >= 1 ==> forall r, c :: 0 <= r < rows && 0 <= c < columns ==>
      (g'[r][c] == LiveCell || g'[r][c] == DeadCell)
    decreases generations
  {
    if generations <= 0 then g else Update(Step(g, rows, columns), rows, columns, generations - 1)
  }

  /** Running `a` generations and then `b` more is running `a + b` generations. */
  lemma {:induction false} UpdateAdditive(g: Grid, rows: int, columns: int, a: nat, b: nat)
    requires Rectangular(g, rows, columns)
    ensures Update(g, rows, columns, a + b) ==
            Update(Update(g, rows, columns, a), rows, columns, b)
    decreases a
  {
    if a > 0 {
      UpdateAdditive(Step(g, rows, columns), rows, columns, a - 1, b);
    }
  }

  /** Running a still life (a grid the step leaves unchanged) changes nothing, for
      any number of generations. */
  lemma {:induction false} StillLifeForever(g: Grid, rows: int, columns: int, n: int)
    requires Rectangular(g, rows, columns) && Step(g, rows, columns) == g
    ensures Update(g, rows, columns, n) == g
    decreases n
  {
    if n > 0 {
      StillLifeForever(g, rows, columns, n - 1);
    }
  }

  /** The grid with every cell dead. */
  function Dead(rows: nat, columns: nat): (g: Grid)
    ensures Rectangular(g, rows, columns)
    ensures forall r, c :: 0 <= r < rows && 0 <= c < columns ==> g[r][c] == DeadCell
  {
    seq(rows, _ => seq(columns, _ => DeadCell))
  }

  /** Every cell of `Step(g)` is dead: `g` dies out in one generation. */
  predicate DiesOut(g: Grid, rows: nat, columns: nat)
    requires Rectangular(g, rows, columns)
  {
    forall r, c :: 0 <= r < rows && 0 <= c < columns ==> NextCell(g, rows, columns, r, c) == DeadCell
  }

  /** A grid that dies out in one generation is dead after any positive number of them. */
  lemma {:induction false} ExtinctForever(g: Grid, rows: nat, columns: nat, n: int)
    requires Rectangular(g, rows, columns) && DiesOut(g, rows, columns) && n >= 1
    ensures Update(g, rows, columns, n) == Dead(rows, columns)
  {
    GridExtensional(Step(g, rows, columns), Dead(rows, columns), rows, columns);
    DeadGridStill(rows, columns);
    StillLifeForever(Dead(rows, columns), rows, columns, n - 1);
  }

  /** The dead grid is a still life: no cell has three live neighbours. */
  lemma DeadGridStill(rows: nat, columns: nat)
    ensures Step(Dead(rows, columns), rows, columns) == Dead(rows, columns)
  {
    var g := Dead(rows, columns);
    forall r, c | 0 <= r < rows && 0 <= c < columns
      ensures Step(g, rows, columns)[r][c] == g[r][c]
    {
      forall k | 0 <= k < 8
        ensures LiveAt(g, rows, columns, r, c, k) == 0
      {
        assert g[NbRow(rows, r, k)][NbCol(columns, c, k)] == DeadCell;
      }
    }
    GridExtensional(Step(g, rows, columns), g, rows, columns);
  }

  /** On a torus at least three cells wide, two different offsets in -1..1 from the
      same index never land on the same index. */
  lemma WrapInjective(i: int, d1: int, d2: int, n: int)
    requires n >= 3 && 0 <= i < n && -1 <= d1 <= 1 && -1 <= d2 <= 1
    requires Wrap(i + d1, n) == Wrap(i + d2, n)
    ensures d1 == d2
  {
  }

  /** At least 3 × 3, the eight directions from a cell reach eight different cells. */
  lemma DirectionsDistinct(rows: int, columns: int, i: int, j: int, k1: int, k2: int)
    requires rows >= 3 && columns >= 3 && 0 <= i < rows && 0 <= j < columns
    requires 0 <= k1 < 8 && 0 <= k2 < 8 && k1 != k2
    ensures NbRow(rows, i, k1) != NbRow(rows, i, k2) || NbCol(columns, j, k1) != NbCol(columns, j, k2)
  {
    if NbRow(rows, i, k1) == NbRow(rows, i, k2) && NbCol(columns, j, k1) == NbCol(columns, j, k2) {
      WrapInjective(i, DRow(k1), DRow(k2), rows);
      WrapInjective(j, DCol(k1), DCol(k2), columns);
    }
  }

  /** `(r, c)` is the only live cell of `g`. */
  predicate Lone(g: Grid, rows: int, columns: int, r: int, c: int)
    requires Rectangular(g, rows, columns)
  {
    0 <= r < rows && 0 <= c < columns &&
    forall i, j :: 0 <= i < rows && 0 <= j < columns ==> (g[i][j] == LiveCell <==> i == r && j == c)
  }

  /** With a single live cell on a torus of at least 3 × 3, no cell has more than one
      live neighbour. */
  lemma {:induction false} LoneNeighbors(g: Grid, rows: int, columns: int, r: int, c: int, i: int, j: int)
    requires rows >= 3 && columns >= 3 && Rectangular(g, rows, columns) && Lone(g, rows, columns, r, c)
    requires 0 <= i < rows && 0 <= j < columns
    ensures LiveNeighbors(g, rows, columns, i, j) <= 1
  {
    var s := seq(8, k requires 0 <= k < 8 => LiveAt(g, rows, columns, i, j, k));
    forall k1, k2 | 0 <= k1 < k2 < 8
      ensures s[k1] + s[k2] <= 1
    {
      DirectionsDistinct(rows, columns, i, j, k1, k2);
    }
    ExclusiveSum(s);
  }

  /** Eight counts of at most one, no two of them both one, add up to at most one. */
  lemma ExclusiveSum(s: seq<nat>)
    requires |s| == 8 && forall k :: 0 <= k < 8 ==> s[k] <= 1
    requires forall k1, k2 :: 0 <= k1 < k2 < 8 ==> s[k1] + s[k2] <= 1
    ensures s[0] + s[1] + s[2] + s[3] + s[4] + s[5] + s[6] + s[7] <= 1
  {
  }

  /** A lone live cell on a torus of at least 3 × 3 dies, and nothing is born. */
  lemma LoneCellDiesOut(g: Grid, rows: nat, columns: nat, r: int, c: int)
    requires rows >= 3 && columns >= 3 && Rectangular(g, rows, columns) && Lone(g, rows, columns, r, c)
    ensures DiesOut(g, rows, columns)
  {
    forall i, j | 0 <= i < rows && 0 <= j < columns
      ensures NextCell(g, rows, columns, i, j) == DeadCell
    {
      LoneNeighbors(g, rows, columns, r, c, i, j);
    }
  }

  datatype GameError = SeedDimensionMismatch

  /** A game: its fixed dimensions and the current grid. */
  datatype Game = Game(rows: int, columns: int, grid: Grid)

  predicate ValidGame(game: Game) {
    Rectangular(game.grid, game.rows, game.columns)
  }

  /** The constructor as written: it compares the seed's row count and only the
      FIRST row's length with the requested dimensions. */
  function ConstructAsWritten(rows: int, columns: int, seed: Grid): (r: Result<Game, GameError>)
    ensures r.Ok? <==> |seed| == rows && (rows > 0 ==> |seed[0]| == columns)
    ensures r.Ok? ==> r.value == Game(rows, columns, seed)
  {
    if |seed| != rows || (rows > 0 && |seed[0]| != columns) then Err(SeedDimensionMismatch)
    else Ok(Game(rows, columns, seed))
  }

  /** A ragged seed passes the as-written check, although `update` would then read
      past the end of its short second row. */
  lemma RaggedSeedAccepted()
    ensures var seed := [['.', '.'], ['.']];
      ConstructAsWritten(2, 2, seed).Ok? && !Rectangular(seed, 2, 2)
  {
    var seed := [['.', '.'], ['.']];
    assert |seed[1]| == 1;
  }

  /** The constructor with the dimension check the error message describes:
      every row of the seed must have `columns` characters. */
  function Construct(rows: int, columns: int, seed: Grid): (r: Result<Game, GameError>)
    ensures r.Ok? <==> Rectangular(seed, rows, columns)
    ensures r.Ok? ==> r.value == Game(rows, columns, seed) && ValidGame(r.value)
    ensures r.Ok? ==> ConstructAsWritten(rows, columns, seed).Ok?
  {
    if |seed| != rows || exists r :: 0 <= r < |seed| && |seed[r]| != columns then Err(SeedDimensionMismatch)
    else Ok(Game(rows, columns, seed))
  }

  /** `update(generations)` on a game: dimensions never change. */
  function UpdateGame(game: Game, generations: int): (g': Game)
    requires ValidGame(game)
    ensures ValidGame(g') && g'.rows == game.rows && g'.columns == game.columns
  {
    Game(game.rows, game.columns, Update(game.grid, game.rows, game.columns, generations))
  }
}

=== FILE: maze_solver.dfy ===
/** The maze solver: a best-first search over a 41 × 41 character maze from the
    cell below and right of the top-left corner to the cell above and left of
    the bottom-right corner, moving in eight directions, and the marking of the
    path it finds with `o`. */
module MazeSolver {

  const Rows: int := 41
  const Cols: int := 41
  const Wall: char := '#'
  const Open: char := '.'
  const SolutionPath: char := 'o'

  const StartRow: int := 1
  const StartCol: int := 1
  const EndRow: int := Rows - 2
  const EndCol: int := Cols - 2

  type Maze = seq<string>
  type Cell = (int, int)

  /** The maze the constants describe: 41 rows of 41 characters. */
  predicate Shaped(maze: Maze) {
    |maze| == Rows && forall r :: 0 <= r < Rows ==> |maze[r]| == Cols
  }

  function Abs(x: int): int {
    if x < 0 then -x else x
  }

  function Max(a: int, b: int): int {
    if a < b then b else a
  }

  /** `heuristic`: the Chebyshev distance to the end cell, the number of moves
      an eight-direction walk over open ground needs. */
  function Heuristic(row: int, col: int): (h: int)
    ensures h >= 0
    ensures h == 0 <==> row == EndRow && col == EndCol
  {
    Max(Abs(row - EndRow), Abs(col - EndCol))
  }

  /** One move changes the heuristic by at most one. */
  lemma HeuristicStep(row: int, col: int, dr: int, dc: int)
    requires -1 <= dr <= 1 && -1 <= dc <= 1
    ensures Heuristic(row, col) - 1 <= Heuristic(row + dr, col + dc) <= Heuristic(row, col) + 1
  {
  }

  /** The heuristic never overestimates: a walk of single moves from a cell to
      the end takes at least `Heuristic` moves. */
  lemma {:induction false} HeuristicAdmissible(walk: seq<Cell>)
    requires |walk| > 0 && walk[|walk| - 1] == (EndRow, EndCol)
    requires forall k :: 0 <= k < |walk| - 1 ==> Adjacent(walk[k], walk[k + 1])
    ensures Heuristic(walk[0].0, walk[0].1) <= |walk| - 1
  {
    if |walk| > 1 {
      HeuristicAdmissible(walk[1..]);
      HeuristicStep(walk[1].0, walk[1].1, walk[0].0 - walk[1].0, walk[0].1 - walk[1].1);
    }
  }

  /** The cells strictly inside the border frame. */
  predicate Interior(row: int, col: int) {
    0 < row < Rows - 1 && 0 < col < Cols - 1
  }

  /** `isValid`: inside the border, not a wall, not yet visited. The bounds are
      tested first, so the maze is only read inside it. */
  predicate IsValid(row: int, col: int, maze: Maze, visited: set<Cell>)
    requires Shaped(maze)
    ensures IsValid(row, col, maze, visited) ==> 0 < row < Rows - 1 && 0 < col < Cols - 1
    ensures IsValid(row, col, maze, visited) ==> (row, col) !in visited
  {
    Interior(row, col) && maze[row][col] != Wall && (row, col) !in visited
  }

  /** Marking a cell visited invalidates that cell and no other. */
  lemma IsValidAfterVisit(row: int, col: int, maze: Maze, visited: set<Cell>, x: Cell)
    requires Shaped(maze)
    ensures IsValid(row, col, maze, visited + {x}) <==> IsValid(row, col, maze, visited) && (row, col) != x
  {
  }

  /** Cells strictly inside the border frame only. */
  predicate Inside(cells: set<Cell>) {
    forall x :: x in cells ==> Interior(x.0, x.1)
  }

  /** A search node: its cell, the cost `g` of the path to it, the heuristic
      `h`, whether the move into it was cardinal, and its parent as an index
      into the nodes already expanded (-1 for the start node's null parent). */
  datatype Node = Node(row: int, col: int, g: int, h: int, cardinal: bool, parent: int) {
    function F(): int {
      g + h
    }

    function Cell(): Cell {
      (row, col)
    }
  }

  /** `operator<` of the priority queue: lower `f` is more urgent, and at equal
      `f` a cardinal move is more urgent than a diagonal one. The queue pops a
      greatest node. */
  predicate Less(a: Node, b: Node)
    ensures Less(a, b) ==> a.F() >= b.F()
    ensures a.F() > b.F() ==> Less(a, b)
  {
    if a.F() == b.F() then !a.cardinal && b.cardinal else a.F() > b.F()
  }

  /** The order is lexicographic on (-f, cardinal). */
  lemma LessIsLexicographic(a: Node, b: Node)
    ensures Less(a, b) <==>
      -a.F() < -b.F() || (-a.F() == -b.F() && !a.cardinal && b.cardinal)
  {
  }

  /** Two nodes neither of which is less than the other. */
  predicate Equivalent(a: Node, b: Node) {
    !Less(a, b) && !Less(b, a)
  }

  /** `operator<` is a strict weak order, as `priority_queue` requires:
      irreflexive, transitive, and equivalence is transitive too. */
  lemma LessIsStrictWeakOrder(a: Node, b: Node, c: Node)
    ensures !Less(a, a)
    ensures Less(a, b) && Less(b, c) ==> Less(a, c)
    ensures Equivalent(a, b) && Equivalent(b, c) ==> Equivalent(a, c)
    ensures Equivalent(a, b) <==> a.F() == b.F() && a.cardinal == b.cardinal
  {
  }

  /** If `a < c`, every `b` lies above `a` or below `c`. */
  lemma LessSplits(a: Node, b: Node, c: Node)
    requires Less(a, c)
    ensures Less(a, b) || Less(b, c)
  {
  }

  /** A node no other node of the queue is greater than. */
  predicate IsTop(open: seq<Node>, m: int) {
    0 <= m < |open| && forall k {:trigger Less(open[m], open[k])} :: 0 <= k < |open| ==> !Less(open[m], open[k])
  }

  /** The greatest node has the least `f` and, among nodes of that `f`, is a
      cardinal move if any of them is. */
  lemma TopIsMostUrgent(open: seq<Node>, m: int)
    requires IsTop(open, m)
    ensures forall k :: 0 <= k < |open| ==> open[m].F() <= open[k].F()
    ensures forall k :: 0 <= k < |open| && open[k].F() == open[m].F() && open[k].cardinal ==> open[m].cardinal
  {
    forall k | 0 <= k < |open|
      ensures open[m].F() <= open[k].F()
      ensures open[k].F() == open[m].F() && open[k].cardinal ==> open[m].cardinal
    {
      assert !Less(open[m], open[k]);
    }
  }

  /** `top()`: the first greatest node of the queue. Which of several equally
      urgent nodes the heap returns is left to the library; the model takes the
      earliest pushed. */
  method Top(open: seq<Node>) returns (m: int)
    requires |open| > 0
    ensures IsTop(open, m)
    ensures forall k :: 0 <= k < m ==> Less(open[k], open[m])
  {
    m := 0;
    var k := 1;
    while k < |open|
      invariant 0 <= m < k <= |open|
      invariant forall j :: 0 <= j < k ==> !Less(open[m], open[j])
      invariant forall j :: 0 <= j < m ==> Less(open[j], open[m])
    {
      if Less(open[m], open[k]) {
        forall j | 0 <= j < k
          ensures !Less(open[k], open[j]) && (j < k ==> Less(open[j], open[k]))
        {
          LessIsStrictWeakOrder(open[m], open[k], open[j]);
          LessIsStrictWeakOrder(open[j], open[m], open[k]);
          LessSplits(open[m], open[j], open[k]);
        }
        m := k;
      }
      k := k + 1;
    }
  }

  /** The eight moves, cardinal ones first, as `dRow`, `dCol`, `isCardinal`. */
  const DRow: seq<int> := [-1, 1, 0, 0, -1, -1, 1, 1]
  const DCol: seq<int> := [0, 0, -1, 1, -1, 1, -1, 1]
  const IsCardinal: seq<bool> := [true, true, true, true, false, false, false, false]

  /** `b` is reached from `a` by one move, with the cost the search charges:
      one for a cardinal move, two for a diagonal one. */
  predicate Step(a: Node, b: Node) {
    var dr, dc := b.row - a.row, b.col - a.col;
    -1 <= dr <= 1 && -1 <= dc <= 1 && (dr != 0 || dc != 0) &&
    (b.cardinal <==> dr == 0 || dc == 0) &&
    b.g == a.g + (if b.cardinal then 1 else 2) &&
    b.h == Heuristic(b.row, b.col)
  }

  /** The child of `current` in direction `i`, its parent stored at `parent`. */
  function Child(current: Node, i: int, parent: int): (n: Node)
    requires 0 <= i < 8
    ensures Step(current, n) && n.parent == parent
  {
    var row, col := current.row + DRow[i], current.col + DCol[i];
    Node(row, col, current.g + (if IsCardinal[i] then 1 else 2), Heuristic(row, col), IsCardinal[i], parent)
  }

  /** The cell one move in direction `j` away from `x`. */
  function Neighbour(x: Cell, j: int): Cell
    requires 0 <= j < 8
  {
    (x.0 + DRow[j], x.1 + DCol[j])
  }

  /** The eight directions reach exactly the cells one move away. */
  lemma NeighbourIsAdjacent(x: Cell, y: Cell)
    ensures Adjacent(x, y) <==> exists j :: 0 <= j < 8 && Neighbour(x, j) == y
  {
    if Adjacent(x, y) {
      var dr, dc := y.0 - x.0, y.1 - x.1;
      var j := if dc == 0 then (if dr < 0 then 0 else 1)
               else if dr == 0 then (if dc < 0 then 2 else 3)
               else if dr < 0 then (if dc < 0 then 4 else 5)
               else (if dc < 0 then 6 else 7);
      assert Neighbour(x, j) == y;
    }
  }

  /** A cell a node may stand on: inside the border and not a wall. */
  predicate Passable(maze: Maze, x: Cell)
    requires Shaped(maze)
  {
    Interior(x.0, x.1) && maze[x.0][x.1] != Wall
  }

  /** The cells of a sequence of nodes. */
  function CellsOf(nodes: seq<Node>): set<Cell> {
    if |nodes| == 0 then {} else {nodes[0].Cell()} + CellsOf(nodes[1..])
  }

  lemma {:induction false} CellsOfConcat(a: seq<Node>, b: seq<Node>)
    ensures CellsOf(a + b) == CellsOf(a) + CellsOf(b)
    decreases |a|
  {
    if |a| > 0 {
      assert (a + b)[1..] == a[1..] + b;
      CellsOfConcat(a[1..], b);
    } else {
      assert a + b == b;
    }
  }

  /** The cells of interior nodes are interior. */
  lemma {:induction false} CellsOfInside(nodes: seq<Node>)
    requires forall k :: 0 <= k < |nodes| ==> Interior(nodes[k].row, nodes[k].col)
    ensures Inside(CellsOf(nodes))
    decreases |nodes|
  {
    if |nodes| > 0 {
      CellsOfInside(nodes[1..]);
    }
  }

  /** A node the expansion of `current` pushes: a valid cell one move away,
      with its parent recorded. */
  predicate Pushed(maze: Maze, visited: set<Cell>, current: Node, parent: int, n: Node)
    requires Shaped(maze)
  {
    n.parent == parent && Step(current, n) && IsValid(n.row, n.col, maze, visited)
  }

  /** A node pushed before the nodes pushed once its cell is visited. */
  lemma PushedCons(maze: Maze, visited: set<Cell>, current: Node, parent: int, n: Node, rest: seq<Node>)
    requires Shaped(maze) && Pushed(maze, visited, current, parent, n)
    requires forall k :: 0 <= k < |rest| ==> Pushed(maze, visited + {n.Cell()}, current, parent, rest[k])
    ensures forall k :: 0 <= k < |[n] + rest| ==> Pushed(maze, visited, current, parent, ([n] + rest)[k])
  {
    forall k | 0 < k < |[n] + rest|
      ensures Pushed(maze, visited, current, parent, ([n] + rest)[k])
    {
      assert ([n] + rest)[k] == rest[k - 1];
    }
  }

  /** The loop over the eight directions from direction `i` on: every valid
      neighbour is marked visited and pushed. Yields the visited set and the
      nodes pushed, in direction order: exactly the newly visited cells, and
      afterwards every passable neighbour in those directions is visited. */
  function Expand(maze: Maze, visited: set<Cell>, current: Node, parent: int, i: int): (r: (set<Cell>, seq<Node>))
    requires Shaped(maze) && 0 <= i <= 8
    ensures r.0 == visited + CellsOf(r.1)
    ensures |r.0| == |visited| + |r.1|
    ensures forall k :: 0 <= k < |r.1| ==> Pushed(maze, visited, current, parent, r.1[k])
    decreases 8 - i
  {
    if i == 8 then (visited, [])
    else
      var n := Child(current, i, parent);
      if IsValid(n.row, n.col, maze, visited) then
        var rest := Expand(maze, visited + {n.Cell()}, current, parent, i + 1);
        CellsOfConcat([n], rest.1);
        PushedCons(maze, visited, current, parent, n, rest.1);
        (rest.0, [n] + rest.1)
      else
        Expand(maze, visited, current, parent, i + 1)
  }

  /** After the loop every passable neighbour in the remaining directions is
      visited, whether found visited or newly pushed. */
  lemma {:induction false} ExpandCloses(maze: Maze, visited: set<Cell>, current: Node, parent: int, i: int)
    requires Shaped(maze) && 0 <= i <= 8
    ensures forall j :: i <= j < 8 && Passable(maze, Neighbour(current.Cell(), j)) ==>
      Neighbour(current.Cell(), j) in Expand(maze, visited, current, parent, i).0
    decreases 8 - i
  {
    if i < 8 {
      var n := Child(current, i, parent);
      var r := Expand(maze, visited, current, parent, i);
      var v := if IsValid(n.row, n.col, maze, visited) then visited + {n.Cell()} else visited;
      ExpandCloses(maze, v, current, parent, i + 1);
      var rest := Expand(maze, v, current, parent, i + 1);
      assert r.0 == rest.0;
      forall j | i <= j < 8 && Passable(maze, Neighbour(current.Cell(), j))
        ensures Neighbour(current.Cell(), j) in r.0
      {
        if j == i {
          assert n.Cell() == Neighbour(current.Cell(), i);
          assert n.Cell() in v;
        }
      }
    }
  }

  /** Expanding a node closes its cell: every passable cell one move away is
      visited afterwards, and only interior cells are added. */
  lemma ExpandClosesCell(maze: Maze, visited: set<Cell>, current: Node, parent: int)
    requires Shaped(maze)
    ensures forall y :: Adjacent(current.Cell(), y) && Passable(maze, y) ==> y in Expand(maze, visited, current, parent, 0).0
    ensures Inside(visited) ==> Inside(Expand(maze, visited, current, parent, 0).0)
  {
    var r := Expand(maze, visited, current, parent, 0);
    ExpandCloses(maze, visited, current, parent, 0);
    forall y | Adjacent(current.Cell(), y) && Passable(maze, y)
      ensures y in r.0
    {
      NeighbourIsAdjacent(current.Cell(), y);
    }
    CellsOfInside(r.1);
  }

  /** The start node: no parent, cost 0, a cardinal move by convention. */
  predicate IsStart(n: Node) {
    n == Node(StartRow, StartCol, 0, Heuristic(StartRow, StartCol), true, -1)
  }

  /** A node hangs correctly below the first `bound` expanded nodes: it is the
      start node, or an open interior cell reached by one move from its parent. */
  predicate Linked(maze: Maze, expanded: seq<Node>, n: Node, bound: int)
    requires Shaped(maze) && bound <= |expanded|
  {
    IsStart(n) ||
    (0 <= n.parent < bound && Step(expanded[n.parent], n) && Interior(n.row, n.col) && maze[n.row][n.col] != Wall)
  }

  /** Every expanded node's parent was expanded before it. */
  predicate Tree(maze: Maze, expanded: seq<Node>)
    requires Shaped(maze)
  {
    forall i :: 0 <= i < |expanded| ==> Linked(maze, expanded, expanded[i], i)
  }

  /** The cells from expanded node `i` back along the parents to the start. */
  function Chain(maze: Maze, expanded: seq<Node>, i: int): (path: seq<Cell>)
    requires Shaped(maze) && Tree(maze, expanded) && 0 <= i < |expanded|
    ensures |path| > 0 && path[0] == expanded[i].Cell()
    decreases i
  {
    if expanded[i].parent == -1 || expanded[i].parent >= i then [expanded[i].Cell()]
    else [expanded[i].Cell()] + Chain(maze, expanded, expanded[i].parent)
  }

  /** One link of the chain: an interior cell, then the parent's chain unless
      the node is the root. */
  lemma ChainStep(maze: Maze, expanded: seq<Node>, i: int)
    requires Shaped(maze) && Tree(maze, expanded) && 0 <= i < |expanded|
    ensures Interior(expanded[i].row, expanded[i].col)
    ensures expanded[i].parent == -1 ==> Chain(maze, expanded, i) == [expanded[i].Cell()]
    ensures expanded[i].parent != -1 ==> (0 <= expanded[i].parent < i &&
      Chain(maze, expanded, i) == [expanded[i].Cell()] + Chain(maze, expanded, expanded[i].parent))
  {
    assert Linked(maze, expanded, expanded[i], i);
  }

  /** `c` and `d` are one move apart. */
  predicate Adjacent(c: Cell, d: Cell) {
    -1 <= c.0 - d.0 <= 1 && -1 <= c.1 - d.1 <= 1 && c != d
  }

  /** A way back from some cell to the start: single moves, every cell but the
      start's passable. The start cell itself is never checked for a wall. */
  predicate Route(maze: Maze, path: seq<Cell>)
    requires Shaped(maze)
  {
    |path| > 0 && path[|path| - 1] == (StartRow, StartCol) &&
    (forall k :: 0 <= k < |path| - 1 ==> Adjacent(path[k], path[k + 1])) &&
    (forall k :: 0 <= k < |path| - 1 ==> Passable(maze, path[k]))
  }

  /** The chain of parents from an expanded node is a route to the start. */
  lemma {:induction false} ChainIsWalk(maze: Maze, expanded: seq<Node>, i: int)
    requires Shaped(maze) && Tree(maze, expanded) && 0 <= i < |expanded|
    ensures Route(maze, Chain(maze, expanded, i))
    decreases i
  {
    assert Linked(maze, expanded, expanded[i], i);
    if !IsStart(expanded[i]) {
      var p := expanded[i].parent;
      ChainIsWalk(maze, expanded, p);
      var rest := Chain(maze, expanded, p);
      var path := [expanded[i].Cell()] + rest;
      assert Chain(maze, expanded, i) == path;
      assert rest[0] == expanded[p].Cell();
      assert forall k :: 0 < k < |path| ==> path[k] == rest[k - 1];
    }
  }

  /** The maze with the open cells of `path` marked: every other cell, and every
      cell of the path that is not open, keeps its character. */
  predicate Marked(maze: Maze, maze': Maze, path: seq<Cell>)
    requires Shaped(maze)
  {
    Shaped(maze') &&
    forall r, c :: 0 <= r < Rows && 0 <= c < Cols ==>
      maze'[r][c] == (if (r, c) in path && maze[r][c] == Open then SolutionPath else maze[r][c])
  }

  /** `printSolution`: walk from the end node along the parents and turn every
      open cell met into `o`. */
  method PrintSolution(maze: Maze, expanded: seq<Node>, end: int) returns (maze': Maze)
    requires Shaped(maze) && Tree(maze, expanded) && 0 <= end < |expanded|
    ensures Marked(maze, maze', Chain(maze, expanded, end))
  {
    maze' := maze;
    var current := end;
    ghost var walked: seq<Cell> := [];
    while current != -1
      invariant -1 <= current < |expanded|
      invariant current != -1 ==> walked + Chain(maze, expanded, current) == Chain(maze, expanded, end)
      invariant current == -1 ==> walked == Chain(maze, expanded, end)
      invariant Marked(maze, maze', walked)
      decreases current + 1
    {
      var n := expanded[current];
      ChainStep(maze, expanded, current);
      ghost var before := maze';
      if maze'[n.row][n.col] == Open {
        maze' := maze'[n.row := maze'[n.row][n.col := SolutionPath]];
      }
      MarkStep(maze, before, maze', walked, n.row, n.col);
      walked := walked + [n.Cell()];
      current := n.parent;
    }
  }

  /** Marking one more cell, if it is still open, marks the longer walk. */
  lemma MarkStep(maze: Maze, before: Maze, after: Maze, walked: seq<Cell>, row: int, col: int)
    requires Shaped(maze) && Marked(maze, before, walked) && Interior(row, col)
    requires before[row][col] == Open ==> after == before[row := before[row][col := SolutionPath]]
    requires before[row][col] != Open ==> after == before
    ensures Marked(maze, after, walked + [(row, col)])
  {
    forall r, c | 0 <= r < Rows && 0 <= c < Cols
      ensures after[r][c] == (if (r, c) in walked + [(row, col)] && maze[r][c] == Open then SolutionPath else maze[r][c])
    {
      assert (r, c) in walked + [(row, col)] <==> (r, c) in walked || (r, c) == (row, col);
    }
  }

  /** A set of cells lying before row `r`, column `c` in row-major order of a
      grid `Cols` wide has at most `r * Cols + c` members. */
  lemma {:induction false} CellsBound(cells: set<Cell>, r: int, c: int)
    requires 0 <= r && 0 <= c <= Cols
    requires forall x :: x in cells ==> 0 <= x.0 && 0 <= x.1 < Cols && (x.0 < r || (x.0 == r && x.1 < c))
    ensures |cells| <= r * Cols + c
    decreases r, c
  {
    if c > 0 {
      CellsBound(cells - {(r, c - 1)}, r, c - 1);
    } else if r > 0 {
      CellsBound(cells, r - 1, Cols);
    } else {
      assert cells == {};
    }
  }

  /** At most one node per interior cell is ever queued. */
  lemma InsideBound(cells: set<Cell>)
    requires Inside(cells)
    ensures |cells| <= Rows * Cols
  {
    CellsBound(cells, Rows, 0);
  }

  /** Every queued node hangs below the expanded ones. */
  predicate Frontier(maze: Maze, expanded: seq<Node>, open: seq<Node>)
    requires Shaped(maze)
  {
    forall k :: 0 <= k < |open| ==> Linked(maze, expanded, open[k], |expanded|)
  }

  /** Expanding a node of the frontier keeps the tree and the frontier. */
  lemma Grow(maze: Maze, expanded: seq<Node>, open: seq<Node>, n: Node)
    requires Shaped(maze) && Tree(maze, expanded) && Frontier(maze, expanded, open)
    requires Linked(maze, expanded, n, |expanded|)
    ensures Tree(maze, expanded + [n]) && Frontier(maze, expanded + [n], open)
  {
    var e := expanded + [n];
    forall i | 0 <= i < |e|
      ensures Linked(maze, e, e[i], i)
    {
      if i < |expanded| {
        assert Linked(maze, expanded, expanded[i], i);
      }
    }
    forall k | 0 <= k < |open|
      ensures Linked(maze, e, open[k], |e|)
    {
      assert Linked(maze, expanded, open[k], |expanded|);
    }
  }

  /** Taking the popped node out leaves the rest of the frontier. */
  lemma FrontierRemove(maze: Maze, expanded: seq<Node>, open: seq<Node>, m: int)
    requires Shaped(maze) && Frontier(maze, expanded, open) && 0 <= m < |open|
    ensures Linked(maze, expanded, open[m], |expanded|)
    ensures Frontier(maze, expanded, open[..m] + open[m + 1..])
  {
    var rest := open[..m] + open[m + 1..];
    forall k | 0 <= k < |rest|
      ensures Linked(maze, expanded, rest[k], |expanded|)
    {
      if k < m {
        assert rest[k] == open[k];
      } else {
        assert rest[k] == open[k + 1];
      }
    }
  }

  /** The children of the last expanded node join the frontier. */
  lemma FrontierPush(maze: Maze, expanded: seq<Node>, open: seq<Node>, pushed: seq<Node>, visited: set<Cell>)
    requires Shaped(maze) && Frontier(maze, expanded, open) && |expanded| > 0
    requires forall k :: 0 <= k < |pushed| ==> Pushed(maze, visited, expanded[|expanded| - 1], |expanded| - 1, pushed[k])
    ensures Frontier(maze, expanded, open + pushed)
  {
    var all := open + pushed;
    forall k | 0 <= k < |all|
      ensures Linked(maze, expanded, all[k], |expanded|)
    {
      if k >= |open| {
        assert all[k] == pushed[k - |open|];
      } else {
        assert all[k] == open[k];
      }
    }
  }

  /** The cells the search has finished with, in `closed`, have every passable
      neighbour visited. */
  ghost predicate Closed(maze: Maze, closed: set<Cell>, visited: set<Cell>)
    requires Shaped(maze)
  {
    forall x, y :: x in closed && Adjacent(x, y) && Passable(maze, y) ==> y in visited
  }

  /** The state of the search between two pops: the expanded nodes form a tree,
      the queue hangs below it, one node was queued per visited cell, and the
      visited cells are the closed ones and the queued ones. */
  ghost predicate Search(maze: Maze, expanded: seq<Node>, open: seq<Node>, visited: set<Cell>, closed: set<Cell>)
    requires Shaped(maze)
  {
    Tree(maze, expanded) && Frontier(maze, expanded, open) &&
    Inside(visited) && |expanded| + |open| == |visited| <= Rows * Cols &&
    visited == closed + CellsOf(open) && (StartRow, StartCol) in visited &&
    Closed(maze, closed, visited)
  }

  /** Removing node `e` from between `a` and `b` removes its cell, and no other. */
  lemma CellsOfMiddle(a: seq<Node>, e: Node, b: seq<Node>)
    ensures CellsOf(a + [e] + b) == CellsOf(a + b) + {e.Cell()}
  {
    CellsOfConcat(a + [e], b);
    CellsOfConcat(a, [e]);
    CellsOfConcat(a, b);
    assert CellsOf([e]) == {e.Cell()} by {
      assert [e][1..] == [];
    }
  }

  lemma CellsOfRemove(open: seq<Node>, m: int)
    requires 0 <= m < |open|
    ensures CellsOf(open) == CellsOf(open[..m] + open[m + 1..]) + {open[m].Cell()}
  {
    var a, b := open[..m], open[m + 1..];
    SplitAt(open, m);
    CellsOfMiddle(a, open[m], b);
  }

  lemma SplitAt(s: seq<Node>, m: int)
    requires 0 <= m < |s|
    ensures s == s[..m] + [s[m]] + s[m + 1..]
  {
  }

  /** The search starts with the start node queued and its cell visited. */
  lemma SearchStarts(maze: Maze)
    requires Shaped(maze)
    ensures Search(maze, [], [Node(StartRow, StartCol, 0, Heuristic(StartRow, StartCol), true, -1)], {(StartRow, StartCol)}, {})
  {
    var open := [Node(StartRow, StartCol, 0, Heuristic(StartRow, StartCol), true, -1)];
    assert open[1..] == [];
    assert Linked(maze, [], open[0], 0);
  }

  /** Popping node `m`, expanding it and queueing its children keeps the search
      state, with the popped cell closed. */
  lemma Advance(maze: Maze, expanded: seq<Node>, open: seq<Node>, visited: set<Cell>, closed: set<Cell>, m: int)
    requires Shaped(maze) && Search(maze, expanded, open, visited, closed) && 0 <= m < |open|
    ensures Tree(maze, expanded + [open[m]])
    ensures Search(maze, expanded + [open[m]],
      open[..m] + open[m + 1..] + Expand(maze, visited, open[m], |expanded|, 0).1,
      Expand(maze, visited, open[m], |expanded|, 0).0, closed + {open[m].Cell()})
  {
    var current := open[m];
    var rest := open[..m] + open[m + 1..];
    var e := expanded + [current];
    var r := Expand(maze, visited, current, |expanded|, 0);
    FrontierRemove(maze, expanded, open, m);
    Grow(maze, expanded, rest, current);
    FrontierPush(maze, e, rest, r.1, visited);
    ExpandClosesCell(maze, visited, current, |expanded|);
    InsideBound(r.0);
    CellsOfRemove(open, m);
    CellsOfConcat(rest, r.1);
    var closed' := closed + {current.Cell()};
    forall x, y | x in closed' && Adjacent(x, y) && Passable(maze, y)
      ensures y in r.0
    {
      if x in closed {
        assert y in visited;
      }
    }
  }

  /** A route back from a cell stays among the closed cells when the closed
      cells include the start and every passable neighbour of a closed cell is
      closed. */
  lemma {:induction false} RouteClosed(maze: Maze, closed: set<Cell>, path: seq<Cell>, k: int)
    requires Shaped(maze) && Closed(maze, closed, closed) && (StartRow, StartCol) in closed
    requires Route(maze, path) && 0 <= k < |path|
    ensures path[k] in closed
    decreases |path| - k
  {
    if k < |path| - 1 {
      RouteClosed(maze, closed, path, k + 1);
      assert Adjacent(path[k + 1], path[k]) && Passable(maze, path[k]);
    }
  }

  /** Once the queue is empty every passable cell a route reaches has been
      closed; the end cell, never closed, has no route. */
  lemma SearchExhausted(maze: Maze, expanded: seq<Node>, visited: set<Cell>, closed: set<Cell>)
    requires Shaped(maze) && Search(maze, expanded, [], visited, closed) && (EndRow, EndCol) !in closed
    ensures forall p :: Route(maze, p) ==> p[0] != (EndRow, EndCol)
  {
    assert visited == closed;
    forall p | Route(maze, p)
      ensures p[0] != (EndRow, EndCol)
    {
      RouteClosed(maze, closed, p, 0);
    }
  }

  /** The end node was just expanded: mark its chain and return it. */
  method Trace(maze: Maze, expanded: seq<Node>) returns (maze': Maze, path: seq<Cell>)
    requires Shaped(maze) && Tree(maze, expanded) && |expanded| > 0
    ensures Route(maze, path) && path[0] == expanded[|expanded| - 1].Cell()
    ensures Marked(maze, maze', path)
  {
    var end := |expanded| - 1;
    path := Chain(maze, expanded, end);
    ChainIsWalk(maze, expanded, end);
    assert Route(maze, path);
    maze' := PrintSolution(maze, expanded, end);
  }

  /** One round of the search loop: pop the most urgent node, record it as
      expanded and queue its valid neighbours. The caller stops before using the
      new queue when the popped node is the end. */
  method Round(maze: Maze, expanded: seq<Node>, open: seq<Node>, visited: set<Cell>, ghost closed: set<Cell>)
    returns (current: Node, expanded': seq<Node>, open': seq<Node>, visited': set<Cell>, ghost closed': set<Cell>)
    requires Shaped(maze) && Search(maze, expanded, open, visited, closed) && |open| > 0
    ensures exists m :: IsTop(open, m) && current == open[m]
    ensures expanded' == expanded + [current] && closed' == closed + {current.Cell()}
    ensures Tree(maze, expanded')
    ensures Search(maze, expanded', open', visited', closed')
  {
    var m := Top(open);
    current := open[m];
    Advance(maze, expanded, open, visited, closed, m);
    var pushed := Expand(maze, visited, current, |expanded|, 0);
    expanded' := expanded + [current];
    closed' := closed + {current.Cell()};
    open' := open[..m] + open[m + 1..] + pushed.1;
    visited' := pushed.0;
  }

  /** `solveMaze`: best-first search from the start cell, marking a cell visited
      when it is queued; on popping the end cell, mark the path back to the start
      and stop. Yields the maze, whether the end was reached, the route from the
      end back to the start, and the number of nodes popped. The end is reached
      exactly when a route to it exists. */
  method SolveMaze(maze: Maze) returns (maze': Maze, found: bool, path: seq<Cell>, pops: nat)
    requires Shaped(maze)
    ensures Marked(maze, maze', path)
    ensures found ==> Route(maze, path) && path[0] == (EndRow, EndCol)
    ensures !found ==> path == [] && maze' == maze
    ensures !found ==> forall p :: Route(maze, p) ==> p[0] != (EndRow, EndCol)
    ensures pops <= Rows * Cols
  {
    var visited: set<Cell> := {(StartRow, StartCol)};
    var open := [Node(StartRow, StartCol, 0, Heuristic(StartRow, StartCol), true, -1)];
    var expanded: seq<Node> := [];
    ghost var closed: set<Cell> := {};
    SearchStarts(maze);
    pops := 0;
    while |open| > 0
      invariant Search(maze, expanded, open, visited, closed)
      invariant (EndRow, EndCol) !in closed
      invariant pops == |expanded|
      decreases Rows * Cols - |expanded|
    {
      var current, expanded', open', visited';
      ghost var closed';
      current, expanded', open', visited', closed' := Round(maze, expanded, open, visited, closed);
      pops := pops + 1;
      if current.row == EndRow && current.col == EndCol {
        maze', path := Trace(maze, expanded');
        found := true;
        return;
      }
      expanded, open, visited, closed := expanded', open', visited', closed';
    }
    maze', found, path := maze, false, [];
    SearchExhausted(maze, expanded, visited, closed);
  }
}

=== FILE: minimax.dfy ===
/** The alpha-beta quiz: minimax with fail-soft alpha-beta pruning over a game
    tree stored implicitly in an array of leaf values. Node `n` at depth
    `d < height` has the `height - 1` children `2 * n + i`, `i` from 0 up; a node
    at depth `height` is the leaf `values[n]`. */
module MinMax {
  import opened Results

  /** `INT_MIN` and `INT_MAX` of a 32-bit `int`: the initial window and the
      value of a node without children. */
  const IntMin: int := -0x8000_0000
  const IntMax: int := 0x7fff_ffff

  predicate IsInt(x: int) {
    IntMin <= x <= IntMax
  }

  /** Leaf values fit in an `int`. */
  predicate IntValues(values: seq<int>) {
    forall k :: 0 <= k < |values| ==> IsInt(values[k])
  }

  function Max(a: int, b: int): (m: int)
    ensures m >= a && m >= b && (m == a || m == b)
  {
    if a > b then a else b
  }

  function Min(a: int, b: int): (m: int)
    ensures m <= a && m <= b && (m == a || m == b)
  {
    if a < b then a else b
  }

  /** `values[node]`; reading past the end, which the source leaves undefined,
      yields `None`. */
  function Leaf(values: seq<int>, node: int): (r: Option<int>)
    requires 0 <= node
    ensures r.Some? <==> node < |values|
    ensures r.Some? ==> r.value == values[node]
  {
    if node < |values| then Some(values[node]) else None
  }

  /** A value the search can return: a leaf value, or the `INT_MIN`/`INT_MAX`
      a node without children starts from. */
  predicate Attainable(values: seq<int>, x: int) {
    (exists k :: 0 <= k < |values| && values[k] == x) || x == IntMin || x == IntMax
  }

  /** `min_max(height, depth, node, maxPlayer, values, alpha, beta)`: whatever
      the window, the result is a value of the tree, never one made up by the
      window, so it fits in an `int` when the leaves do. */
  function AlphaBeta(values: seq<int>, height: int, depth: int, node: int, maxPlayer: bool, alpha: int, beta: int): (r: Option<int>)
    requires 0 <= depth <= height && 0 <= node
    ensures r.Some? ==> Attainable(values, r.value)
    ensures r.Some? && IntValues(values) ==> IsInt(r.value)
    decreases height - depth, 1, 0
  {
    if depth == height then Leaf(values, node)
    else if maxPlayer then MaxLoop(values, height, depth, node, 0, IntMin, alpha, beta)
    else MinLoop(values, height, depth, node, 0, IntMax, alpha, beta)
  }

  /** The maximising loop from child `i` on, with the best value so far and the
      current `alpha`: stop after the first child that lifts `alpha` to `beta`. */
  function MaxLoop(values: seq<int>, height: int, depth: int, node: int, i: int, best: int, alpha: int, beta: int): (r: Option<int>)
    requires 0 <= depth < height && 0 <= node && 0 <= i
    ensures r.Some? ==> r.value >= best
    ensures r.Some? ==> r.value == best || Attainable(values, r.value)
    decreases height - depth, 0, height - i
  {
    if i >= height - 1 then Some(best)
    else
      match AlphaBeta(values, height, depth + 1, 2 * node + i, false, alpha, beta)
      case None => None
      case Some(eval) =>
        var best', alpha' := Max(best, eval), Max(alpha, eval);
        if beta <= alpha' then Some(best')
        else MaxLoop(values, height, depth, node, i + 1, best', alpha', beta)
  }

  /** The minimising loop, symmetric: stop after the first child that lowers
      `beta` to `alpha`. */
  function MinLoop(values: seq<int>, height: int, depth: int, node: int, i: int, best: int, alpha: int, beta: int): (r: Option<int>)
    requires 0 <= depth < height && 0 <= node && 0 <= i
    ensures r.Some? ==> r.value <= best
    ensures r.Some? ==> r.value == best || Attainable(values, r.value)
    decreases height - depth, 0, height - i
  {
    if i >= height - 1 then Some(best)
    else
      match AlphaBeta(values, height, depth + 1, 2 * node + i, true, alpha, beta)
      case None => None
      case Some(eval) =>
        var best', beta' := Min(best, eval), Min(beta, eval);
        if beta' <= alpha then Some(best')
        else MinLoop(values, height, depth, node, i + 1, best', alpha, beta')
  }

  /** Plain minimax over the same tree, every child evaluated: the reference the
      pruned search is measured against. */
  function Minimax(values: seq<int>, height: int, depth: int, node: int, maxPlayer: bool): Option<int>
    requires 0 <= depth <= height && 0 <= node
    decreases height - depth, 1, 0
  {
    if depth == height then Leaf(values, node)
    else if maxPlayer then MaxAll(values, height, depth, node, 0, IntMin)
    else MinAll(values, height, depth, node, 0, IntMax)
  }

  function MaxAll(values: seq<int>, height: int, depth: int, node: int, i: int, best: int): Option<int>
    requires 0 <= depth < height && 0 <= node && 0 <= i
    decreases height - depth, 0, height - i
  {
    if i >= height - 1 then Some(best)
    else
      match Minimax(values, height, depth + 1, 2 * node + i, false)
      case None => None
      case Some(v) => MaxAll(values, height, depth, node, i + 1, Max(best, v))
  }

  function MinAll(values: seq<int>, height: int, depth: int, node: int, i: int, best: int): Option<int>
    requires 0 <= depth < height && 0 <= node && 0 <= i
    decreases height - depth, 0, height - i
  {
    if i >= height - 1 then Some(best)
    else
      match Minimax(values, height, depth + 1, 2 * node + i, true)
      case None => None
      case Some(v) => MinAll(values, height, depth, node, i + 1, Min(best, v))
  }

  /** What a fail-soft search with window (`alpha`, `beta`) promises about its
      result `r` against the true value `v`: exact inside the window, an upper
      bound at or below `alpha`, a lower bound at or above `beta`. */
  predicate Bounds(r: int, v: int, alpha: int, beta: int) {
    (alpha < r < beta ==> r == v) && (r <= alpha ==> v <= r) && (beta <= r ==> r <= v)
  }

  /** The accumulated maximum never falls below its start. */
  lemma {:induction false} MaxAllAbove(values: seq<int>, height: int, depth: int, node: int, i: int, best: int)
    requires 0 <= depth < height && 0 <= node && 0 <= i
    requires MaxAll(values, height, depth, node, i, best).Some?
    ensures MaxAll(values, height, depth, node, i, best).value >= best
    decreases height - i
  {
    if i < height - 1 {
      var v := Minimax(values, height, depth + 1, 2 * node + i, false).value;
      MaxAllAbove(values, height, depth, node, i + 1, Max(best, v));
    }
  }

  lemma {:induction false} MinAllBelow(values: seq<int>, height: int, depth: int, node: int, i: int, best: int)
    requires 0 <= depth < height && 0 <= node && 0 <= i
    requires MinAll(values, height, depth, node, i, best).Some?
    ensures MinAll(values, height, depth, node, i, best).value <= best
    decreases height - i
  {
    if i < height - 1 {
      var v := Minimax(values, height, depth + 1, 2 * node + i, true).value;
      MinAllBelow(values, height, depth, node, i + 1, Min(best, v));
    }
  }

  /** Pruning is sound: wherever plain minimax reads only existing leaves, the
      pruned search gives a result that keeps the fail-soft promise. */
  lemma {:induction false} AlphaBetaBounds(values: seq<int>, height: int, depth: int, node: int, maxPlayer: bool, alpha: int, beta: int)
    requires 0 <= depth <= height && 0 <= node
    requires IntMin <= alpha < beta <= IntMax
    requires Minimax(values, height, depth, node, maxPlayer).Some?
    ensures AlphaBeta(values, height, depth, node, maxPlayer, alpha, beta).Some?
    ensures Bounds(AlphaBeta(values, height, depth, node, maxPlayer, alpha, beta).value,
      Minimax(values, height, depth, node, maxPlayer).value, alpha, beta)
    decreases height - depth, 1, 0
  {
    if depth < height {
      if maxPlayer {
        MaxLoopBounds(values, height, depth, node, 0, IntMin, alpha, alpha, beta, IntMin);
      } else {
        MinLoopBounds(values, height, depth, node, 0, IntMax, beta, alpha, beta, IntMax);
      }
    }
  }

  /** The maximising loop from child `i`: `best` is the maximum of the results
      so far, at least the true maximum `p` of those children and equal to it
      once it exceeds the original `alpha`; `a` is the current alpha. */
  lemma {:induction false} MaxLoopBounds(values: seq<int>, height: int, depth: int, node: int, i: int,
                                         best: int, a: int, alpha: int, beta: int, p: int)
    requires 0 <= depth < height && 0 <= node && 0 <= i
    requires IntMin <= alpha < beta <= IntMax && a == Max(alpha, best) && a < beta
    requires p <= best && (best > alpha ==> best == p)
    requires MaxAll(values, height, depth, node, i, p).Some?
    ensures MaxLoop(values, height, depth, node, i, best, a, beta).Some?
    ensures Bounds(MaxLoop(values, height, depth, node, i, best, a, beta).value,
      MaxAll(values, height, depth, node, i, p).value, alpha, beta)
    decreases height - depth, 0, height - i
  {
    if i < height - 1 {
      var child := 2 * node + i;
      var v := Minimax(values, height, depth + 1, child, false).value;
      AlphaBetaBounds(values, height, depth + 1, child, false, a, beta);
      var e := AlphaBeta(values, height, depth + 1, child, false, a, beta).value;
      if beta <= Max(a, e) {
        MaxAllAbove(values, height, depth, node, i + 1, Max(p, v));
      } else {
        MaxLoopBounds(values, height, depth, node, i + 1, Max(best, e), Max(a, e), alpha, beta, Max(p, v));
      }
    }
  }

  lemma {:induction false} MinLoopBounds(values: seq<int>, height: int, depth: int, node: int, i: int,
                                         best: int, b: int, alpha: int, beta: int, p: int)
    requires 0 <= depth < height && 0 <= node && 0 <= i
    requires IntMin <= alpha < beta <= IntMax && b == Min(beta, best) && alpha < b
    requires p >= best && (best < beta ==> best == p)
    requires MinAll(values, height, depth, node, i, p).Some?
    ensures MinLoop(values, height, depth, node, i, best, alpha, b).Some?
    ensures Bounds(MinLoop(values, height, depth, node, i, best, alpha, b).value,
      MinAll(values, height, depth, node, i, p).value, alpha, beta)
    decreases height - depth, 0, height - i
  {
    if i < height - 1 {
      var child := 2 * node + i;
      var v := Minimax(values, height, depth + 1, child, true).value;
      AlphaBetaBounds(values, height, depth + 1, child, true, alpha, b);
      var e := AlphaBeta(values, height, depth + 1, child, true, alpha, b).value;
      if Min(b, e) <= alpha {
        MinAllBelow(values, height, depth, node, i + 1, Min(p, v));
      } else {
        MinLoopBounds(values, height, depth, node, i + 1, Min(best, e), Min(b, e), alpha, beta, Min(p, v));
      }
    }
  }

  /** Plain minimax stays within `int` when the leaves do. */
  lemma {:induction false} MinimaxIsInt(values: seq<int>, height: int, depth: int, node: int, maxPlayer: bool)
    requires 0 <= depth <= height && 0 <= node && IntValues(values)
    requires Minimax(values, height, depth, node, maxPlayer).Some?
    ensures IsInt(Minimax(values, height, depth, node, maxPlayer).value)
    decreases height - depth, 1, 0
  {
    if depth < height {
      if maxPlayer {
        AllIsInt(values, height, depth, node, 0, IntMin, true);
      } else {
        AllIsInt(values, height, depth, node, 0, IntMax, false);
      }
    }
  }

  lemma {:induction false} AllIsInt(values: seq<int>, height: int, depth: int, node: int, i: int, best: int, maxPlayer: bool)
    requires 0 <= depth < height && 0 <= node && 0 <= i && IntValues(values) && IsInt(best)
    requires maxPlayer ==> MaxAll(values, height, depth, node, i, best).Some?
    requires !maxPlayer ==> MinAll(values, height, depth, node, i, best).Some?
    ensures maxPlayer ==> IsInt(MaxAll(values, height, depth, node, i, best).value)
    ensures !maxPlayer ==> IsInt(MinAll(values, height, depth, node, i, best).value)
    decreases height - depth, 0, height - i
  {
    if i < height - 1 {
      var child := 2 * node + i;
      MinimaxIsInt(values, height, depth + 1, child, !maxPlayer);
      var v := Minimax(values, height, depth + 1, child, !maxPlayer).value;
      AllIsInt(values, height, depth, node, i + 1, if maxPlayer then Max(best, v) else Min(best, v), maxPlayer);
    }
  }

  /** From the root with the full window (`INT_MIN`, `INT_MAX`), as `main`
      calls it, pruning changes nothing: the result is the plain minimax
      value, whenever every leaf of the tree exists. */
  lemma FullWindow(values: seq<int>, height: nat)
    requires IntValues(values) && Minimax(values, height, 0, 0, true).Some?
    ensures AlphaBeta(values, height, 0, 0, true, IntMin, IntMax) == Minimax(values, height, 0, 0, true)
  {
    AlphaBetaBounds(values, height, 0, 0, true, IntMin, IntMax);
    MinimaxIsInt(values, height, 0, 0, true);
  }

  /** The last leaf below `node` at `depth`: follow the last child down. */
  function LastLeaf(height: int, depth: int, node: int): int
    requires 0 <= depth <= height
    decreases height - depth
  {
    if depth == height then node else LastLeaf(height, depth + 1, 2 * node + height - 2)
  }

  /** A later node has a later last leaf. */
  lemma {:induction false} LastLeafMonotone(height: int, depth: int, node: int, node': int)
    requires 0 <= depth <= height && 2 <= height && node <= node'
    ensures LastLeaf(height, depth, node) <= LastLeaf(height, depth, node')
    decreases height - depth
  {
    if depth < height {
      LastLeafMonotone(height, depth + 1, 2 * node + height - 2, 2 * node' + height - 2);
    }
  }

  /** Plain minimax reads only existing leaves exactly when the last leaf of the
      tree exists; with a single level of one-child-less nodes (`height` 1) it
      reads nothing. */
  lemma {:induction false} MinimaxDefined(values: seq<int>, height: int, depth: int, node: int, maxPlayer: bool)
    requires 0 <= depth <= height && 0 <= node
    ensures Minimax(values, height, depth, node, maxPlayer).Some? <==>
      (height < 2 && depth < height) || LastLeaf(height, depth, node) < |values|
    decreases height - depth, 1, 0
  {
    if depth < height && 2 <= height {
      AllDefined(values, height, depth, node, 0, if maxPlayer then IntMin else IntMax, maxPlayer);
    }
  }

  lemma {:induction false} AllDefined(values: seq<int>, height: int, depth: int, node: int, i: int, best: int, maxPlayer: bool)
    requires 0 <= depth < height && 2 <= height && 0 <= node && 0 <= i <= height - 1
    ensures (if maxPlayer then MaxAll(values, height, depth, node, i, best) else MinAll(values, height, depth, node, i, best)).Some?
      <==> i == height - 1 || LastLeaf(height, depth, node) < |values|
    decreases height - depth, 0, height - i
  {
    if i < height - 1 {
      var child := 2 * node + i;
      MinimaxDefined(values, height, depth + 1, child, !maxPlayer);
      LastLeafMonotone(height, depth + 1, child, 2 * node + height - 2);
      var r := Minimax(values, height, depth + 1, child, !maxPlayer);
      if r.Some? {
        AllDefined(values, height, depth, node, i + 1, if maxPlayer then Max(best, r.value) else Min(best, r.value), maxPlayer);
      }
    }
  }

  function Pow2(k: nat): (p: nat)
    ensures p >= 1
  {
    if k == 0 then 1 else 2 * Pow2(k - 1)
  }

  /** `getHeight(n)`: `log2(n)` truncated to an integer, for `n` at least 1. */
  function FloorLog2(n: int): (h: nat)
    requires n >= 1
    ensures Pow2(h) <= n < 2 * Pow2(h)
  {
    if n == 1 then 0 else 1 + FloorLog2(n / 2)
  }

  /** A larger exponent gives at least twice the power. */
  lemma {:induction false} Pow2Grows(j: nat, k: nat)
    requires j < k
    ensures 2 * Pow2(j) <= Pow2(k)
    decreases k
  {
    if j + 1 < k {
      Pow2Grows(j, k - 1);
    }
  }

  /** The truncated logarithm is the only `h` with `2^h <= n < 2^(h+1)`. */
  lemma FloorLog2Unique(n: int, h: nat)
    requires n >= 1 && Pow2(h) <= n < 2 * Pow2(h)
    ensures FloorLog2(n) == h
  {
    var g := FloorLog2(n);
    if g < h {
      Pow2Grows(g, h);
    } else if h < g {
      Pow2Grows(h, g);
    }
  }

  /** One case of `main`: the height from the number of leaves, then the
      search from the root with the full window. */
  function Solve(values: seq<int>): (r: Option<int>)
    requires |values| >= 1
    ensures r.Some? ==> Attainable(values, r.value)
    ensures r.Some? && IntValues(values) ==> IsInt(r.value)
  {
    AlphaBeta(values, FloorLog2(|values|), 0, 0, true, IntMin, IntMax)
  }

  /** Where the whole tree exists, each case of `main` prints the plain
      minimax value. */
  lemma SolveIsMinimax(values: seq<int>)
    requires |values| >= 1 && IntValues(values)
    requires LastLeaf(FloorLog2(|values|), 0, 0) < |values|
    ensures Solve(values) == Minimax(values, FloorLog2(|values|), 0, 0, true)
  {
    MinimaxDefined(values, FloorLog2(|values|), 0, 0, true);
    FullWindow(values, FloorLog2(|values|));
  }
}

=== FILE: minimax_examples.dfy ===
/** The cases `main` runs, with the results it prints; the fifth case repeats
    the second. Each proof follows the search: one lemma per inner call, named
    by the path of child numbers from the root. */
module MinMaxExamples {
  import opened Results
  import opened MinMax

  const First: seq<int> := [3, 12, 2, 4, 14, 2, 1, 2]
  const Second: seq<int> := [13, 8, 24, -5, 23, 15, -14, -20]
  const Third: seq<int> := [3, 8, 2, 6, 5, 2, 1, 2]
  const Fourth: seq<int> := [-30, 1, 23, -1, 4, 7, 5, -2, 3, 12, 2, 4, 14, 9, 1, 11, 3, 8, 21, 6, 5, 26, 1, 22, 13, 8, 24, -5, 23, 15]
  const Sixth: seq<int> := [10, 8, 24, -5, 23, 15, -14, -20]
  const Seventh: seq<int> := [11, 8, 24, -15, 23, 15, -14, -24, 50, 2, 1, 4]
  const Eighth: seq<int> := [11, 18, 34, -5, 23, 15, -10, -20, -1, 100, 60, 12]

  lemma FirstBranch0()
    ensures AlphaBeta(First, 3, 1, 0, false, IntMin, IntMax) == Some(4)
  {
    assert AlphaBeta(First, 3, 2, 0, true, IntMin, IntMax) == Some(12);
    assert AlphaBeta(First, 3, 2, 1, true, IntMin, 12) == Some(4);
  }

  lemma FirstBranch1()
    ensures AlphaBeta(First, 3, 1, 1, false, 4, IntMax) == Some(2)
  {
    assert AlphaBeta(First, 3, 2, 2, true, 4, IntMax) == Some(14);
    assert AlphaBeta(First, 3, 2, 3, true, 4, 14) == Some(2);
  }

  lemma FirstCase()
    ensures Solve(First) == Some(4)
  {
    FloorLog2Unique(|First|, 3);
    FirstBranch0();
    FirstBranch1();
  }

  lemma SecondBranch0()
    ensures AlphaBeta(Second, 3, 1, 0, false, IntMin, IntMax) == Some(13)
  {
    assert AlphaBeta(Second, 3, 2, 0, true, IntMin, IntMax) == Some(13);
    assert AlphaBeta(Second, 3, 2, 1, true, IntMin, 13) == Some(24);
  }

  lemma SecondBranch1()
    ensures AlphaBeta(Second, 3, 1, 1, false, 13, IntMax) == Some(-14)
  {
    assert AlphaBeta(Second, 3, 2, 2, true, 13, IntMax) == Some(23);
    assert AlphaBeta(Second, 3, 2, 3, true, 13, 23) == Some(-14);
  }

  lemma SecondCase()
    ensures Solve(Second) == Some(13)
  {
    FloorLog2Unique(|Second|, 3);
    SecondBranch0();
    SecondBranch1();
  }

  lemma ThirdBranch0()
    ensures AlphaBeta(Third, 3, 1, 0, false, IntMin, IntMax) == Some(6)
  {
    assert AlphaBeta(Third, 3, 2, 0, true, IntMin, IntMax) == Some(8);
    assert AlphaBeta(Third, 3, 2, 1, true, IntMin, 8) == Some(6);
  }

  lemma ThirdBranch1()
    ensures AlphaBeta(Third, 3, 1, 1, false, 6, IntMax) == Some(5)
  {
    assert AlphaBeta(Third, 3, 2, 2, true, 6, IntMax) == Some(5);
  }

  lemma ThirdCase()
    ensures Solve(Third) == Some(6)
  {
    FloorLog2Unique(|Third|, 3);
    ThirdBranch0();
    ThirdBranch1();
  }

  lemma FourthBranch000()
    ensures AlphaBeta(Fourth, 4, 3, 0, false, IntMin, IntMax) == Some(-30)
  {
    assert Fourth[0] == -30;
    assert Fourth[1] == 1;
    assert Fourth[2] == 23;
  }

  lemma FourthBranch001()
    ensures AlphaBeta(Fourth, 4, 3, 1, false, -30, IntMax) == Some(-1)
  {
    assert Fourth[2] == 23;
    assert Fourth[3] == -1;
    assert Fourth[4] == 4;
  }

  lemma FourthBranch002()
    ensures AlphaBeta(Fourth, 4, 3, 2, false, -1, IntMax) == Some(4)
  {
    assert Fourth[4] == 4;
    assert Fourth[5] == 7;
    assert Fourth[6] == 5;
  }

  lemma FourthBranch00()
    ensures AlphaBeta(Fourth, 4, 2, 0, true, IntMin, IntMax) == Some(4)
  {
    FourthBranch000();
    FourthBranch001();
    FourthBranch002();
  }

  lemma FourthBranch01()
    ensures AlphaBeta(Fourth, 4, 2, 1, true, IntMin, 4) == Some(4)
  {
    assert Fourth[4] == 4;
    assert Fourth[5] == 7;
    assert Fourth[6] == 5;
    assert AlphaBeta(Fourth, 4, 3, 2, false, IntMin, 4) == Some(4);
  }

  lemma FourthBranch02()
    ensures AlphaBeta(Fourth, 4, 2, 2, true, IntMin, 4) == Some(2)
  {
    assert Fourth[8] == 3;
    assert Fourth[9] == 12;
    assert Fourth[10] == 2;
    assert AlphaBeta(Fourth, 4, 3, 4, false, IntMin, 4) == Some(2);
    assert AlphaBeta(Fourth, 4, 3, 5, false, 2, 4) == Some(2);
    assert Fourth[12] == 14;
    assert Fourth[13] == 9;
    assert Fourth[14] == 1;
    assert AlphaBeta(Fourth, 4, 3, 6, false, 2, 4) == Some(1);
  }

  lemma FourthBranch0()
    ensures AlphaBeta(Fourth, 4, 1, 0, false, IntMin, IntMax) == Some(2)
  {
    FourthBranch00();
    FourthBranch01();
    FourthBranch02();
  }

  lemma FourthBranch10()
    ensures AlphaBeta(Fourth, 4, 2, 2, true, 2, IntMax) == Some(2)
  {
    assert Fourth[8] == 3;
    assert Fourth[9] == 12;
    assert Fourth[10] == 2;
    assert AlphaBeta(Fourth, 4, 3, 4, false, 2, IntMax) == Some(2);
    assert AlphaBeta(Fourth, 4, 3, 5, false, 2, IntMax) == Some(2);
    assert Fourth[12] == 14;
    assert Fourth[13] == 9;
    assert Fourth[14] == 1;
    assert AlphaBeta(Fourth, 4, 3, 6, false, 2, IntMax) == Some(1);
  }

  lemma FourthBranch1()
    ensures AlphaBeta(Fourth, 4, 1, 1, false, 2, IntMax) == Some(2)
  {
    FourthBranch10();
  }

  lemma FourthBranch20()
    ensures AlphaBeta(Fourth, 4, 2, 4, true, 2, IntMax) == Some(5)
  {
    assert Fourth[16] == 3;
    assert Fourth[17] == 8;
    assert Fourth[18] == 21;
    assert AlphaBeta(Fourth, 4, 3, 8, false, 2, IntMax) == Some(3);
    assert Fourth[19] == 6;
    assert Fourth[20] == 5;
    assert AlphaBeta(Fourth, 4, 3, 9, false, 3, IntMax) == Some(5);
    assert AlphaBeta(Fourth, 4, 3, 10, false, 5, IntMax) == Some(5);
  }

  lemma FourthBranch21()
    ensures AlphaBeta(Fourth, 4, 2, 5, true, 2, 5) == Some(8)
  {
    assert Fourth[20] == 5;
    assert Fourth[21] == 26;
    assert Fourth[22] == 1;
    assert AlphaBeta(Fourth, 4, 3, 10, false, 2, 5) == Some(1);
    assert AlphaBeta(Fourth, 4, 3, 11, false, 2, 5) == Some(1);
    assert Fourth[24] == 13;
    assert Fourth[25] == 8;
    assert Fourth[26] == 24;
    assert AlphaBeta(Fourth, 4, 3, 12, false, 2, 5) == Some(8);
  }

  lemma FourthBranch22()
    ensures AlphaBeta(Fourth, 4, 2, 6, true, 2, 5) == Some(8)
  {
    assert Fourth[24] == 13;
    assert Fourth[25] == 8;
    assert Fourth[26] == 24;
    assert AlphaBeta(Fourth, 4, 3, 12, false, 2, 5) == Some(8);
  }

  lemma FourthBranch2()
    ensures AlphaBeta(Fourth, 4, 1, 2, false, 2, IntMax) == Some(5)
  {
    FourthBranch20();
    FourthBranch21();
    FourthBranch22();
  }

  lemma FourthCase()
    ensures Solve(Fourth) == Some(5)
  {
    FloorLog2Unique(|Fourth|, 4);
    FourthBranch0();
    FourthBranch1();
    FourthBranch2();
  }

  lemma SixthBranch0()
    ensures AlphaBeta(Sixth, 3, 1, 0, false, IntMin, IntMax) == Some(10)
  {
    assert AlphaBeta(Sixth, 3, 2, 0, true, IntMin, IntMax) == Some(10);
    assert AlphaBeta(Sixth, 3, 2, 1, true, IntMin, 10) == Some(24);
  }

  lemma SixthBranch1()
    ensures AlphaBeta(Sixth, 3, 1, 1, false, 10, IntMax) == Some(-14)
  {
    assert AlphaBeta(Sixth, 3, 2, 2, true, 10, IntMax) == Some(23);
    assert AlphaBeta(Sixth, 3, 2, 3, true, 10, 23) == Some(-14);
  }

  lemma SixthCase()
    ensures Solve(Sixth) == Some(10)
  {
    FloorLog2Unique(|Sixth|, 3);
    SixthBranch0();
    SixthBranch1();
  }

  lemma SeventhBranch0()
    ensures AlphaBeta(Seventh, 3, 1, 0, false, IntMin, IntMax) == Some(11)
  {
    assert AlphaBeta(Seventh, 3, 2, 0, true, IntMin, IntMax) == Some(11);
    assert AlphaBeta(Seventh, 3, 2, 1, true, IntMin, 11) == Some(24);
  }

  lemma SeventhBranch1()
    ensures AlphaBeta(Seventh, 3, 1, 1, false, 11, IntMax) == Some(-14)
  {
    assert AlphaBeta(Seventh, 3, 2, 2, true, 11, IntMax) == Some(23);
    assert AlphaBeta(Seventh, 3, 2, 3, true, 11, 23) == Some(-14);
  }

  lemma SeventhCase()
    ensures Solve(Seventh) == Some(11)
  {
    FloorLog2Unique(|Seventh|, 3);
    SeventhBranch0();
    SeventhBranch1();
  }

  lemma EighthBranch0()
    ensures AlphaBeta(Eighth, 3, 1, 0, false, IntMin, IntMax) == Some(18)
  {
    assert AlphaBeta(Eighth, 3, 2, 0, true, IntMin, IntMax) == Some(18);
    assert AlphaBeta(Eighth, 3, 2, 1, true, IntMin, 18) == Some(34);
  }

  lemma EighthBranch1()
    ensures AlphaBeta(Eighth, 3, 1, 1, false, 18, IntMax) == Some(-10)
  {
    assert AlphaBeta(Eighth, 3, 2, 2, true, 18, IntMax) == Some(23);
    assert AlphaBeta(Eighth, 3, 2, 3, true, 18, 23) == Some(-10);
  }

  lemma EighthCase()
    ensures Solve(Eighth) == Some(18)
  {
    FloorLog2Unique(|Eighth|, 3);
    EighthBranch0();
    EighthBranch1();
  }

  /** In the fourth case the tree has height 4 and three children per node, so
      its last leaf is `values[30]`, one past the end of the 30 values: plain
      minimax would read it, and only the pruning keeps the search in bounds. */
  lemma FourthCaseOverrunsUnpruned()
    ensures LastLeaf(FloorLog2(|Fourth|), 0, 0) == |Fourth|
    ensures Minimax(Fourth, FloorLog2(|Fourth|), 0, 0, true) == None
  {
    FloorLog2Unique(|Fourth|, 4);
    assert LastLeaf(4, 0, 0) == 30;
    MinimaxDefined(Fourth, 4, 0, 0, true);
  }
}

=== FILE: peg_solitaire.dfy ===
/** English peg solitaire on the 33-hole cross-shaped board: the initial layout,
    legal jumps, applying and undoing a jump, and the backtracking solver that
    looks for a play ending with one peg in the centre. */
module PegSolitaire {

  /** `Board::SIZE`. */
  const Size: int := 7

  datatype Cell = Invalid | Empty | Peg

  /** `cells[row][col]`. */
  type Board = seq<seq<Cell>>

  datatype Position = Position(row: int, col: int)

  /** A jump: the peg at `from` jumps over `removed` and lands on `to`. */
  datatype Move = Move(from: Position, removed: Position, to: Position)

  predicate WellSized(b: Board) {
    |b| == Size && forall r :: 0 <= r < Size ==> |b[r]| == Size
  }

  predicate InRange(p: Position) {
    0 <= p.row < Size && 0 <= p.col < Size
  }

  function At(b: Board, p: Position): Cell
    requires WellSized(b) && InRange(p)
  {
    b[p.row][p.col]
  }

  /** The board with cell `p` replaced by `v`. */
  function Set(b: Board, p: Position, v: Cell): (b': Board)
    requires WellSized(b) && InRange(p)
    ensures WellSized(b')
    ensures forall q :: InRange(q) ==> At(b', q) == if q == p then v else At(b, q)
  {
    b[p.row := b[p.row][p.col := v]]
  }

  /** The layout table of `initialize`, read row by row: -1 invalid, 0 empty, 1 peg. */
  const InitTable: seq<seq<int>> := [
    [-1, -1,  1, 1, 1, -1, -1],
    [-1, -1,  1, 1, 1, -1, -1],
    [ 1,  1,  1, 1, 1,  1,  1],
    [ 1,  1,  1, 0, 1,  1,  1],
    [ 1,  1,  1, 1, 1,  1,  1],
    [-1, -1,  1, 1, 1, -1, -1],
    [-1, -1,  1, 1, 1, -1, -1]]

  /** `static_cast<Cell>` of a table entry. */
  function CellOf(v: int): Cell {
    if v < 0 then Invalid else if v == 0 then Empty else Peg
  }

  /** `initialize`: the table copied with rows and columns swapped. */
  function Initial(): (b: Board)
    ensures WellSized(b)
  {
    seq(Size, r requires 0 <= r < Size => seq(Size, c requires 0 <= c < Size => CellOf(InitTable[c][r])))
  }

  /** The cross: the middle three rows and the middle three columns. */
  predicate OnCross(r: int, c: int) {
    0 <= r < Size && 0 <= c < Size && (2 <= r <= 4 || 2 <= c <= 4)
  }

  /** The initial board, cell by cell: every hole of the cross holds a peg except
      the centre, which is empty; the rest is off the board. */
  lemma InitialLayout()
    ensures forall r, c :: 0 <= r < Size && 0 <= c < Size ==>
      Initial()[r][c] == if !OnCross(r, c) then Invalid else if r == 3 && c == 3 then Empty else Peg
  {
    var b := Initial();
    var edge := [Invalid, Invalid, Peg, Peg, Peg, Invalid, Invalid];
    var full := [Peg, Peg, Peg, Peg, Peg, Peg, Peg];
    assert b[0] == edge && b[1] == edge && b[5] == edge && b[6] == edge;
    assert b[2] == full && b[4] == full;
    assert b[3] == [Peg, Peg, Peg, Empty, Peg, Peg, Peg];
  }

  /** The table is symmetric, so swapping rows and columns changes nothing. */
  lemma TransposeHarmless()
    ensures forall r, c :: 0 <= r < Size && 0 <= c < Size ==> Initial()[r][c] == CellOf(InitTable[r][c])
  {
    InitialLayout();
  }

  /** Number of cells of a row holding `v`: its multiplicity in the row. */
  function CountRow(row: seq<Cell>, v: Cell): (n: nat)
    ensures n <= |row|
  {
    if |row| == 0 then 0 else (if row[0] == v then 1 else 0) + CountRow(row[1..], v)
  }

  /** Counting a row gives the multiplicity of `v` in it. */
  lemma {:induction false} CountRowIsMultiplicity(row: seq<Cell>, v: Cell)
    ensures CountRow(row, v) == multiset(row)[v]
  {
    if |row| > 0 {
      assert row == [row[0]] + row[1..];
      CountRowIsMultiplicity(row[1..], v);
    }
  }

  /** The cells of a board, row after row. */
  function Flatten(b: Board): seq<Cell> {
    if |b| == 0 then [] else b[0] + Flatten(b[1..])
  }

  /** Number of cells holding `v`. */
  function Count(b: Board, v: Cell): nat {
    if |b| == 0 then 0 else CountRow(b[0], v) + Count(b[1..], v)
  }

  /** Counting row by row counts every cell of the board once. */
  lemma {:induction false} CountIsMultiplicity(b: Board, v: Cell)
    ensures Count(b, v) == multiset(Flatten(b))[v]
  {
    if |b| > 0 {
      CountRowIsMultiplicity(b[0], v);
      CountIsMultiplicity(b[1..], v);
    }
  }

  /** `countPegs`: the pegs among all 49 cells. */
  function CountPegs(b: Board): (n: nat)
    ensures n == multiset(Flatten(b))[Peg]
    ensures WellSized(b) ==> n <= Size * Size
  {
    FlattenSize(b);
    CountIsMultiplicity(b, Peg);
    Count(b, Peg)
  }

  /** A well-sized board has 49 cells. */
  lemma FlattenSize(b: Board)
    ensures WellSized(b) ==> |Flatten(b)| == Size * Size
  {
    if !WellSized(b) {
      return;
    }
    assert b[0..] == b;
    FlattenSuffix(b, 0);
    FlattenSuffix(b, 1);
    FlattenSuffix(b, 2);
    FlattenSuffix(b, 3);
    FlattenSuffix(b, 4);
    FlattenSuffix(b, 5);
    FlattenSuffix(b, 6);
    assert b[7..] == [];
  }

  lemma FlattenSuffix(b: Board, k: nat)
    requires k < |b|
    ensures Flatten(b[k..]) == b[k] + Flatten(b[k + 1..])
  {
    assert b[k..][1..] == b[k + 1..];
  }

  /** Counting a board is counting its first row and then the rest. */
  lemma CountSuffix(b: Board, k: nat, v: Cell)
    requires k < |b|
    ensures Count(b[k..], v) == CountRow(b[k], v) + Count(b[k + 1..], v)
  {
    assert b[k..][1..] == b[k + 1..];
  }

  /** The three kinds of row of the initial board. */
  const EdgeRow: seq<Cell> := [Invalid, Invalid, Peg, Peg, Peg, Invalid, Invalid]
  const FullRow: seq<Cell> := [Peg, Peg, Peg, Peg, Peg, Peg, Peg]
  const MiddleRow: seq<Cell> := [Peg, Peg, Peg, Empty, Peg, Peg, Peg]

  lemma InitialRows()
    ensures Initial()[0] == EdgeRow && Initial()[1] == EdgeRow
    ensures Initial()[2] == FullRow && Initial()[3] == MiddleRow && Initial()[4] == FullRow
    ensures Initial()[5] == EdgeRow && Initial()[6] == EdgeRow
  {
    InitialLayout();
  }

  /** A seven-row board counts row by row. */
  lemma CountSeven(b: Board, v: Cell)
    requires |b| == 7
    ensures Count(b, v) == CountRow(b[0], v) + CountRow(b[1], v) + CountRow(b[2], v) +
      CountRow(b[3], v) + CountRow(b[4], v) + CountRow(b[5], v) + CountRow(b[6], v)
  {
    CountSuffix(b, 0, v);
    CountSuffix(b, 1, v);
    CountSuffix(b, 2, v);
    CountSuffix(b, 3, v);
    CountSuffix(b, 4, v);
    CountSuffix(b, 5, v);
    CountSuffix(b, 6, v);
    assert b[0..] == b && b[7..] == [];
  }

  /** The initial board has 33 holes, 32 of them holding a peg and the centre empty. */
  lemma InitialCounts()
    ensures Count(Initial(), Peg) == 32
    ensures Count(Initial(), Peg) + Count(Initial(), Empty) == 33
    ensures Count(Initial(), Empty) == 1 && Initial()[3][3] == Empty
  {
    InitialRows();
    RowCounts();
    CountSeven(Initial(), Peg);
    CountSeven(Initial(), Empty);
  }

  /** Pegs and empty holes in each kind of row of the initial board. */
  lemma RowCounts()
    ensures CountRow(EdgeRow, Peg) == 3 && CountRow(EdgeRow, Empty) == 0
    ensures CountRow(FullRow, Peg) == 7 && CountRow(FullRow, Empty) == 0
    ensures CountRow(MiddleRow, Peg) == 6 && CountRow(MiddleRow, Empty) == 1
  {
    EdgeRowCounts();
    FullRowCounts();
    MiddleRowCounts();
  }

  lemma EdgeRowCounts()
    ensures CountRow(EdgeRow, Peg) == 3 && CountRow(EdgeRow, Empty) == 0
  {
  }

  lemma FullRowCounts()
    ensures CountRow(FullRow, Peg) == 7 && CountRow(FullRow, Empty) == 0
  {
  }

  lemma MiddleRowCounts()
    ensures CountRow(MiddleRow, Peg) == 6 && CountRow(MiddleRow, Empty) == 1
  {
  }

  /** Replacing one cell of a row changes its count by what left and what came. */
  lemma {:induction false} CountRowSet(row: seq<Cell>, c: nat, v: Cell, w: Cell)
    requires c < |row|
    ensures CountRow(row[c := v], w) ==
      CountRow(row, w) - (if row[c] == w then 1 else 0) + (if v == w then 1 else 0)
  {
    if c > 0 {
      assert row[c := v][1..] == row[1..][c - 1 := v];
      CountRowSet(row[1..], c - 1, v, w);
    } else {
      assert row[c := v][1..] == row[1..];
    }
  }

  /** Replacing one cell of the board changes the count the same way. */
  lemma {:induction false} CountSet(b: Board, r: nat, c: nat, v: Cell, w: Cell)
    requires r < |b| && c < |b[r]|
    ensures Count(b[r := b[r][c := v]], w) ==
      Count(b, w) - (if b[r][c] == w then 1 else 0) + (if v == w then 1 else 0)
  {
    if r > 0 {
      assert b[r := b[r][c := v]][1..] == b[1..][r - 1 := b[r][c := v]];
      CountSet(b[1..], r - 1, c, v, w);
    } else {
      assert b[r := b[r][c := v]][1..] == b[1..];
      CountRowSet(b[0], c, v, w);
    }
  }

  /** `isValidPosition`: on the 7 × 7 square and not off the cross. */
  predicate IsValidPosition(b: Board, row: int, col: int)
    requires WellSized(b)
    ensures IsValidPosition(b, row, col) ==> InRange(Position(row, col)) && b[row][col] in {Empty, Peg}
  {
    0 <= row < Size && 0 <= col < Size && b[row][col] != Invalid
  }

  /** The four directions of `getPossibleMoves`, in its order: up, down, left, right. */
  function DRow(d: int): int
    requires 0 <= d < 4
  {
    if d == 0 then -1 else if d == 1 then 1 else 0
  }

  function DCol(d: int): int
    requires 0 <= d < 4
  {
    if d == 2 then -1 else if d == 3 then 1 else 0
  }

  /** The jump from `(i, j)` in direction `d`. */
  function MoveIn(i: int, j: int, d: int): Move
    requires 0 <= d < 4
  {
    Move(Position(i, j), Position(i + DRow(d), j + DCol(d)), Position(i + 2 * DRow(d), j + 2 * DCol(d)))
  }

  /** `removed` is one orthogonal step from `from`, and `to` one more step the same way. */
  predicate IsStep(m: Move) {
    var dr := m.removed.row - m.from.row;
    var dc := m.removed.col - m.from.col;
    ((dr == 0 && (dc == 1 || dc == -1)) || (dc == 0 && (dr == 1 || dr == -1))) &&
    m.to == Position(m.from.row + 2 * dr, m.from.col + 2 * dc)
  }

  /** A legal jump: a peg jumps over a peg onto an empty hole of the board. */
  predicate Legal(b: Board, m: Move)
    requires WellSized(b)
  {
    InRange(m.from) && IsStep(m) && IsValidPosition(b, m.to.row, m.to.col) &&
    At(b, m.from) == Peg && At(b, m.removed) == Peg && At(b, m.to) == Empty
  }

  /** The jumps from `(i, j)` in direction `d` and onwards, as `getPossibleMoves` tries them. */
  function JumpsFrom(b: Board, i: int, j: int, d: nat): (ms: seq<Move>)
    requires WellSized(b) && 0 <= i < Size && 0 <= j < Size && b[i][j] == Peg && d <= 4
    ensures forall m :: m in ms <==>
      (m.from == Position(i, j) && Legal(b, m) && exists e :: d <= e < 4 && m == MoveIn(i, j, e))
    decreases 4 - d
  {
    if d == 4 then []
    else
      var m := MoveIn(i, j, d);
      var here := if IsValidPosition(b, m.to.row, m.to.col) && At(b, m.removed) == Peg && At(b, m.to) == Empty
        then [m] else [];
      here + JumpsFrom(b, i, j, d + 1)
  }

  /** Every step from a position is the jump in one of the four directions. */
  lemma StepIsDirection(m: Move)
    requires IsStep(m)
    ensures exists e :: 0 <= e < 4 && m == MoveIn(m.from.row, m.from.col, e)
  {
    var dr := m.removed.row - m.from.row;
    var dc := m.removed.col - m.from.col;
    var e := if dr == -1 then 0 else if dr == 1 then 1 else if dc == -1 then 2 else 3;
    assert m == MoveIn(m.from.row, m.from.col, e);
  }

  /** The legal jumps from `(i, j)`. */
  function JumpsAt(b: Board, i: int, j: int): (ms: seq<Move>)
    requires WellSized(b) && 0 <= i < Size && 0 <= j < Size
    ensures forall m :: m in ms <==> m.from == Position(i, j) && Legal(b, m)
  {
    if b[i][j] == Peg then
      var ms := JumpsFrom(b, i, j, 0);
      assert forall m: Move :: m.from == Position(i, j) && Legal(b, m) ==> m in ms by {
        forall m: Move | m.from == Position(i, j) && Legal(b, m)
          ensures m in ms
        {
          StepIsDirection(m);
        }
      }
      ms
    else []
  }

  /** Row-major index of a position. */
  function Index(p: Position): int {
    p.row * Size + p.col
  }

  /** The legal jumps from the cells at row-major index `n` and later. */
  function MovesFrom(b: Board, n: nat): (ms: seq<Move>)
    requires WellSized(b)
    ensures forall m :: m in ms <==> Legal(b, m) && Index(m.from) >= n
    decreases Size * Size - n
  {
    if n >= Size * Size then []
    else
      var here := JumpsAt(b, n / Size, n % Size);
      var rest := MovesFrom(b, n + 1);
      assert forall m :: m in here + rest <==> Legal(b, m) && Index(m.from) >= n by {
        forall m
          ensures m in here + rest <==> Legal(b, m) && Index(m.from) >= n
        {
          IndexOf(m.from, n);
        }
      }
      here + rest
  }

  /** Index `n` of the board belongs to exactly one position. */
  lemma IndexOf(p: Position, n: int)
    requires 0 <= n < Size * Size
    ensures InRange(p) && Index(p) == n <==> p == Position(n / Size, n % Size)
  {
  }

  /** `getPossibleMoves`: exactly the legal jumps, scanned row by row. */
  function PossibleMoves(b: Board): (ms: seq<Move>)
    requires WellSized(b)
    ensures forall m :: m in ms <==> Legal(b, m)
  {
    MovesFrom(b, 0)
  }

  /** `applyMove`: empty `from` and `removed`, put the peg on `to`. */
  function Apply(b: Board, m: Move): (b': Board)
    requires WellSized(b) && InRange(m.from) && InRange(m.removed) && InRange(m.to)
    ensures WellSized(b')
    ensures forall q :: InRange(q) ==>
      At(b', q) == if q == m.to then Peg else if q == m.from || q == m.removed then Empty else At(b, q)
  {
    Set(Set(Set(b, m.from, Empty), m.removed, Empty), m.to, Peg)
  }

  /** `undoMove`: put the pegs back on `from` and `removed`, empty `to`. */
  function Undo(b: Board, m: Move): (b': Board)
    requires WellSized(b) && InRange(m.from) && InRange(m.removed) && InRange(m.to)
    ensures WellSized(b')
    ensures forall q :: InRange(q) ==>
      At(b', q) == if q == m.to then Empty else if q == m.from || q == m.removed then Peg else At(b, q)
  {
    Set(Set(Set(b, m.from, Peg), m.removed, Peg), m.to, Empty)
  }

  /** The three positions of a legal jump are on the board and different. */
  lemma LegalPositions(b: Board, m: Move)
    requires WellSized(b) && Legal(b, m)
    ensures InRange(m.from) && InRange(m.removed) && InRange(m.to)
    ensures m.from != m.removed && m.removed != m.to && m.from != m.to
  {
  }

  /** A legal jump changes exactly its three cells: `from` and `removed` become
      empty and `to` gets the peg. */
  lemma ApplyChangesThree(b: Board, m: Move)
    requires WellSized(b) && Legal(b, m)
    ensures forall q :: InRange(q) ==>
      At(Apply(b, m), q) == if q == m.from || q == m.removed then Empty else if q == m.to then Peg else At(b, q)
    ensures forall q :: InRange(q) && At(Apply(b, m), q) != At(b, q) ==> q == m.from || q == m.removed || q == m.to
  {
    LegalPositions(b, m);
  }

  /** Undoing a legal jump right after applying it restores the board. */
  lemma UndoApply(b: Board, m: Move)
    requires WellSized(b) && Legal(b, m)
    ensures Undo(Apply(b, m), m) == b
  {
    LegalPositions(b, m);
    var b' := Undo(Apply(b, m), m);
    forall r | 0 <= r < Size
      ensures b'[r] == b[r]
    {
      forall c | 0 <= c < Size
        ensures b'[r][c] == b[r][c]
      {
        assert At(b', Position(r, c)) == At(b, Position(r, c));
      }
    }
  }

  /** A legal jump removes exactly one peg. */
  lemma ApplyRemovesOnePeg(b: Board, m: Move)
    requires WellSized(b) && Legal(b, m)
    ensures CountPegs(Apply(b, m)) == CountPegs(b) - 1
  {
    LegalPositions(b, m);
    var b1 := Set(b, m.from, Empty);
    var b2 := Set(b1, m.removed, Empty);
    CountSet(b, m.from.row, m.from.col, Empty, Peg);
    CountSet(b1, m.removed.row, m.removed.col, Empty, Peg);
    CountSet(b2, m.to.row, m.to.col, Peg, Peg);
  }

  /** A legal jump keeps the holes of the board: a position is valid after it
      exactly when it was valid before. */
  lemma ApplyKeepsValidPositions(b: Board, m: Move)
    requires WellSized(b) && Legal(b, m)
    ensures forall r, c :: IsValidPosition(Apply(b, m), r, c) <==> IsValidPosition(b, r, c)
  {
    LegalPositions(b, m);
    forall r, c
      ensures IsValidPosition(Apply(b, m), r, c) <==> IsValidPosition(b, r, c)
    {
      if InRange(Position(r, c)) {
        assert At(Apply(b, m), Position(r, c)) == Apply(b, m)[r][c];
      }
    }
  }

  /** On the initial board the valid positions are exactly the cross. */
  lemma InitialValidPositions()
    ensures forall r, c :: IsValidPosition(Initial(), r, c) <==> OnCross(r, c)
  {
    InitialLayout();
  }

  /** `isPegAtCenter`. */
  predicate PegAtCenter(b: Board)
    requires WellSized(b)
  {
    b[3][3] == Peg
  }

  /** The moves are legal one after the other, starting from `b`. */
  predicate ValidPlay(b: Board, ms: seq<Move>)
    requires WellSized(b)
    decreases |ms|
  {
    |ms| == 0 || (Legal(b, ms[0]) && ValidPlay(Apply(b, ms[0]), ms[1..]))
  }

  /** The board after a valid play. */
  function Play(b: Board, ms: seq<Move>): (b': Board)
    requires WellSized(b) && ValidPlay(b, ms)
    ensures WellSized(b')
    decreases |ms|
  {
    if |ms| == 0 then b else Play(Apply(b, ms[0]), ms[1..])
  }

  /** A legal jump followed by a valid play is a valid play, ending where the rest ends. */
  lemma PlayPrepend(b: Board, m: Move, rest: seq<Move>)
    requires WellSized(b) && Legal(b, m)
    requires ValidPlay(Apply(b, m), rest)
    ensures ValidPlay(b, [m] + rest) && Play(b, [m] + rest) == Play(Apply(b, m), rest)
  {
    assert ([m] + rest)[0] == m && ([m] + rest)[1..] == rest;
  }

  /** A solution extended by `m` and then more moves still starts with the solution,
      and what follows it is `m` and the rest. */
  lemma ExtendedSolution(solution: seq<Move>, m: Move, s: seq<Move>)
    requires |s| >= |solution| + 1 && s[..|solution| + 1] == solution + [m]
    ensures s[..|solution|] == solution
    ensures s[|solution|..] == [m] + s[|solution| + 1..]
  {
    assert s[..|solution|] == s[..|solution| + 1][..|solution|];
    assert s[|solution|] == s[..|solution| + 1][|solution|];
  }

  /** Every jump of a valid play takes one peg off the board. */
  lemma {:induction false} PlayRemovesPegs(b: Board, ms: seq<Move>)
    requires WellSized(b) && ValidPlay(b, ms)
    ensures CountPegs(Play(b, ms)) == CountPegs(b) - |ms|
    decreases |ms|
  {
    if |ms| > 0 {
      ApplyRemovesOnePeg(b, ms[0]);
      PlayRemovesPegs(Apply(b, ms[0]), ms[1..]);
    }
  }

  /** A winning play from the initial board is 31 jumps long. */
  lemma WinningPlayLength(ms: seq<Move>)
    requires ValidPlay(Initial(), ms) && Won(Play(Initial(), ms))
    ensures |ms| == 31
  {
    InitialCounts();
    PlayRemovesPegs(Initial(), ms);
  }

  /** A won board: one peg left, in the centre. */
  predicate Won(b: Board)
    requires WellSized(b)
  {
    CountPegs(b) == 1 && PegAtCenter(b)
  }

  /** `solve`: depth-first search over the jumps in `getPossibleMoves` order. On
      success the moves found are appended to `solution` and the board is the
      final, won board; on failure board and `solution` are as they were. */
  method Solve(board: Board, solution: seq<Move>) returns (found: bool, board': Board, solution': seq<Move>)
    requires WellSized(board)
    ensures WellSized(board')
    ensures found ==> |solution'| >= |solution| && solution'[..|solution|] == solution
    ensures found ==>
      ValidPlay(board, solution'[|solution|..]) && Play(board, solution'[|solution|..]) == board' && Won(board')
    ensures !found ==> board' == board && solution' == solution
    decreases CountPegs(board)
  {
    if CountPegs(board) == 1 {
      assert solution[|solution|..] == [];
      return PegAtCenter(board), board, solution;
    }
    var moves := PossibleMoves(board);
    if |moves| == 0 {
      return false, board, solution;
    }
    board' := board;
    solution' := solution;
    var i := 0;
    while i < |moves|
      invariant 0 <= i <= |moves|
      invariant board' == board && solution' == solution
    {
      var m := moves[i];
      assert Legal(board, m);
      LegalPositions(board, m);
      ApplyRemovesOnePeg(board, m);
      board' := Apply(board', m);
      solution' := solution' + [m];
      var ok;
      ok, board', solution' := Solve(board', solution');
      if ok {
        ExtendedSolution(solution, m, solution');
        PlayPrepend(board, m, solution'[|solution| + 1..]);
        return true, board', solution';
      }
      solution' := solution'[..|solution'| - 1];
      UndoApply(board, m);
      board' := Undo(board', m);
      i := i + 1;
    }
    return false, board', solution';
  }
}

=== FILE: results.dfy ===
/** Success/failure values shared by every component: the source reports
    failures by throwing, and the model returns them instead. */
module Results {

  datatype Result<+T, +E> = Ok(value: T) | Err(error: E) {

    predicate IsFailure() {
      Err?
    }

    function PropagateFailure<U>(): Result<U, E>
      requires Err?
    {
      Err(error)
    }

    function Extract(): T
      requires Ok?
    {
      value
    }
  }

  datatype Option<+T> = None | Some(value: T)
}

=== FILE: sudoku_peers.dfy ===
/** The neighbour relation of the Sudoku solver: for each of the 81 cells, the
    cells sharing its row, its column or its 3 × 3 box, listed in ascending
    order as `initialize_neighbors` leaves them. */
module SudokuPeers {

  /** Number of cells on the board; cell `i` is row `i / 9`, column `i % 9`. */
  const Cells: int := 81

  predicate IsCell(i: int) {
    0 <= i < Cells
  }

  /** The index of the cell in row `r`, column `c`. */
  function Index(r: int, c: int): int {
    9 * r + c
  }

  /** `r / 3` for a row or column `r` of the board: which band of boxes. */
  function Band(r: int): int {
    if r < 3 then 0 else if r < 6 then 1 else 2
  }

  /** Cell `(r2, c2)` is a neighbour of cell `(r1, c1)`: a different cell in the
      same row, column or box. */
  predicate Related(r1: int, c1: int, r2: int, c2: int) {
    (r1 != r2 || c1 != c2) &&
    (r1 == r2 || c1 == c2 || (Band(r1) == Band(r2) && Band(c1) == Band(c2)))
  }

  /** The same relation on cell indices. */
  predicate IsPeer(i: int, j: int) {
    IsCell(i) && IsCell(j) && Related(i / 9, i % 9, j / 9, j % 9)
  }

  predicate Ascending(s: seq<int>) {
    forall a, b :: 0 <= a < b < |s| ==> s[a] < s[b]
  }

  /** Two ascending runs, the first wholly below the second, make one. */
  lemma AscendingConcat(a: seq<int>, b: seq<int>)
    requires Ascending(a) && Ascending(b)
    requires forall x, y :: x in a && y in b ==> x < y
    ensures Ascending(a + b)
  {
    forall p, q | 0 <= p < q < |a + b|
      ensures (a + b)[p] < (a + b)[q]
    {
      if q >= |a| && p < |a| {
        assert a[p] in a && b[q - |a|] in b;
      }
    }
  }

  /** The scan position after `(r, c)` in row-major order. */
  function NextRow(r: int, c: int): int {
    if c == 8 then r + 1 else r
  }

  function NextCol(c: int): int {
    if c == 8 then 0 else c + 1
  }

  /** The neighbours of cell `(ri, ci)` from cell `(r, c)` on, in row-major order,
      which is ascending index order. */
  function Scan(ri: int, ci: int, r: int, c: int): (s: seq<int>)
    requires 0 <= r <= 9 && 0 <= c < 9
    ensures forall x :: x in s ==> Index(r, c) <= x < Cells
    decreases Cells - Index(r, c)
  {
    if r == 9 then []
    else (if Related(ri, ci, r, c) then [Index(r, c)] else []) + Scan(ri, ci, NextRow(r, c), NextCol(c))
  }

  /** From `(r, c)` on, the scan lists exactly the neighbours. */
  lemma {:induction false} ScanMember(ri: int, ci: int, r: int, c: int, r': int, c': int)
    requires 0 <= r <= 9 && 0 <= c < 9 && 0 <= r' < 9 && 0 <= c' < 9
    ensures Index(r', c') in Scan(ri, ci, r, c) <==> Index(r, c) <= Index(r', c') && Related(ri, ci, r', c')
    decreases Cells - Index(r, c)
  {
    if r < 9 {
      ScanMember(ri, ci, NextRow(r, c), NextCol(c), r', c');
    }
  }

  lemma {:induction false} ScanAscending(ri: int, ci: int, r: int, c: int)
    requires 0 <= r <= 9 && 0 <= c < 9
    ensures Ascending(Scan(ri, ci, r, c))
    decreases Cells - Index(r, c)
  {
    if r < 9 {
      ScanAscending(ri, ci, NextRow(r, c), NextCol(c));
      AscendingConcat(if Related(ri, ci, r, c) then [Index(r, c)] else [], Scan(ri, ci, NextRow(r, c), NextCol(c)));
    }
  }

  /** `neighbors[i]`: the set of neighbours copied into a vector. */
  function Peers(i: int): (s: seq<int>)
    requires IsCell(i)
    ensures forall j :: j in s <==> IsPeer(i, j)
  {
    var s := Scan(i / 9, i % 9, 0, 0);
    forall j
      ensures j in s <==> IsPeer(i, j)
    {
      if IsCell(j) {
        assert j == Index(j / 9, j % 9);
        ScanMember(i / 9, i % 9, 0, 0, j / 9, j % 9);
      }
    }
    s
  }

  /** The neighbour list is strictly ascending, so it has no repeats. */
  lemma PeersAscending(i: int)
    requires IsCell(i)
    ensures Ascending(Peers(i))
  {
    ScanAscending(i / 9, i % 9, 0, 0);
  }

  lemma PeerMember(i: int, j: int)
    requires IsCell(i)
    ensures j in Peers(i) <==> IsPeer(i, j)
  {
  }

  lemma IsPeerSymmetric(i: int, j: int)
    ensures IsPeer(i, j) <==> IsPeer(j, i)
  {
  }

  lemma NotOwnPeer(i: int)
    requires IsCell(i)
    ensures i !in Peers(i)
  {
  }

  /** The relation is symmetric and irreflexive. */
  lemma PeersSymmetric(i: int, j: int)
    requires IsCell(i) && IsCell(j)
    ensures j in Peers(i) <==> i in Peers(j)
    ensures i !in Peers(i)
  {
    PeerMember(i, j);
    PeerMember(j, i);
    IsPeerSymmetric(i, j);
    NotOwnPeer(i);
  }

  /** 1 when `(r, c)` is a neighbour of `(ri, ci)`, else 0. */
  function Ind(ri: int, ci: int, r: int, c: int): int {
    if Related(ri, ci, r, c) then 1 else 0
  }

  /** A row of the board adds as many neighbours to the scan as its columns contribute. */
  lemma RowSum(ri: int, ci: int, r: int)
    requires 0 <= r < 9
    ensures |Scan(ri, ci, r, 0)| == |Scan(ri, ci, r + 1, 0)| +
      Ind(ri, ci, r, 0) + Ind(ri, ci, r, 1) + Ind(ri, ci, r, 2) +
      Ind(ri, ci, r, 3) + Ind(ri, ci, r, 4) + Ind(ri, ci, r, 5) +
      Ind(ri, ci, r, 6) + Ind(ri, ci, r, 7) + Ind(ri, ci, r, 8)
  {
    assert |Scan(ri, ci, r, 8)| == |Scan(ri, ci, r + 1, 0)| + Ind(ri, ci, r, 8);
    assert |Scan(ri, ci, r, 7)| == |Scan(ri, ci, r, 8)| + Ind(ri, ci, r, 7);
    assert |Scan(ri, ci, r, 6)| == |Scan(ri, ci, r, 7)| + Ind(ri, ci, r, 6);
    assert |Scan(ri, ci, r, 5)| == |Scan(ri, ci, r, 6)| + Ind(ri, ci, r, 5);
    assert |Scan(ri, ci, r, 4)| == |Scan(ri, ci, r, 5)| + Ind(ri, ci, r, 4);
    assert |Scan(ri, ci, r, 3)| == |Scan(ri, ci, r, 4)| + Ind(ri, ci, r, 3);
    assert |Scan(ri, ci, r, 2)| == |Scan(ri, ci, r, 3)| + Ind(ri, ci, r, 2);
    assert |Scan(ri, ci, r, 1)| == |Scan(ri, ci, r, 2)| + Ind(ri, ci, r, 1);
    assert |Scan(ri, ci, r, 0)| == |Scan(ri, ci, r, 1)| + Ind(ri, ci, r, 0);
  }

  /** How many neighbours of a cell in row `ri` lie in row `r`: the rest of its
      own row, the box cells of the other rows of its band, the column cell
      elsewhere. */
  function RowCount(ri: int, r: int): int {
    if r == ri then 8 else if Band(r) == Band(ri) then 3 else 1
  }

  lemma RowPeerCount(ri: int, ci: int, r: int)
    requires 0 <= ri < 9 && 0 <= ci < 9 && 0 <= r < 9
    ensures Ind(ri, ci, r, 0) + Ind(ri, ci, r, 1) + Ind(ri, ci, r, 2) +
      Ind(ri, ci, r, 3) + Ind(ri, ci, r, 4) + Ind(ri, ci, r, 5) +
      Ind(ri, ci, r, 6) + Ind(ri, ci, r, 7) + Ind(ri, ci, r, 8) == RowCount(ri, r)
  {
    if r == ri {
      assert forall c :: 0 <= c < 9 ==> Ind(ri, ci, r, c) == if c == ci then 0 else 1;
    } else if Band(r) == Band(ri) {
      assert forall c :: 0 <= c < 9 ==> Ind(ri, ci, r, c) == if Band(c) == Band(ci) then 1 else 0;
    } else {
      assert forall c :: 0 <= c < 9 ==> Ind(ri, ci, r, c) == if c == ci then 1 else 0;
    }
  }

  /** Neighbours of a cell in row `ri` that lie in row `r` and below. */
  function RowsTotal(ri: int, r: int): int
    requires 0 <= r <= 9
    decreases 9 - r
  {
    if r == 9 then 0 else RowCount(ri, r) + RowsTotal(ri, r + 1)
  }

  /** Over the nine rows that makes 8 + 2 * 3 + 6 * 1. */
  lemma RowsTotalTwenty(ri: int)
    requires 0 <= ri < 9
    ensures RowsTotal(ri, 0) == 20
  {
    assert RowsTotal(ri, 6) == RowCount(ri, 6) + RowCount(ri, 7) + RowCount(ri, 8);
    assert RowsTotal(ri, 3) == RowCount(ri, 3) + RowCount(ri, 4) + RowCount(ri, 5) + RowsTotal(ri, 6);
    assert RowsTotal(ri, 0) == RowCount(ri, 0) + RowCount(ri, 1) + RowCount(ri, 2) + RowsTotal(ri, 3);
  }

  /** Row `r` adds its neighbours of `(ri, ci)` to the scan. */
  lemma RowStep(ri: int, ci: int, r: int)
    requires 0 <= ri < 9 && 0 <= ci < 9 && 0 <= r < 9
    ensures |Scan(ri, ci, r, 0)| == |Scan(ri, ci, r + 1, 0)| + RowCount(ri, r)
  {
    RowSum(ri, ci, r);
    RowPeerCount(ri, ci, r);
  }

  /** The scan from row `r` on finds the row counts of those rows. */
  lemma {:induction false} ScanRows(ri: int, ci: int, r: int)
    requires 0 <= ri < 9 && 0 <= ci < 9 && 0 <= r <= 9
    ensures |Scan(ri, ci, r, 0)| == RowsTotal(ri, r)
    decreases 9 - r
  {
    if r < 9 {
      RowStep(ri, ci, r);
      ScanRows(ri, ci, r + 1);
    }
  }

  /** Every cell has exactly 20 neighbours: 8 in its row, 8 more in its column and
      4 more in its box. */
  lemma TwentyPeers(i: int)
    requires IsCell(i)
    ensures |Peers(i)| == 20
  {
    assert Peers(i) == Scan(i / 9, i % 9, 0, 0);
    ScanRows(i / 9, i % 9, 0);
    RowsTotalTwenty(i / 9);
  }
}

=== FILE: sudoku_solver.dfy ===
/** The constraint solver behind both Sudoku programs: domains as `bitset<9>`,
    forward checking from the givens, the minimum-remaining-values choice of the
    next cell, and backtracking that restores every domain bit it cleared. */
module SudokuSolver {
  import opened SudokuPeers

  /** `bitset<9>`: flag `v - 1` is set while value `v` is still possible. */
  type Domain = seq<bool>

  /** `board[81]`: 0 for an empty cell, else the digit placed there. */
  type Board = seq<int>

  predicate IsValue(v: int) {
    1 <= v <= 9
  }

  predicate DomainsShaped(doms: seq<Domain>) {
    |doms| == Cells && forall n :: 0 <= n < Cells ==> |doms[n]| == 9
  }

  predicate WellFormed(board: Board, doms: seq<Domain>) {
    |board| == Cells && (forall i :: 0 <= i < Cells ==> 0 <= board[i] <= 9) && DomainsShaped(doms)
  }

  /** Value `v` is in domain `d`. */
  predicate Has(d: Domain, v: int)
    requires |d| == 9 && IsValue(v)
  {
    d[v - 1]
  }

  /** `count()`: the number of set flags. */
  function Size(d: Domain): (n: nat)
    ensures n <= |d|
    ensures n == 0 <==> forall k :: 0 <= k < |d| ==> !d[k]
  {
    if |d| == 0 then 0 else (if d[0] then 1 else 0) + Size(d[1..])
  }

  /** The domain a cell starts from: only its given value, or all nine. */
  function Start(board: Board, n: int): (d: Domain)
    requires |board| == Cells && IsCell(n)
    ensures |d| == 9
  {
    seq(9, k requires 0 <= k < 9 => board[n] == 0 || k == board[n] - 1)
  }

  /** Among cells `0 .. i - 1` there is a given neighbour of `n` holding `v`. */
  predicate GivenBefore(board: Board, n: int, v: int, i: int)
    requires |board| == Cells && 0 <= i <= Cells
    decreases i
  {
    i > 0 && (GivenBefore(board, n, v, i - 1) || (board[i - 1] == v && IsPeer(i - 1, n)))
  }

  lemma {:induction false} GivenBeforeExists(board: Board, n: int, v: int, i: int)
    requires |board| == Cells && 0 <= i <= Cells
    ensures GivenBefore(board, n, v, i) <==> exists p :: 0 <= p < i && IsPeer(n, p) && board[p] == v
    decreases i
  {
    if i > 0 {
      GivenBeforeExists(board, n, v, i - 1);
      IsPeerSymmetric(i - 1, n);
    }
  }

  /** The domains once the givens among cells `0 .. i - 1` have been propagated. */
  predicate PropagatedUpTo(board: Board, doms: seq<Domain>, i: int)
    requires |board| == Cells && 0 <= i <= Cells
  {
    DomainsShaped(doms) &&
    forall n, k :: 0 <= n < Cells && 0 <= k < 9 ==>
      doms[n][k] == (Start(board, n)[k] && !GivenBefore(board, n, k + 1, i))
  }

  /** The inner loop of `initialize_domains`: reset flag `k` in the domain of every
      cell of `ps`, leaving every other flag alone. */
  method ClearFlag(doms: seq<Domain>, ps: seq<int>, k: int) returns (doms': seq<Domain>)
    requires DomainsShaped(doms) && 0 <= k < 9
    requires forall u :: 0 <= u < |ps| ==> IsCell(ps[u])
    ensures DomainsShaped(doms')
    ensures forall n, j :: 0 <= n < Cells && 0 <= j < 9 ==>
      doms'[n][j] == (doms[n][j] && !(j == k && n in ps))
  {
    doms' := doms;
    var t := 0;
    while t < |ps|
      invariant 0 <= t <= |ps|
      invariant DomainsShaped(doms')
      invariant forall n, j :: 0 <= n < Cells && 0 <= j < 9 ==>
        doms'[n][j] == (doms[n][j] && !(j == k && n in ps[..t]))
    {
      assert ps[..t + 1] == ps[..t] + [ps[t]];
      doms' := doms'[ps[t] := doms'[ps[t]][k := false]];
      t := t + 1;
    }
    assert ps[..t] == ps;
  }

  /** Propagating the given of cell `i` to its neighbours extends the propagation
      by one cell. */
  lemma PropagateStep(board: Board, doms: seq<Domain>, i: int, doms': seq<Domain>)
    requires |board| == Cells && 0 <= i < Cells && PropagatedUpTo(board, doms, i)
    requires DomainsShaped(doms')
    requires board[i] == 0 ==> doms' == doms
    requires board[i] != 0 ==> 1 <= board[i] <= 9 && forall n, j :: 0 <= n < Cells && 0 <= j < 9 ==>
      doms'[n][j] == (doms[n][j] && !(j == board[i] - 1 && n in Peers(i)))
    ensures PropagatedUpTo(board, doms', i + 1)
  {
    forall n, k | 0 <= n < Cells && 0 <= k < 9
      ensures doms'[n][k] == (Start(board, n)[k] && !GivenBefore(board, n, k + 1, i + 1))
    {
      PeerMember(i, n);
    }
  }

  /** Before any given is propagated every cell has its starting domain. */
  lemma PropagatedAtStart(board: Board)
    requires |board| == Cells
    ensures PropagatedUpTo(board, seq(Cells, n requires 0 <= n < Cells => Start(board, n)), 0)
  {
  }

  /** Some neighbour of cell `n` holds `v`. */
  ghost predicate PeerHolds(board: Board, n: int, v: int)
    requires |board| == Cells
  {
    exists p :: 0 <= p < Cells && IsPeer(n, p) && board[p] == v
  }

  /** What `initialize_domains` leaves: a value is in a cell's domain exactly when
      the cell is empty or holds it and no neighbour holds it. */
  ghost predicate Initialized(board: Board, doms: seq<Domain>)
    requires |board| == Cells && DomainsShaped(doms)
  {
    forall n, v :: IsCell(n) && IsValue(v) ==>
      (Has(doms[n], v) <==>
        (board[n] == 0 || board[n] == v) && !PeerHolds(board, n, v))
  }

  /** With every given propagated, a value is in a cell's domain exactly when the
      cell is empty or holds it and no neighbour holds it. */
  lemma PropagatedAll(board: Board, doms: seq<Domain>)
    requires |board| == Cells && PropagatedUpTo(board, doms, Cells)
    ensures Initialized(board, doms)
  {
    forall n, v | IsCell(n) && IsValue(v)
      ensures Has(doms[n], v) <==>
        (board[n] == 0 || board[n] == v) && !PeerHolds(board, n, v)
    {
      PropagatedCell(board, doms, n, v);
    }
  }

  /** One cell and value of `PropagatedAll`. */
  lemma PropagatedCell(board: Board, doms: seq<Domain>, n: int, v: int)
    requires |board| == Cells && PropagatedUpTo(board, doms, Cells) && IsCell(n) && IsValue(v)
    ensures Has(doms[n], v) <==>
      (board[n] == 0 || board[n] == v) && !PeerHolds(board, n, v)
  {
    assert doms[n][v - 1] == (Start(board, n)[v - 1] && !GivenBefore(board, n, v, Cells));
    GivenBeforeExists(board, n, v, Cells);
  }

  /** `initialize_domains`: a given cell starts with only its value, an empty cell
      with all nine; then every given removes its value from its neighbours. */
  method InitializeDomains(board: Board) returns (doms: seq<Domain>)
    requires |board| == Cells && forall i :: 0 <= i < Cells ==> 0 <= board[i] <= 9
    ensures DomainsShaped(doms)
    ensures Initialized(board, doms)
  {
    doms := seq(Cells, n requires 0 <= n < Cells => Start(board, n));
    PropagatedAtStart(board);
    var i := 0;
    while i < Cells
      invariant 0 <= i <= Cells
      invariant PropagatedUpTo(board, doms, i)
    {
      var doms' := doms;
      if board[i] != 0 {
        var ps := Peers(i);
        forall u | 0 <= u < |ps|
          ensures IsCell(ps[u])
        {
          assert ps[u] in ps;
        }
        doms' := ClearFlag(doms, ps, board[i] - 1);
      }
      PropagateStep(board, doms, i, doms');
      doms := doms';
      i := i + 1;
    }
    PropagatedAll(board, doms);
  }

  /** No cell is empty. */
  predicate Complete(board: Board) {
    forall i :: 0 <= i < |board| ==> board[i] != 0
  }

  /** `select_unassigned_variable`: the first empty cell whose domain is smaller
      than those of all empty cells before it, scanning stops early at a domain of
      one value; -1 when the board is full. */
  method Select(board: Board, doms: seq<Domain>) returns (x: int)
    requires WellFormed(board, doms)
    ensures x == -1 <==> Complete(board)
    ensures x != -1 ==> IsCell(x) && board[x] == 0
    ensures x != -1 ==> forall j :: 0 <= j < x && board[j] == 0 ==> Size(doms[j]) > Size(doms[x])
    ensures x != -1 ==> forall j :: x < j < Cells && board[j] == 0 ==>
      Size(doms[j]) >= Size(doms[x]) || Size(doms[x]) == 1
  {
    var best := 10;
    x := -1;
    var i := 0;
    while i < Cells
      invariant 0 <= i <= Cells
      invariant x == -1 <==> forall j :: 0 <= j < i ==> board[j] != 0
      invariant x == -1 ==> best == 10
      invariant x != -1 ==> 0 <= x < i && board[x] == 0 && best == Size(doms[x])
      invariant x != -1 ==> forall j :: 0 <= j < x && board[j] == 0 ==> Size(doms[j]) > best
      invariant x != -1 ==> forall j :: x < j < i && board[j] == 0 ==> Size(doms[j]) >= best
    {
      if board[i] == 0 {
        var size := Size(doms[i]);
        if size < best {
          best := size;
          x := i;
          if size == 1 {
            break;
          }
        }
      }
      i := i + 1;
    }
  }

  /** `doms'` is `doms` with exactly the logged flags cleared, each of them a flag
      `v - 1` of a neighbour of `x` that was set. */
  predicate ClearedBy(doms: seq<Domain>, doms': seq<Domain>, removals: seq<(int, int)>, x: int, v: int)
    requires DomainsShaped(doms) && DomainsShaped(doms') && IsValue(v)
  {
    (forall n, k :: 0 <= n < Cells && 0 <= k < 9 ==> doms'[n][k] == (doms[n][k] && (n, k) !in removals)) &&
    (forall e :: e in removals ==> e.1 == v - 1 && IsPeer(x, e.0) && doms[e.0][e.1])
  }

  /** Clearing one more set flag `v - 1` of a neighbour and logging it keeps the
      relation. */
  lemma ClearedStep(doms: seq<Domain>, doms': seq<Domain>, removals: seq<(int, int)>, x: int, v: int, n: int)
    requires DomainsShaped(doms) && DomainsShaped(doms') && IsValue(v) && IsPeer(x, n)
    requires ClearedBy(doms, doms', removals, x, v) && doms'[n][v - 1]
    ensures DomainsShaped(doms'[n := doms'[n][v - 1 := false]])
    ensures ClearedBy(doms, doms'[n := doms'[n][v - 1 := false]], removals + [(n, v - 1)], x, v)
  {
  }

  /** Clearing flag `k` of cell `ps[t]`, if it was still set, extends the run of
      cleared cells `ps[0 .. t - 1]` by one. */
  lemma ClearedPrefix(d: seq<Domain>, d': seq<Domain>, ps: seq<int>, t: int, k: int)
    requires DomainsShaped(d) && 0 <= t < |ps| && 0 <= k < 9
    requires forall u :: 0 <= u < |ps| ==> 0 <= ps[u] < Cells
    requires forall u :: 0 <= u < t ==> !d[ps[u]][k]
    requires d' == d[ps[t] := d[ps[t]][k := false]] || (d' == d && !d[ps[t]][k])
    ensures DomainsShaped(d')
    ensures forall u :: 0 <= u <= t ==> !d'[ps[u]][k]
  {
  }

  /** The forward checking of one assignment `x := v`: clear `v` from the domain of
      each neighbour in ascending order, logging each flag actually cleared, and
      stop at the first neighbour whose domain becomes empty. */
  method ForwardCheck(doms: seq<Domain>, x: int, v: int) returns (doms': seq<Domain>, removals: seq<(int, int)>, failed: bool)
    requires DomainsShaped(doms) && IsCell(x) && IsValue(v)
    ensures DomainsShaped(doms')
    ensures forall n, k :: 0 <= n < Cells && 0 <= k < 9 ==> doms'[n][k] == (doms[n][k] && (n, k) !in removals)
    ensures forall e :: e in removals ==> e.1 == v - 1 && IsPeer(x, e.0) && doms[e.0][e.1]
    ensures !failed ==> forall n :: IsPeer(x, n) ==> !doms'[n][v - 1]
    ensures failed ==> exists e :: e in removals && IsCell(e.0) && Size(doms'[e.0]) == 0
  {
    var ps := Peers(x);
    forall u | 0 <= u < |ps|
      ensures IsPeer(x, ps[u])
    {
      assert ps[u] in ps;
    }
    assert forall u :: 0 <= u < |ps| ==> 0 <= ps[u] < Cells;
    doms' := doms;
    removals := [];
    failed := false;
    var t := 0;
    while t < |ps|
      invariant 0 <= t <= |ps|
      invariant DomainsShaped(doms') && ClearedBy(doms, doms', removals, x, v)
      invariant forall u :: 0 <= u < t ==> !doms'[ps[u]][v - 1]
    {
      var n := ps[t];
      ghost var before := doms';
      if doms'[n][v - 1] {
        ClearedStep(doms, doms', removals, x, v, n);
        doms' := doms'[n := doms'[n][v - 1 := false]];
        removals := removals + [(n, v - 1)];
        if Size(doms'[n]) == 0 {
          failed := true;
          assert (n, v - 1) in removals;
          return;
        }
      }
      ClearedPrefix(before, doms', ps, t, v - 1);
      t := t + 1;
    }
    forall n | IsPeer(x, n)
      ensures !doms'[n][v - 1]
    {
      PeerMember(x, n);
    }
  }

  /** Restoring the logged flags: each one is set again. */
  method Restore(doms: seq<Domain>, removals: seq<(int, int)>) returns (doms': seq<Domain>)
    requires DomainsShaped(doms)
    requires forall e :: e in removals ==> IsCell(e.0) && 0 <= e.1 < 9
    ensures DomainsShaped(doms')
    ensures forall n, k :: 0 <= n < Cells && 0 <= k < 9 ==> doms'[n][k] == (doms[n][k] || (n, k) in removals)
  {
    doms' := doms;
    var t := 0;
    while t < |removals|
      invariant 0 <= t <= |removals|
      invariant DomainsShaped(doms')
      invariant forall n, k :: 0 <= n < Cells && 0 <= k < 9 ==> doms'[n][k] == (doms[n][k] || (n, k) in removals[..t])
    {
      var e := removals[t];
      assert removals[..t + 1] == removals[..t] + [e];
      doms' := doms'[e.0 := doms'[e.0][e.1 := true]];
      t := t + 1;
    }
    assert removals[..t] == removals;
  }

  /** Undoing the forward check of `x := v` gives back the domains it started from. */
  lemma RestoreUndoesForwardCheck(doms: seq<Domain>, d1: seq<Domain>, removals: seq<(int, int)>, d2: seq<Domain>, x: int, v: int)
    requires DomainsShaped(doms) && DomainsShaped(d1) && DomainsShaped(d2) && IsCell(x) && IsValue(v)
    requires forall n, k :: 0 <= n < Cells && 0 <= k < 9 ==> d1[n][k] == (doms[n][k] && (n, k) !in removals)
    requires forall e :: e in removals ==> e.1 == v - 1 && IsPeer(x, e.0) && doms[e.0][e.1]
    requires forall n, k :: 0 <= n < Cells && 0 <= k < 9 ==> d2[n][k] == (d1[n][k] || (n, k) in removals)
    ensures d2 == doms
  {
    forall n | 0 <= n < Cells
      ensures d2[n] == doms[n]
    {
      forall k | 0 <= k < 9
        ensures d2[n][k] == doms[n][k]
      {
        if (n, k) in removals {
          assert doms[n][k];
        }
      }
    }
  }

  /** No two neighbours hold the same digit. */
  ghost predicate Consistent(board: Board) {
    forall i, j :: 0 <= i < |board| && 0 <= j < |board| && IsPeer(i, j) && board[i] != 0 ==> board[i] != board[j]
  }

  /** Forward checking is up to date: an empty cell's domain holds no digit that a
      neighbour already has. */
  ghost predicate Sound(board: Board, doms: seq<Domain>)
    requires WellFormed(board, doms)
  {
    forall n, p :: IsPeer(n, p) && board[n] == 0 && board[p] != 0 ==> !doms[n][board[p] - 1]
  }

  /** `board'` keeps every digit of `board`. */
  predicate Extends(board: Board, board': Board) {
    |board'| == |board| && forall i :: 0 <= i < |board| && board[i] != 0 ==> board'[i] == board[i]
  }

  /** Every digit `board'` places on an empty cell of `board` was in that cell's domain. */
  predicate Supported(board: Board, doms: seq<Domain>, board': Board)
    requires WellFormed(board, doms) && |board'| == Cells
  {
    forall i :: 0 <= i < Cells && board[i] == 0 ==> IsValue(board'[i]) && doms[i][board'[i] - 1]
  }

  /** Placing a digit from a sound domain and clearing it from every neighbour
      keeps the board consistent and the domains sound. */
  lemma AssignKeepsSound(board: Board, doms: seq<Domain>, x: int, v: int, d1: seq<Domain>)
    requires WellFormed(board, doms) && IsCell(x) && board[x] == 0 && IsValue(v) && doms[x][v - 1]
    requires Consistent(board) && Sound(board, doms)
    requires DomainsShaped(d1)
    requires forall n, k :: 0 <= n < Cells && 0 <= k < 9 && d1[n][k] ==> doms[n][k]
    requires forall n :: IsPeer(x, n) ==> !d1[n][v - 1]
    ensures WellFormed(board[x := v], d1)
    ensures Consistent(board[x := v]) && Sound(board[x := v], d1)
  {
    var b1 := board[x := v];
    forall i, j | 0 <= i < |b1| && 0 <= j < |b1| && IsPeer(i, j) && b1[i] != 0
      ensures b1[i] != b1[j]
    {
      IsPeerSymmetric(i, j);
      if i == x && board[j] != 0 {
        assert !doms[x][board[j] - 1];
      } else if j == x {
        assert !doms[x][board[i] - 1];
      }
    }
    forall n, p | IsPeer(n, p) && b1[n] == 0 && b1[p] != 0
      ensures !d1[n][b1[p] - 1]
    {
      IsPeerSymmetric(n, p);
    }
  }

  /** A solution found after placing `v` on `x`, with `v` still in the domain of
      `x` and every other domain only shrunk, is supported by the domains before. */
  lemma SupportLifts(board: Board, doms: seq<Domain>, x: int, v: int, d1: seq<Domain>, solved: Board)
    requires WellFormed(board, doms) && IsCell(x) && board[x] == 0 && IsValue(v) && doms[x][v - 1]
    requires DomainsShaped(d1) && forall n, k :: 0 <= n < Cells && 0 <= k < 9 && d1[n][k] ==> doms[n][k]
    requires |solved| == Cells && Extends(board[x := v], solved) && Supported(board[x := v], d1, solved)
    ensures Extends(board, solved) && Supported(board, doms, solved)
  {
    forall i | 0 <= i < Cells && board[i] == 0
      ensures IsValue(solved[i]) && doms[i][solved[i] - 1]
    {
      if i == x {
        assert board[x := v][x] == v;
      } else {
        assert board[x := v][i] == 0;
      }
    }
  }

  /** One turn of the value loop of `backtrack`: place `v` on the empty cell `x`,
      forward check, and recurse unless a domain was wiped out; on failure the
      logged flags are set again and the cell is emptied. */
  method TryValue(board: Board, doms: seq<Domain>, x: int, v: int) returns (ok: bool, board': Board, doms': seq<Domain>)
    requires WellFormed(board, doms) && IsCell(x) && board[x] == 0 && IsValue(v) && doms[x][v - 1]
    ensures WellFormed(board', doms')
    ensures ok ==> Complete(board') && Extends(board, board') && Supported(board, doms, board')
    ensures !ok ==> board' == board && doms' == doms
    ensures ok && Consistent(board) && Sound(board, doms) ==> Consistent(board')
    decreases multiset(board)[0], 0
  {
    var b1 := board[x := v];
    var d1, removals, failed := ForwardCheck(doms, x, v);
    if !failed {
      assert multiset(b1)[0] < multiset(board)[0];
      ok, board', doms' := Backtrack(b1, d1);
      if ok {
        SupportLifts(board, doms, x, v, d1, board');
        if Consistent(board) && Sound(board, doms) {
          AssignKeepsSound(board, doms, x, v, d1);
        }
        return;
      }
    }
    doms' := Restore(d1, removals);
    RestoreUndoesForwardCheck(doms, d1, removals, doms', x, v);
    board' := b1[x := 0];
    assert board' == board;
    ok := false;
  }

  /** `backtrack`: fill the empty cells depth first, trying for the chosen cell
      every value of its domain in increasing order. On success the board is
      full, keeps the givens and every placed digit was in its cell's domain; on
      failure board and domains are exactly as on entry. */
  method Backtrack(board: Board, doms: seq<Domain>) returns (ok: bool, board': Board, doms': seq<Domain>)
    requires WellFormed(board, doms)
    ensures WellFormed(board', doms')
    ensures ok ==> Complete(board') && Extends(board, board') && Supported(board, doms, board')
    ensures !ok ==> board' == board && doms' == doms
    ensures ok && Consistent(board) && Sound(board, doms) ==> Consistent(board')
    decreases multiset(board)[0], 1
  {
    if Complete(board) {
      return true, board, doms;
    }
    var x := Select(board, doms);
    var v := 1;
    while v <= 9
      invariant 1 <= v <= 10
    {
      if doms[x][v - 1] {
        ok, board', doms' := TryValue(board, doms, x, v);
        if ok {
          return;
        }
      }
      v := v + 1;
    }
    return false, board, doms;
  }

  /** The domains `initialize_domains` leaves are up to date with the givens. */
  lemma InitialSound(board: Board, doms: seq<Domain>)
    requires WellFormed(board, doms)
    requires Initialized(board, doms)
    ensures Sound(board, doms)
  {
    forall n, p | IsPeer(n, p) && board[n] == 0 && board[p] != 0
      ensures !doms[n][board[p] - 1]
    {
      var v := board[p];
      assert IsCell(n) && IsValue(v);
      assert 0 <= p < Cells && IsPeer(n, p) && board[p] == v;
      assert PeerHolds(board, n, v);
      assert !Has(doms[n], v);
    }
  }

  /** No digit placed on an empty cell repeats a given of a neighbour. */
  predicate RespectsGivens(board: Board, board': Board)
    requires |board| == Cells && |board'| == Cells
  {
    forall n, p :: 0 <= n < Cells && 0 <= p < Cells && IsPeer(n, p) && board[n] == 0 && board[p] != 0 ==> board'[n] != board[p]
  }

  /** A solution drawn from the initial domains respects the givens. */
  lemma SupportedRespectsGivens(board: Board, doms: seq<Domain>, board': Board)
    requires WellFormed(board, doms) && |board'| == Cells
    requires Sound(board, doms) && Supported(board, doms, board')
    ensures RespectsGivens(board, board')
  {
    forall n, p | IsPeer(n, p) && board[n] == 0 && board[p] != 0
      ensures board'[n] != board[p]
    {
      assert doms[n][board'[n] - 1];
    }
  }

  /** The solver run from the givens: `initialize_domains`, then `backtrack`. A
      solution keeps the givens, never repeats a given of a neighbour, and is
      consistent when the givens are. */
  method SolveBoard(board: Board) returns (ok: bool, solved: Board)
    requires |board| == Cells && forall i :: 0 <= i < Cells ==> 0 <= board[i] <= 9
    ensures |solved| == Cells && forall i :: 0 <= i < Cells ==> 0 <= solved[i] <= 9
    ensures ok ==> Complete(solved) && Extends(board, solved) && RespectsGivens(board, solved)
    ensures ok && Consistent(board) ==> Consistent(solved)
    ensures !ok ==> solved == board
  {
    var doms := InitializeDomains(board);
    InitialSound(board, doms);
    var doms';
    ok, solved, doms' := Backtrack(board, doms);
    if ok {
      SupportedRespectsGivens(board, doms, solved);
    }
  }
}

=== FILE: sudoku_text.dfy ===
/** The text side of the Sudoku programs: reading the 81-character puzzle,
    printing the board in the two layouts of the two programs, and `solve`,
    which runs the solver between them. */
module SudokuText {
  import opened Results
  import opened SudokuPeers
  import opened SudokuSolver

  predicate IsDigit(c: char) {
    '0' <= c <= '9'
  }

  /** Cell `i` of the input reads as a digit: the character exists and is one. */
  predicate Readable(input: string, i: int) {
    0 <= i < |input| && IsDigit(input[i])
  }

  /** The first cell from `i` on that does not read as a digit, or 81. */
  function FirstUnreadable(input: string, i: int): (bad: int)
    requires 0 <= i <= Cells
    ensures i <= bad <= Cells
    ensures forall n :: i <= n < bad ==> Readable(input, n)
    ensures bad < Cells ==> !Readable(input, bad)
    decreases Cells - i
  {
    if i == Cells || !Readable(input, i) then i else FirstUnreadable(input, i + 1)
  }

  lemma AllReadable(input: string)
    requires forall n :: 0 <= n < Cells ==> Readable(input, n)
    ensures |input| >= Cells && forall i :: 0 <= i < Cells ==> IsDigit(input[i])
  {
    assert Readable(input, Cells - 1);
    forall i | 0 <= i < Cells
      ensures IsDigit(input[i])
    {
      assert Readable(input, i);
    }
  }

  /** The constructor followed by the first loop of `initialize_domains`: cell `i`
      becomes `input[i] - '0'`. A character that is not a digit, or the end of a
      short input, gives a value outside 0 .. 9, on which `bitset::set` throws
      `out_of_range`; the model reports the first such cell. */
  function Parse(input: string): (r: Result<Board, int>)
    ensures r.Ok? <==> |input| >= Cells && forall i :: 0 <= i < Cells ==> IsDigit(input[i])
    ensures r.Ok? ==> |r.value| == Cells && forall i :: 0 <= i < Cells ==> r.value[i] == input[i] as int - '0' as int
    ensures r.Err? ==> 0 <= r.error < Cells && !Readable(input, r.error)
    ensures r.Err? ==> forall i :: 0 <= i < r.error ==> Readable(input, i)
  {
    var bad := FirstUnreadable(input, 0);
    if bad < Cells then
      Err(bad)
    else
      AllReadable(input);
      Ok(seq(Cells, i requires 0 <= i < Cells && Readable(input, i) => input[i] as int - '0' as int))
  }

  /** The character `os << d` writes for a digit `d`. */
  function DigitChar(d: int): (c: char)
    requires 0 <= d <= 9
    ensures IsDigit(c) && c as int - '0' as int == d
  {
    ('0' as int + d) as char
  }

  /** A board of digits written back as the 81 characters it was read from. */
  function Digits(board: Board): (s: string)
    requires |board| == Cells && forall i :: 0 <= i < Cells ==> 0 <= board[i] <= 9
    ensures |s| == Cells
  {
    seq(Cells, i requires 0 <= i < Cells => DigitChar(board[i]))
  }

  /** Reading an input and writing its digits back gives its first 81 characters. */
  lemma ParseDigits(input: string)
    requires Parse(input).Ok?
    ensures forall i :: 0 <= i < Cells ==> 0 <= Parse(input).value[i] <= 9
    ensures Digits(Parse(input).value) == input[..Cells]
  {
    var b := Parse(input).value;
    forall i | 0 <= i < Cells
      ensures Digits(b)[i] == input[i]
    {
      assert DigitChar(b[i]) as int == input[i] as int;
    }
  }

  /** Writing a board of digits and reading it back gives the board. */
  lemma DigitsParse(board: Board)
    requires |board| == Cells && forall i :: 0 <= i < Cells ==> 0 <= board[i] <= 9
    ensures Parse(Digits(board)) == Ok(board)
  {
    assert forall i :: 0 <= i < Cells ==> IsDigit(Digits(board)[i]);
    assert Parse(Digits(board)).value == board;
  }

  /** The line between two bands of rows. */
  const Separator: string := "------+-------+------"

  /** What `print_board` writes after the digit in row `r`, column `c`: `" | "`
      after the third and sixth columns, a single space after the others but
      the last; after the last a line break, except after the very last row,
      and after the third and sixth rows the separator line. The `padded`
      layout of full_quiz5_solution.cpp writes a space after the last column as
      well, and a line break after every row. */
  function Gap(r: int, c: int, padded: bool): string {
    if c == 2 || c == 5 then " | "
    else if c != 8 then " "
    else
      (if padded then " \n" else if r != 8 then "\n" else "") +
      (if r == 2 || r == 5 then Separator + "\n" else "")
  }

  /** The printed digits from row `r`, column `c` on, each followed by its gap:
      the two nested loops of `print_board` run as one row-major scan over the
      81 characters `ds`. */
  function Text(ds: string, r: int, c: int, padded: bool): string
    requires |ds| == Cells && 0 <= r <= 9 && 0 <= c < 9
    decreases Cells - Index(r, c)
  {
    if r == 9 then [] else [ds[Index(r, c)]] + Gap(r, c, padded) + Text(ds, NextRow(r, c), NextCol(c), padded)
  }

  /** Where the digit of row `r`, column `c` stands in the printed rows: each row
      with its line break takes 22 characters (23 when padded), each separator
      line 22, and column `c` sits after `c` single spaces and a `" | "` per
      completed box. */
  function Position(r: int, c: int, padded: bool): int {
    (if padded then 23 * r else 22 * r) + 22 * Band(r) + 2 * c + 2 * Band(c)
  }

  /** The characters of all printed rows. */
  function RowsLength(padded: bool): int {
    if padded then 251 else 241
  }

  lemma GapSize(r: int, c: int, padded: bool)
    requires 0 <= r < 9 && 0 <= c < 9 && Index(r, c) < Cells - 1
    ensures 1 + |Gap(r, c, padded)| == Position(NextRow(r, c), NextCol(c), padded) - Position(r, c, padded)
  {
  }

  lemma NextIndex(r: int, c: int)
    requires 0 <= r < 9 && 0 <= c < 9
    ensures Index(NextRow(r, c), NextCol(c)) == Index(r, c) + 1
  {
  }

  lemma SameIndex(r: int, c: int, r': int, c': int)
    requires 0 <= r < 9 && 0 <= c < 9 && 0 <= r' < 9 && 0 <= c' < 9
    requires Index(r, c) == Index(r', c')
    ensures r == r' && c == c'
  {
  }

  /** Later cells are printed further on. */
  lemma PositionOrder(r: int, c: int, r': int, c': int, padded: bool)
    requires 0 <= r < 9 && 0 <= c < 9 && 0 <= r' < 9 && 0 <= c' < 9
    requires Index(r, c) <= Index(r', c')
    ensures Position(r, c, padded) <= Position(r', c', padded)
  {
    if r < r' {
      assert Index(r, c) < 9 * r';
    }
  }

  lemma {:induction false} TextSize(ds: string, r: int, c: int, padded: bool)
    requires |ds| == Cells && 0 <= r < 9 && 0 <= c < 9
    ensures |Text(ds, r, c, padded)| == RowsLength(padded) - Position(r, c, padded)
    decreases Cells - Index(r, c)
  {
    assert Text(ds, r, c, padded) == [ds[Index(r, c)]] + Gap(r, c, padded) + Text(ds, NextRow(r, c), NextCol(c), padded);
    if Index(r, c) < Cells - 1 {
      GapSize(r, c, padded);
      TextSize(ds, NextRow(r, c), NextCol(c), padded);
    } else {
      assert Text(ds, 9, 0, padded) == [];
    }
  }

  /** The digit of every later cell stands at its position. */
  lemma {:induction false} TextDigit(ds: string, r: int, c: int, padded: bool, r': int, c': int)
    requires |ds| == Cells && 0 <= r < 9 && 0 <= c < 9 && 0 <= r' < 9 && 0 <= c' < 9
    requires Index(r, c) <= Index(r', c')
    ensures Position(r, c, padded) <= Position(r', c', padded) < Position(r, c, padded) + |Text(ds, r, c, padded)|
    ensures Text(ds, r, c, padded)[Position(r', c', padded) - Position(r, c, padded)] == ds[Index(r', c')]
    decreases Cells - Index(r, c)
  {
    TextSize(ds, r, c, padded);
    PositionOrder(r, c, r', c', padded);
    var head := TextCons(ds, r, c, padded);
    var rest := Text(ds, NextRow(r, c), NextCol(c), padded);
    var k := Position(r', c', padded) - Position(r, c, padded);
    if Index(r, c) < Index(r', c') {
      NextIndex(r, c);
      PositionOrder(NextRow(r, c), NextCol(c), r', c', padded);
      TextDigit(ds, NextRow(r, c), NextCol(c), padded, r', c');
      assert (head + rest)[k] == rest[k - |head|];
    } else {
      SameIndex(r, c, r', c');
      assert (head + rest)[0] == ds[Index(r, c)];
    }
  }

  /** The scan from a cell is what it prints for that cell followed by the scan
      from the next. */
  lemma TextCons(ds: string, r: int, c: int, padded: bool) returns (head: string)
    requires |ds| == Cells && 0 <= r < 9 && 0 <= c < 9
    ensures Text(ds, r, c, padded) == head + Text(ds, NextRow(r, c), NextCol(c), padded)
    ensures |head| > 0 && head[0] == ds[Index(r, c)]
    ensures Index(r, c) < Cells - 1 ==> |head| == Position(NextRow(r, c), NextCol(c), padded) - Position(r, c, padded)
  {
    head := [ds[Index(r, c)]] + Gap(r, c, padded);
    if Index(r, c) < Cells - 1 {
      GapSize(r, c, padded);
    }
  }

  /** The scan from any cell ends with what it prints for the last cell. */
  lemma {:induction false} TextEnd(ds: string, r: int, c: int, padded: bool)
    requires |ds| == Cells && 0 <= r < 9 && 0 <= c < 9
    ensures |Text(ds, 8, 8, padded)| <= |Text(ds, r, c, padded)|
    ensures Text(ds, r, c, padded)[|Text(ds, r, c, padded)| - |Text(ds, 8, 8, padded)|..] == Text(ds, 8, 8, padded)
    decreases Cells - Index(r, c)
  {
    var head := TextCons(ds, r, c, padded);
    if Index(r, c) < Cells - 1 {
      TextEnd(ds, NextRow(r, c), NextCol(c), padded);
      SuffixOfConcat(head, Text(ds, NextRow(r, c), NextCol(c), padded), |Text(ds, 8, 8, padded)|);
    } else {
      SameIndex(r, c, 8, 8);
    }
  }

  /** `print_board` on the 81 digit characters `ds`: `"done!"`, a line break,
      then the rows. */
  function Layout(ds: string, padded: bool): (s: string)
    requires |ds| == Cells
    ensures |s| == 6 + RowsLength(padded)
    ensures s[..6] == "done!\n"
  {
    TextSize(ds, 0, 0, padded);
    "done!\n" + Text(ds, 0, 0, padded)
  }

  /** Where the digit of cell `n` stands in the printed board. */
  function DigitPosition(n: int, padded: bool): int
    requires IsCell(n)
  {
    6 + Position(n / 9, n % 9, padded)
  }

  lemma LayoutDigit(ds: string, padded: bool, n: int)
    requires |ds| == Cells && IsCell(n)
    ensures DigitPosition(n, padded) < |Layout(ds, padded)|
    ensures Layout(ds, padded)[DigitPosition(n, padded)] == ds[n]
  {
    var r, c := n / 9, n % 9;
    assert n == Index(r, c);
    TextDigit(ds, 0, 0, padded, r, c);
    var rows := Text(ds, 0, 0, padded);
    assert Layout(ds, padded) == "done!\n" + rows;
    assert ("done!\n" + rows)[DigitPosition(n, padded)] == rows[DigitPosition(n, padded) - 6];
  }

  /** Reading the 81 digits back out of a printed board. */
  function ReadLayout(s: string, padded: bool): (ds: string)
    requires |s| == 6 + RowsLength(padded)
    ensures |ds| == Cells
  {
    seq(Cells, n requires 0 <= n < Cells =>
      var p := DigitPosition(n, padded);
      if 0 <= p < |s| then s[p] else '0')
  }

  /** The printed board can be read back: printing loses no digit and puts
      every digit at its cell's position. */
  lemma LayoutRoundTrip(ds: string, padded: bool)
    requires |ds| == Cells
    ensures ReadLayout(Layout(ds, padded), padded) == ds
  {
    var s := Layout(ds, padded);
    forall n | 0 <= n < Cells
      ensures ReadLayout(s, padded)[n] == ds[n]
    {
      LayoutDigit(ds, padded, n);
    }
  }

  /** The unpadded layout stops right after the last digit; the padded one ends
      with a space and a line break. */
  lemma LayoutEnding(ds: string, padded: bool)
    requires |ds| == Cells
    ensures !padded ==> Layout(ds, padded)[|Layout(ds, padded)| - 1] == ds[Cells - 1]
    ensures padded ==> Layout(ds, padded)[|Layout(ds, padded)| - 2] == ' '
    ensures padded ==> Layout(ds, padded)[|Layout(ds, padded)| - 1] == '\n'
  {
    LayoutTail(ds, padded);
    LastGap(padded);
    var s := Layout(ds, padded);
    var g := Gap(8, 8, padded);
    var t := s[|s| - 1 - |g|..];
    assert s[|s| - 1] == t[|t| - 1];
    if padded {
      assert s[|s| - 2] == t[|t| - 2];
    }
  }

  /** After the last digit comes only a line break when padded, nothing otherwise. */
  lemma LastGap(padded: bool)
    ensures Gap(8, 8, padded) == if padded then " \n" else ""
  {
  }

  /** The printed board ends with the last digit and its gap. */
  lemma LayoutTail(ds: string, padded: bool)
    requires |ds| == Cells
    ensures Layout(ds, padded)[|Layout(ds, padded)| - 1 - |Gap(8, 8, padded)|..] == [ds[Cells - 1]] + Gap(8, 8, padded)
  {
    TextEnd(ds, 0, 0, padded);
    LastText(ds, padded);
    SuffixOfConcat("done!\n", Text(ds, 0, 0, padded), |Text(ds, 8, 8, padded)|);
  }

  /** The scan from the last cell prints its digit and its gap. */
  lemma LastText(ds: string, padded: bool)
    requires |ds| == Cells
    ensures Text(ds, 8, 8, padded) == [ds[Cells - 1]] + Gap(8, 8, padded)
  {
    assert Text(ds, 9, 0, padded) == [];
  }

  /** The last `k` elements of a concatenation come from its second part. */
  lemma SuffixOfConcat(a: string, b: string, k: int)
    requires 0 <= k <= |b|
    ensures (a + b)[|a + b| - k..] == b[|b| - k..]
  {
  }

  /** A board of digits, as a constructed or solved board is. */
  predicate Digital(board: Board) {
    |board| == Cells && forall i :: 0 <= i < Cells ==> 0 <= board[i] <= 9
  }

  /** `print_board` on a board. */
  function Print(board: Board, padded: bool): (s: string)
    requires Digital(board)
    ensures |s| == 6 + RowsLength(padded)
    ensures s[..6] == "done!\n"
    ensures ReadLayout(s, padded) == Digits(board)
  {
    LayoutRoundTrip(Digits(board), padded);
    Layout(Digits(board), padded)
  }

  /** Printing a board and reading it back gives the board. */
  lemma PrintRoundTrip(board: Board, padded: bool)
    requires Digital(board)
    ensures Parse(ReadLayout(Print(board, padded), padded)) == Ok(board)
  {
    LayoutRoundTrip(Digits(board), padded);
    DigitsParse(board);
  }

  /** `solve`, after the constructor: search from the initial domains and print
      the solved board, or the failure message. An input the constructor cannot
      read throws before anything is printed. */
  method Solve(input: string, padded: bool) returns (r: Result<Option<Board>, int>, out: string)
    ensures r.Err? <==> Parse(input).Err?
    ensures r.Err? ==> r.error == Parse(input).error && out == ""
    ensures r.Ok? && r.value.None? ==> out == "Cannot solve the puzzle.\n"
    ensures r.Ok? && r.value.Some? ==>
      var given, solved := Parse(input).value, r.value.value;
      Digital(solved) && Complete(solved) && Extends(given, solved) && RespectsGivens(given, solved) &&
      out == Print(solved, padded)
    ensures r.Ok? && r.value.Some? && Consistent(Parse(input).value) ==> Consistent(r.value.value)
  {
    var parsed := Parse(input);
    if parsed.Err? {
      return Err(parsed.error), "";
    }
    var ok, solved := SolveBoard(parsed.value);
    if !ok {
      return Ok(None), "Cannot solve the puzzle.\n";
    }
    r := Ok(Some(solved));
    out := Print(solved, padded);
  }
}
